=== FILE: README.md ===
# Statistics bot core, modelled in Dafny

This project models the decision and formatting core of a Discord
statistics bot. The bot's other parts (commands, embeds, plotting, the
database driver) sit around these pieces.

- **Command permissions.** `CommandPermissions` compiles a guild's
  `command_config` rows into allow/deny sets of command names per scope. The
  scopes are the guild, categories, channels, roles and users.
  `is_command_allowed` then resolves one invocation. It expands the command
  into its prefixes (`""`, `"role"`, `"role create"`) and walks guild,
  category, channel, roles and user. The most specific matching prefix in the
  last scope that has a match decides. Every rule that fires is recorded in
  the `modded` audit, and the admin and manager role flags are derived along
  the way.
- **Statistics permissions.** `StatPermissions` is the same walk with one
  boolean per scope object. It is proved to agree with the command resolver
  on the empty command path.
- **The `cache` decorator.** The decorator puts a bounded LRU map in front of
  a function. The model covers:
  - keys built from the function's `module.name` (its `__module__` and
    `__name__`, not its `__qualname__`, so same-named methods of two classes
    in one module share that part of the key) and the call's argument reprs;
  - hits, synchronous misses and awaitable misses, where an awaitable stores
    only once it resolves;
  - `invalidate` and `invalidate_containing`;
  - `ExpiringDict`, whose entries carry an expiry time and are purged on
    every lookup.
- **Time helpers.** `human(seconds)` prints a duration as
  `"<d> days, <h> hours, ..."`. `floor_time(top)` rounds the minute down to a
  multiple of `top`.
- **Statistics helpers.**
  - The `StatisticType` selection predicates and the SQL `WHERE` fragment
    `get_condition` builds from them.
  - `IntervalConverter.convert`, which reads `"<n> days|weeks|months"` out of
    free text.
  - The `count`, `count_all` and `count_compressed` folds over database rows.
- **The schema layer.** The SQL column types, with their constructor
  validation, `to_sql` and `is_real_type`. Also `Column.create_statement`, the
  table metaclass's column naming, and `Table.create_table`.

Each module holds a pure, executable definition that follows the Python
branch for branch. Next to it sits an independent statement of what the
definition means, with a lemma connecting the two:

| operation | partner |
|---|---|
| rendered SQL types | a parser, with a round-trip lemma |
| `human` | a parser; `human` is shown injective |
| `get_condition` | a parser recovers the selected filter |
| `is_command_allowed` | a left fold over the visited scopes, "last matching scope decides", and an audit characterisation |
| `is_allowed` | "last present entry of the chain", and agreement with `is_command_allowed` |
| the LRU | the exact recency order after a read or a store, eviction of the least recently used key (FillOrder, FillThenEvict, TouchThenEvict), and size and key invariants |
| `ExpiringDict` | a value reads back exactly within its lifetime (SetThenGet), and a later purge subsumes an earlier one (PurgeMonotone) |
| `count` | per-key sums and sortedness |
| loops (`floor_time`, `create_table`, `count_all`, `count_compressed`) | a method whose postcondition is the functional reference |

Files:

- `wrappers.dfy`: `Option` and `Result`.
- `strings.dfy`: joining, splitting, substring search, decimal numerals and
  ASCII case mapping.
- `scope.dfy`: the five scope kinds and their integer codes.
- `command_config.dfy`: command permissions.
- `stat_config.dfy`: statistics permissions.
- `storage_cache.dfy`: the cache decorator and `ExpiringDict`.
- `time_util.dfy`: `human` and `floor_time`.
- `statistics.dfy`: statistic types, the interval converter and the counting
  helpers.
- `database.dfy`: SQL types, columns and `create_table`.

A note on `Numeric`: its error message says the precision must be "greater
than 0 and below 1000", but the check raises only outside 0..1000. The model
follows the check, so precisions 0 and 1000 are accepted.

## Model

| member | source | states |
|---|---|---|
| Scope.Code | bot/cogs/command_config.py:36-42 | each scope kind has a code in 0..4 and the code maps back to the kind |
| Scope.FromCode | bot/cogs/stats/stat_config.py:27-33 | an integer names a scope kind exactly when it is in 0..4 |
| Scope.FromCodeInjective | bot/cogs/command_config.py:36-42 | two valid codes naming the same kind are equal |
| CommandConfig.PutAllowDictEffect | bot/cogs/command_config.py:119-129 | `_put_allow_dict` creates the entry for a new key and adds the name to the allow or deny side of that key only; other keys keep their sets |
| CommandConfig.AddRowEffect | bot/cogs/command_config.py:90-108 | one row changes only the scope object its kind and id name, on the allow or deny side its flag picks, with a `None` name stored as `""`; rows with an unknown code change nothing |
| CommandConfig.CompileFiles | bot/cogs/command_config.py:81-108 | after compiling all rows, a scope object's allowed (denied) set is exactly the names of the allow (deny) rows filed under it; an object has an entry iff some row names it; the admin and manager ids come from the role row, `None` without one |
| CommandConfig.CompileGuild | bot/cogs/command_config.py:81-100 | the compiled guild pair holds the names of the guild rows, split by their allow flag, whatever their object id |
| CommandConfig.CompileTable | bot/cogs/command_config.py:90-108 | a category, channel, user or role object has an entry iff some row of that kind names it, and its sets are the names of exactly those rows, split by their allow flag |
| CommandConfig.UnknownKindIgnored | bot/cogs/command_config.py:94-98 | appending a row whose type code is not 0..4 leaves the compiled permissions unchanged |
| CommandConfig.AccumulateJoins | bot/cogs/command_config.py:143-144 | the i-th accumulated element is the first i+1 tokens joined by single spaces |
| CommandConfig.SplitCommand | bot/cogs/command_config.py:140-144 | `_split` returns one more element than there are whitespace-separated tokens, starting with `""` |
| CommandConfig.SplitCommandJoins | bot/cogs/command_config.py:140-144 | element i (for i >= 1) of `_split` is the first i tokens joined by single spaces |
| CommandConfig.SplitCommandChain | bot/cogs/command_config.py:140-144 | each element of `_split` is a prefix of the next, which extends it by a space and the next token |
| CommandConfig.SplitCanonical | bot/cogs/command_config.py:140-144 | for a space-joined list of words, `_split` has one element per word plus `""`, and its last element is the command itself |
| CommandConfig.ScanScopeDecides | bot/cogs/command_config.py:154-160 | within one scope object, a scan that matches no prefix leaves `allowed` alone; otherwise the last (longest) matching prefix decides, and a prefix in both sets counts as allowed |
| CommandConfig.ScanScopeAudits | bot/cogs/command_config.py:154-160 | the scan adds to the audit exactly the `(prefix, id, kind)` triples of the matching prefixes, on the allowed side when the prefix is allowed and on the denied side otherwise |
| CommandConfig.ScanRolesFlags | bot/cogs/command_config.py:184-189 | after the role loop, `admin` (`manager`) is set iff it was set before or the admin (manager) id is among the member's roles |
| CommandConfig.ScanRolesIsWalk | bot/cogs/command_config.py:184-197 | the role loop is the same fold as the scope walk, over the roles that have an entry, in iteration order |
| CommandConfig.WalkAppend | bot/cogs/command_config.py:154-207 | walking two lists of scopes one after the other equals walking their concatenation |
| CommandConfig.DecisionIsWalk | bot/cogs/command_config.py:146-209 | `is_command_allowed` equals a left fold over guild, category (when the channel has one with an entry), channel, each role with an entry, and the user (when it has an entry), starting from allowed with an empty audit |
| CommandConfig.WalkLastScopeDecides | bot/cogs/command_config.py:154-207 | when scope k's last matching prefix is i and no later scope matches anything, the outcome is whether prefix i is in scope k's allowed set |
| CommandConfig.WalkNoHit | bot/cogs/command_config.py:154-207 | a walk in which no scope matches any prefix keeps the starting `allowed` |
| CommandConfig.WalkAudits | bot/cogs/command_config.py:154-207 | a triple is in the walk's audit iff it was there at the start or it fired, on that side, at some visited scope |
| CommandConfig.DecisionFlags | bot/cogs/command_config.py:184-189 | the decision's `admin` (`manager`) flag is true iff the admin (manager) id is set and is one of the member's roles, independent of `allowed` |
| CommandConfig.NoRoleRowNoFlags | bot/cogs/command_config.py:110-117 | without a `role_config` row neither flag is ever set |
| CommandConfig.DefaultAllowed | bot/cogs/command_config.py:147-150 | when no visited scope matches any prefix, the command is allowed and the audit is empty |
| CommandConfig.NoRowsAllowed | bot/cogs/command_config.py:81-150 | with no rows and no role row, every command is allowed for everyone, with an empty audit and neither flag |
| CommandConfig.UserRuleDecides | bot/cogs/command_config.py:199-207 | a user entry with a matching prefix decides the outcome, whatever the guild, category, channel and roles say |
| CommandConfig.LastRoleDecides | bot/cogs/command_config.py:184-207 | the last role (in iteration order) whose entry matches decides when no later role and no user rule matches |
| CommandConfig.RoleVisitPosition | bot/cogs/command_config.py:184-197 | a role with an entry is visited, and the roles after it that match nothing contribute nothing |
| CommandConfig.DecisionAudit | bot/cogs/command_config.py:148-207 | a fired rule is in the decision's audit iff it matched at one of the visited scopes, on the side it matched |
| CommandConfig.SubcommandOverridesGroup | bot/cogs/command_config.py:184-197 | a role that denies `"role"` and allows `"role create"` lets its holder run `"role create"` |
| CommandConfig.UserPermsIgnoresCase | bot/cogs/command_config.py:236-240 | the permissions of an invocation do not depend on the letter case of the command's qualified name |
| CommandConfig.UserPermsUnconfigured | bot/cogs/command_config.py:236-249 | a guild without command configuration gets exactly the decision of a configuration compiled from no rows and no role row: allowed, nothing audited, neither flag |
| StatConfig.AddRowEffect | bot/cogs/stats/stat_config.py:73-90 | one row replaces the guild flag or sets one per-kind entry, leaving all others; unknown codes change nothing |
| StatConfig.CompileFiles | bot/cogs/stats/stat_config.py:66-90 | the compiled guild flag is the `allow` of the last guild row (True without one); an object has an entry iff some row names it, holding the `allow` of the last such row |
| StatConfig.UnknownKindIgnored | bot/cogs/stats/stat_config.py:76-80 | a row with a type code outside 0..4 is skipped |
| StatConfig.LaterRowOverwrites | bot/cogs/stats/stat_config.py:81-90 | a row appended last sets its object's entry (or the guild flag) to its own `allow` |
| StatConfig.ScanRolesLast | bot/cogs/stats/stat_config.py:105-108 | the role loop's result is the last of the starting value and the entries of the roles that have one |
| StatConfig.IsAllowedIsLastOfChain | bot/cogs/stats/stat_config.py:92-114 | `is_allowed` returns the last present value along guild, category (if any), channel, roles and user |
| StatConfig.ScanRolesAfter | bot/cogs/stats/stat_config.py:105-108 | the last role with an entry decides the role loop |
| StatConfig.UserEntryDecides | bot/cogs/stats/stat_config.py:110-112 | a user entry, when present, is the result |
| StatConfig.LastRoleDecides | bot/cogs/stats/stat_config.py:105-114 | without a user entry, the last role with an entry decides |
| StatConfig.NoRowsAllowed | bot/cogs/stats/stat_config.py:68 | with no rows, everything is allowed |
| StatConfig.NoRolesKeep | bot/cogs/stats/stat_config.py:105-108 | without role entries the role loop keeps the incoming value |
| StatConfig.UniqueLast | bot/cogs/stats/stat_config.py:81-90 | without duplicate (kind, object) rows, the row filing an object is its last one |
| StatConfig.EntryAgrees | bot/cogs/stats/stat_config.py:81-90 | without duplicates, the command compilation files `""` for the row's object, on the allowed side iff the row allows |
| StatConfig.TableAgrees | bot/cogs/stats/stat_config.py:97-103 | for a category or channel, the statistics lookup and the command scan of `[""]` reach the same `allowed` |
| StatConfig.ChannelAgrees | bot/cogs/stats/stat_config.py:92-103 | for the same rows without duplicates, the statistics lookup through guild, category and channel equals the command scan of `[""]` through the same scopes |
| StatConfig.GuildAgrees | bot/cogs/stats/stat_config.py:93 | the guild flag equals the command guild scan of `[""]` started from True |
| StatConfig.RolesAgree | bot/cogs/stats/stat_config.py:105-108 | the role loops of the two resolvers agree on the path `[""]` |
| StatConfig.AgreesWithCommandResolver | bot/cogs/stats/stat_config.py:92-114 | given the same rows without duplicates, `is_allowed` equals the `allowed` of `is_command_allowed` for the command `""` |
| StorageCache.KwargReprs | bot/util/storage_cache.py:73-75 | two reprs per keyword argument, in order: the i-th argument's name repr at position 2i and its value repr at 2i+1 |
| StorageCache.CreateKeyParts | bot/util/storage_cache.py:65-76 | when no part contains `':'`, splitting the key on `':'` gives back the function's `module.name` followed by the argument reprs |
| StorageCache.CallKeyInjective | bot/util/storage_cache.py:65-80 | for functions whose `module.name` holds no `':'`, keys of calls without keyword arguments are equal iff the `module.name`s and the argument tuple reprs are equal, whatever the reprs contain |
| StorageCache.NewCache | bot/util/storage_cache.py:61-63 | a cache exists for a positive `maxsize`; it starts empty and valid |
| StorageCache.Remove | bot/util/storage_cache.py:96 | removal from the recency order drops exactly that key and keeps the order distinct |
| StorageCache.RemoveAt | bot/util/storage_cache.py:96 | in a distinct recency order, removing the key at position i leaves the keys before it and after it in their relative order |
| StorageCache.Touch | bot/util/storage_cache.py:82 | reading a present key takes it out of the recency order and appends it as most recent, the other keys keeping their relative order; no entry changes, and an absent key changes nothing |
| StorageCache.Put | bot/util/storage_cache.py:87 | storing makes the key map to the value and most recent: a present key is moved to the end of the order, a new key is appended after dropping the least recent key when full; only that key is evicted; other entries are unchanged; validity is kept |
| StorageCache.FillOrder | bot/util/storage_cache.py:61-63 | storing n or fewer distinct keys into an empty cache of size n keeps them all, in the order they were stored |
| StorageCache.FillThenEvict | bot/util/storage_cache.py:61-63 | after filling a cache of size n with n distinct keys, storing one more key evicts the first one stored and keeps all the others |
| StorageCache.TouchThenEvict | bot/util/storage_cache.py:81-87 | in any full valid cache of size >= 2, reading the key at recency position j and then storing a new key evicts the least recent key other than the one read, and nothing else |
| StorageCache.TouchedKept | bot/util/storage_cache.py:81-87 | after filling a cache of size n >= 2 and reading one of its keys, storing a new key evicts the first stored key other than the one just read |
| StorageCache.Delete | bot/util/storage_cache.py:96 | deletion removes exactly that key |
| StorageCache.SizeBound | bot/util/storage_cache.py:61-63 | a valid cache never holds more than `maxsize` entries |
| StorageCache.Call | bot/util/storage_cache.py:79-91 | on a hit `func` is not called and the stored value is returned, wrapped when `func` is a coroutine function; on a synchronous miss the value is stored and returned; on an awaitable miss nothing is stored and a deferred reply is returned; when `func` raises, the exception propagates and the cache is unchanged |
| StorageCache.Resolve | bot/util/storage_cache.py:18-24 | resolving the awaitable stores its value under the key and returns it |
| StorageCache.MissThenHit | bot/util/storage_cache.py:79-91 | after a synchronous miss, the next call with the same key is a hit with the same reply |
| StorageCache.AwaitableStoresOnResolve | bot/util/storage_cache.py:84-86 | after an awaitable miss a second call computes again; once the value resolves the next call is a hit |
| StorageCache.Invalidate | bot/util/storage_cache.py:93-98 | `invalidate` returns True and removes exactly the key when present; otherwise it returns False and leaves the cache unchanged |
| StorageCache.InvalidateForcesRecompute | bot/util/storage_cache.py:93-98 | invalidating a just-cached call makes the next call compute again |
| StorageCache.DeleteMatchingKey | bot/util/storage_cache.py:100-103 | deleting over a list of keys removes a key iff it is listed and contains the substring |
| StorageCache.InvalidateContainingExact | bot/util/storage_cache.py:100-103 | `invalidate_containing(s)` removes every key containing `s` and no other, leaving the other values |
| StorageCache.InvalidateContainingEmpty | bot/util/storage_cache.py:100-103 | `invalidate_containing("")` empties the cache |
| StorageCache.FreshExpiring | bot/util/storage_cache.py:36-58 | a new `ExpiringDict` answers `in` with False and `[]` with `KeyError` for every key at every clock reading, and a value set in it without `seconds` is readable until its set time plus the TTL given at creation |
| StorageCache.SetItem | bot/util/storage_cache.py:55-58 | setting stores the value with expiry now + seconds, or now + TTL when seconds < 0; other keys are unchanged |
| StorageCache.Purge | bot/util/storage_cache.py:40-45 | the purge keeps exactly the entries with now <= expiry, unchanged |
| StorageCache.ContainsKey | bot/util/storage_cache.py:47-49 | `in` purges and then answers whether the key is present and unexpired |
| StorageCache.GetItem | bot/util/storage_cache.py:51-53 | `[]` purges and then returns the stored value iff the entry is unexpired |
| StorageCache.SetThenGet | bot/util/storage_cache.py:51-58 | a value set at time t is read back at time now iff now <= t + its lifetime |
| StorageCache.PurgeMonotone | bot/util/storage_cache.py:40-45 | purging at t1 and then at a later t2 is the same as purging at t2 |
| TimeUtil.Components | bot/util/time_util.py:7-11 | hours < 24, minutes and seconds < 60, and days·86400 + hours·3600 + minutes·60 + seconds equals the input |
| TimeUtil.ParsePiecesOfPieces | bot/util/time_util.py:12-20 | reading the listed pieces back recovers every component (negative days are not listed) |
| TimeUtil.ParseJoined | bot/util/time_util.py:21 | comma-free pieces joined with `", "` read back as the pieces themselves |
| TimeUtil.HumanRoundTrip | bot/util/time_util.py:7-21 | parsing `human(n)` recovers days, hours, minutes and seconds of n (negative days print as nothing) |
| TimeUtil.HumanInjective | bot/util/time_util.py:7-21 | distinct non-negative durations print differently |
| TimeUtil.FloorMinuteFacts | bot/util/time_util.py:48-51 | the first loop stops at the largest multiple of `top` not above the minute, less than one `top` below it |
| TimeUtil.FloorTime | bot/util/time_util.py:45-56 | the loops compute the reference result; for a valid time and non-zero `top`, the hour is unchanged, seconds and microseconds are zero, and the minute is the largest multiple of `top` not above the old minute |
| TimeUtil.FirstMultiple | bot/util/time_util.py:48-51 | no multiple of `top` lies between the floored minute and the minute |
| TimeUtil.BorrowFails | bot/util/time_util.py:52-54 | when the borrow loop drives the hour out of 0..23, `replace` raises `ValueError` |
| TimeUtil.FloorSpecValid | bot/util/time_util.py:48-55 | for a minute in 0..59 the borrow loop never runs and only minute, second and microsecond change |
| TimeUtil.FloorIdempotent | bot/util/time_util.py:45-56 | flooring a floored time changes nothing |
| TimeUtil.MultipleFloorsToItself | bot/util/time_util.py:48-51 | a minute that is already a multiple of `top` is its own floor |
| Statistics.SelectionsExclusive | bot/cogs/stats/statistics.py:24-31 | at most one of `is_member`, `is_channel` and `is_guild` holds |
| Statistics.MemberConditionParses | bot/cogs/stats/statistics.py:46 | the member condition reads back as guild and user filters with those ids |
| Statistics.ChannelConditionParses | bot/cogs/stats/statistics.py:48 | the channel condition reads back as a channel filter with that id |
| Statistics.GuildConditionParses | bot/cogs/stats/statistics.py:50 | the guild condition reads back as a guild filter with that id |
| Statistics.ConditionRoundTrip | bot/cogs/stats/statistics.py:44-52 | `get_condition` fails iff a member is selected without a guild; otherwise it yields no condition exactly when no selection or global flag holds, and its text reads back as the filter the first matching selection (member, then channel, then guild, then global) intends; no condition comes back only when none of them holds |
| Statistics.MatchAt | bot/cogs/stats/statistics.py:91-93 | a match captures at most two digits, so its count is at most 99 |
| Statistics.SearchFromLeftmost | bot/cogs/stats/statistics.py:97 | the search returns the leftmost match, and none exists when it returns none |
| Statistics.ConvertCases | bot/cogs/stats/statistics.py:95-115 | when the day pattern matches the lower-cased argument anywhere, the count at its leftmost match decides (0 is `BadArgument`); otherwise the leftmost week match decides likewise; otherwise the leftmost month match, with counts outside 1..23 `BadArgument`; with no match of any unit the result is `None` |
| Statistics.SearchOfFirst | bot/cogs/stats/statistics.py:97 | `search` reports the count of the leftmost index at which the pattern matches |
| Statistics.SearchOfNone | bot/cogs/stats/statistics.py:97 | `search` reports nothing when the pattern matches at no index |
| Statistics.SearchAtStart | bot/cogs/stats/statistics.py:91-93 | a numeral in 1..99 followed by a space and the unit (and then anything) is found at the start with its value |
| Statistics.SearchWeeks | bot/cogs/stats/statistics.py:97-104 | in `"<w> weeks"` the day search finds nothing and the week search finds w |
| Statistics.SearchMonths | bot/cogs/stats/statistics.py:97-110 | in `"<m> months"` neither the day nor the week search finds anything and the month search finds m |
| Statistics.NoSearchAfterNumeral | bot/cogs/stats/statistics.py:91-93 | a numeral followed by a space and then a digit-free text whose first letter differs from the pattern's contains no match for the pattern |
| Statistics.ConvertDays | bot/cogs/stats/statistics.py:97-102 | `"<d> days"` with d in 1..99 converts to itself |
| Statistics.ConvertWeeks | bot/cogs/stats/statistics.py:103-108 | `"<w> weeks"` with w in 1..99 converts to itself |
| Statistics.ConvertMonths | bot/cogs/stats/statistics.py:109-114 | `"<m> months"` with m in 1..23 converts to itself |
| Statistics.ConvertIdempotent | bot/cogs/stats/statistics.py:95-115 | converting a converted interval gives the same interval |
| Statistics.SumForAbsent | bot/cogs/stats/statistics.py:285-287 | an id no row carries sums to 0 |
| Statistics.FindMember | bot/cogs/stats/statistics.py:284-287 | in a table with distinct ids, looking up a listed pair's id finds its total |
| Statistics.AddToFind | bot/cogs/stats/statistics.py:287 | `people[k] += amount` raises k's total by the amount (from 0 when new) and leaves the other keys |
| Statistics.AddToDistinct | bot/cogs/stats/statistics.py:287 | the counter never holds a key twice |
| Statistics.Totals | bot/cogs/stats/statistics.py:284-287 | the counter built from the rows holds each key once |
| Statistics.TotalsExact | bot/cogs/stats/statistics.py:284-287 | the counter holds a key iff some row carries it (not `None`), with the sum of those rows' amounts |
| Statistics.Insert | bot/cogs/stats/statistics.py:288 | inserting into a descending list keeps it descending and adds exactly one element |
| Statistics.SortDesc | bot/cogs/stats/statistics.py:288 | the sort is a descending permutation of the totals |
| Statistics.CountListsTotals | bot/cogs/stats/statistics.py:283-288 | `count` returns min(n, number of keys) pairs, none for n <= 0, in descending order of total, each a key of the rows with its exact sum, and no key twice |
| Statistics.CountIdsDistinct | bot/cogs/stats/statistics.py:283-288 | the pairs `count` returns carry pairwise different keys, since the counter holds each key once and sorting keeps that |
| Statistics.MostCommonBound | bot/cogs/stats/statistics.py:288 | a pair `most_common` leaves out totals no more than any pair it returns |
| Statistics.CountTopN | bot/cogs/stats/statistics.py:283-288 | a key missing from `count`'s answer has a total no larger than any returned one |
| Statistics.ClassesPartition | bot/cogs/stats/statistics.py:290-305 | every row is in exactly one of the four id-presence classes, so the class sums add up to the total |
| Statistics.CountAll | bot/cogs/stats/statistics.py:290-295 | `count_all` is the total minus the rows with no channel but a user |
| Statistics.CountCompressed | bot/cogs/stats/statistics.py:297-305 | `big` sums the rows with neither id, and `small` sums the rows with exactly one id |
| Database.NewInteger | bot/util/database.py:117-123 | `Integer` fails with `SchemaError` iff both big and small; it is a real type iff not auto-increment |
| Database.NewInterval | bot/util/database.py:145-154 | a non-empty field is upper-cased and must be one of the 13 interval fields, else `SchemaError`; an empty or missing field means none |
| Database.NewNumeric | bot/util/database.py:165-173 | `Numeric` fails with `SchemaError` iff a precision is given outside 0..1000; a given precision defaults the scale to 0 |
| Database.NewString | bot/util/database.py:184-189 | `String` fails with `SchemaError` iff fixed without a length |
| Database.NewForeignKey | bot/util/database.py:219-258 | a foreign key fails with `SchemaError` without a table, with `TypeError` when an action is not one of the five referential actions (after upper-casing), and with `SchemaError` when the target is not real; otherwise it stores the upper-cased actions and is not itself real |
| Database.DefaultForeignKey | bot/util/database.py:219-250 | with a table, the defaults (INTEGER target, CASCADE, NO ACTION) are accepted |
| Database.NewArray | bot/util/database.py:272-282 | an array of a real type succeeds and is not itself real; any other element fails with `SchemaError` |
| Database.ReadInteger | bot/util/database.py:125-136 | the integer renderings (SERIAL, BIGSERIAL, SMALLSERIAL, INTEGER, BIGINT, SMALLINT) read back to their flags |
| Database.ReadIntervalField | bot/util/database.py:156-159 | `INTERVAL <field>` reads back to its field |
| Database.ReadNumeric | bot/util/database.py:175-178 | `NUMERIC(p, s)` reads back to its precision and scale |
| Database.ReadString | bot/util/database.py:191-196 | `VARCHAR(n)`, `CHAR(n)` and `TEXT` read back to length and fixedness |
| Database.ScalarNotArray | bot/util/database.py:70-215 | no scalar type's SQL ends in ` ARRAY` |
| Database.ReadScalarOf | bot/util/database.py:70-215 | every well-formed scalar type's SQL reads back to the type, up to canonical form |
| Database.ReadToSql | bot/util/database.py:70-291 | every well-formed type's `to_sql` (arrays included, foreign keys excluded) reads back to the type, up to canonical form |
| Database.ToSqlInjective | bot/util/database.py:70-291 | two such types render the same SQL iff they are canonically equal |
| Database.CanonicalSql | bot/util/database.py:70-291 | canonicalising a type does not change its SQL |
| Database.CreateStatementReads | bot/util/database.py:319-336 | a column definition starts with name and type SQL, and its tail reads back as: the default literal when a default is set, `UNIQUE` iff unique without a default, `NOT NULL` iff not nullable |
| Database.CreateStatementSplits | bot/util/database.py:319-336 | the definition is the name, a space and the type's SQL, followed by each constraint word (`DEFAULT <literal>`, `UNIQUE`, `NOT NULL`) preceded by a space |
| Database.PrimaryKeysOf | bot/util/database.py:440-445 | a name is in the primary-key list iff some primary-key column has that name |
| Database.PrimaryKeysEmpty | bot/util/database.py:447-448 | the primary-key list is empty iff no column is a primary key |
| Database.DefinitionsShape | bot/util/database.py:440-448 | the definitions are the column statements in order, plus a `PRIMARY KEY (...)` clause exactly when there are primary keys |
| Database.CreateStatementOfForm | bot/util/database.py:432-450 | the table statement is `CREATE TABLE`, `IF NOT EXISTS` unless overwriting, the name, and the parenthesised definitions, ending in `;` |
| Database.IfNotExists | bot/util/database.py:435-436 | for a space-free table name, the statement begins `CREATE TABLE IF NOT EXISTS ` iff not overwriting |
| Database.IndexStatementsOf | bot/util/database.py:452-455 | an index statement is emitted iff some indexed column yields it |
| Database.CollectColumns | bot/util/database.py:440-445 | the column loop yields one create statement per column, in order, and the names of the primary-key columns |
| Database.CollectIndexes | bot/util/database.py:452-455 | the index loop yields the index statements of the indexed columns, in order |
| Database.CreateTable | bot/util/database.py:430-457 | the loops build the table statement followed by one index statement per indexed column, joined by newlines |
| Database.DeclaredIndex | bot/util/database.py:401-406 | a declared indexed column gets `CREATE INDEX IF NOT EXISTS <table>_<column>_idx ON <table> (<column>);`, where the table name defaults to the lower-cased class name and the column name to the attribute name |
| Database.DeclaredPrimaryKeys | bot/util/database.py:401-403 | a name is a primary key of the declared table iff a primary-key declaration carries that name, or has no name and has that attribute |

## Left out

- Discord glue: command handlers, embeds, the channel wizards, `from_object` and `format_type`. Scopes are their integer codes, a channel is an id with an optional category id, and a member is an id with a role list.
- SQL execution: `MaybeAcquire`, `Table.create`, `insert`, `remove`, the queries, and `to_dict`/`from_dict` on types. Only the SQL text is modelled.
- Concurrent cache calls: two overlapping awaitable misses can both compute; calls are modelled one after another.
- An awaitable that raises when awaited stores nothing; the model expresses this by never applying StorageCache.Resolve to it, and the exception itself is not modelled.
- The external `lru.LRU` is modelled as a map plus a recency list. The iteration order of its `keys()` and its other methods are not modelled.
- `ExpiringDict` methods other than `in`, `[]` and `[]=`. `time.monotonic()` is an integer clock passed in.
- `floor_time` reads the current UTC time; here the time is a parameter and `replace` is a validity check on the fields it sets.
- StorageCache.CallKey: argument reprs are opaque strings; `repr` of particular Python values is not modelled. The wrapper passes only the argument tuple and the keyword dict to `create_key`, so each argument enters the key through its own `repr`, a default `<module.Class object at 0x...>` with its address included. The `<module.Class>` form of `_true_repr` appears only for objects handed to `create_key` directly, and in the wrapper those are the tuple and the dict, which have their own `repr`.
- StorageCache.CallKeyInjective: stated for calls without keyword arguments; with keyword arguments a `': '` inside a repr can make two different dicts print alike.
- `round_time`, `ceil_time` and `get_time_until_minute`: they use float division or the wall clock, and `ceil_time` does not compute a ceiling.
- TimeUtil.Human: durations are integers; `human` of a float `total_seconds` (fractional seconds) is not modelled.
- The voice time totals (`time`, `time_all`), graphs and the date parser.
- `get_condition`'s global branch returns the text `time IS NOT NONE` as written; the model keeps that text verbatim and does not interpret it as SQL.
- Strings.Lower and Strings.Upper map ASCII letters only; Python's `lower`/`upper` also map other Unicode letters, and `\d` also matches non-ASCII digits.
- Statistics.CountListsTotals: the order among equal totals is not stated; the model keeps first-seen order among ties, like `Counter.most_common`.
- `Column`'s `TypeError` for a non-SQLType column type and `ForeignKey`/`Array`'s `TypeError` for a non-SQLType element cannot arise: the types rule them out.
- Database.ReadToSql: a foreign key's SQL contains free-text table and column names, so foreign keys have no read-back.
- Database.IfNotExists: stated for table names without spaces; a name beginning `IF NOT EXISTS ` would make the two statements indistinguishable by prefix.
- Database.MakeTable: a column object shared by two table classes is renamed by the first; each declaration here is its own column.
- Column defaults other than strings on `String` columns and booleans are rendered by `'(%s)' % default`, that is from their `str()`, which is taken as given text.
- A `tuple` default makes `'(%s)' % default` raise `TypeError` (or format its first element only, for a one-element tuple); tuple defaults are not modelled.

=== FILE: command_config.dfy ===
/** The command-permission resolver: `CommandPermissions` compiles the
    `command_config` rows of one guild into per-scope allow/deny sets of
    command names, and `is_command_allowed` walks guild, category, channel,
    roles and user, letting the most specific matching command prefix of the
    last scope that has one decide. */
module CommandConfig {
  import opened Wrappers
  import opened Strings
  import opened Scope

  /** `PermissionData`: an allowed and a denied set.  Rules hold command
      names; the audit returned by a decision holds fired rules. */
  datatype PermissionData<T> = PermissionData(allowed: set<T>, denied: set<T>)

  function NoData<T>(): PermissionData<T> {
    PermissionData({}, {})
  }

  /** One row of `SELECT type, object_id, allow, name FROM command_config`;
      a NULL name is `None`. */
  datatype Row = Row(kind: int, objectId: int, allow: bool, name: Option<string>)

  /** The guild's `role_config` row; both role columns are nullable. */
  datatype RoleRow = RoleRow(adminRole: Option<int>, managerRole: Option<int>)

  /** A compiled `CommandPermissions` object. */
  datatype CommandPermissions = CommandPermissions(
    guildId: int,
    managerId: Option<int>,
    adminId: Option<int>,
    guild: PermissionData<string>,
    roles: map<int, PermissionData<string>>,
    categories: map<int, PermissionData<string>>,
    channels: map<int, PermissionData<string>>,
    users: map<int, PermissionData<string>>)

  /** A rule that fired: the matching prefix, the scope object, its kind. */
  type Fired = (string, int, ScopeKind)

  /** The four values `is_command_allowed` returns. */
  datatype Decision = Decision(allowed: bool, modded: PermissionData<Fired>, admin: bool, manager: bool)

  /** The platform objects a decision reads: a channel with its optional
      category, and a member with its roles in iteration order. */
  datatype ChannelRef = ChannelRef(id: int, category: Option<int>)
  datatype Member = Member(id: int, roles: seq<int>)

  // ---------------------------------------------------------------------
  // Compilation
  // ---------------------------------------------------------------------

  /** `_get_or_default(role_row, 'manager_role')`: no row means no role. */
  function ManagerOf(roleRow: Option<RoleRow>): Option<int> {
    match roleRow
    case None => None
    case Some(r) => r.managerRole
  }

  /** `_get_or_default(role_row, 'admin_role')`. */
  function AdminOf(roleRow: Option<RoleRow>): Option<int> {
    match roleRow
    case None => None
    case Some(r) => r.adminRole
  }

  /** The name `_put_allow` files: a NULL name becomes the empty string. */
  function NameOf(name: Option<string>): string {
    name.GetOr("")
  }

  /** `_put_allow`. */
  function PutAllow(d: PermissionData<string>, name: Option<string>, allow: bool): PermissionData<string> {
    if allow then d.(allowed := d.allowed + {NameOf(name)})
    else d.(denied := d.denied + {NameOf(name)})
  }

  /** `_put_allow_dict`: `_get_or_create` the entry, then `_put_allow`. */
  function PutAllowDict(m: map<int, PermissionData<string>>, key: int, name: Option<string>, allow: bool)
    : map<int, PermissionData<string>>
  {
    var d := if key in m then m[key] else NoData();
    m[key := PutAllow(d, name, allow)]
  }

  /** The per-object table of a non-guild kind. */
  function Table(p: CommandPermissions, k: ScopeKind): map<int, PermissionData<string>>
    requires k != Guild
  {
    match k
    case Channel => p.channels
    case Category => p.categories
    case User => p.users
    case Role => p.roles
  }

  /** One iteration of the constructor's row loop. */
  function AddRow(p: CommandPermissions, row: Row): CommandPermissions {
    match FromCode(row.kind)
    case None => p
    case Some(k) =>
      match k
      case Guild => p.(guild := PutAllow(p.guild, row.name, row.allow))
      case Channel => p.(channels := PutAllowDict(p.channels, row.objectId, row.name, row.allow))
      case Category => p.(categories := PutAllowDict(p.categories, row.objectId, row.name, row.allow))
      case User => p.(users := PutAllowDict(p.users, row.objectId, row.name, row.allow))
      case Role => p.(roles := PutAllowDict(p.roles, row.objectId, row.name, row.allow))
  }

  /** The row loop, rows taken in load order. */
  function AddRows(p: CommandPermissions, rows: seq<Row>): CommandPermissions
    decreases |rows|
  {
    if |rows| == 0 then p else AddRow(AddRows(p, rows[..|rows| - 1]), rows[|rows| - 1])
  }

  /** `CommandPermissions.__init__(guild_id, role_row, db_rows)`. */
  function Compile(guildId: int, roleRow: Option<RoleRow>, rows: seq<Row>): CommandPermissions {
    var start := CommandPermissions(guildId, ManagerOf(roleRow), AdminOf(roleRow), NoData(), map[], map[], map[], map[]);
    AddRows(start, rows)
  }

  /** Row `r` is filed under kind `k` and object `id` (the guild pair takes
      every guild-kind row, whatever its object id). */
  predicate Files(r: Row, k: ScopeKind, id: int) {
    FromCode(r.kind) == Some(k) && (k == Guild || r.objectId == id)
  }

  /** Reference definition: the names the rows file under `k`/`id` with the
      given polarity. */
  function Filed(rows: seq<Row>, k: ScopeKind, id: int, allow: bool): set<string> {
    set i | 0 <= i < |rows| && Files(rows[i], k, id) && rows[i].allow == allow :: NameOf(rows[i].name)
  }

  /** Some row is filed under `k`/`id`. */
  predicate HasRow(rows: seq<Row>, k: ScopeKind, id: int) {
    exists i :: 0 <= i < |rows| && Files(rows[i], k, id)
  }

  lemma FiledSnoc(rows: seq<Row>, k: ScopeKind, id: int, allow: bool)
    requires |rows| > 0
    ensures var last := rows[|rows| - 1];
            Filed(rows, k, id, allow)
            == Filed(rows[..|rows| - 1], k, id, allow)
               + (if Files(last, k, id) && last.allow == allow then {NameOf(last.name)} else {})
  {
    var n := |rows| - 1;
    var pre := rows[..n];
    var extra := if Files(rows[n], k, id) && rows[n].allow == allow then {NameOf(rows[n].name)} else {};
    forall x | x in Filed(rows, k, id, allow)
      ensures x in Filed(pre, k, id, allow) + extra
    {
      FiledFromRows(rows, k, id, allow, x);
    }
    forall x | x in Filed(pre, k, id, allow)
      ensures x in Filed(rows, k, id, allow)
    {
      FiledFromPrefix(rows, k, id, allow, x);
    }
  }

  lemma FiledFromRows(rows: seq<Row>, k: ScopeKind, id: int, allow: bool, x: string)
    requires |rows| > 0 && x in Filed(rows, k, id, allow)
    ensures var last := rows[|rows| - 1];
            x in Filed(rows[..|rows| - 1], k, id, allow) || (Files(last, k, id) && last.allow == allow && x == NameOf(last.name))
  {
    var n := |rows| - 1;
    var i :| 0 <= i < |rows| && Files(rows[i], k, id) && rows[i].allow == allow && x == NameOf(rows[i].name);
    if i < n {
      assert rows[..n][i] == rows[i];
    }
  }

  lemma FiledFromPrefix(rows: seq<Row>, k: ScopeKind, id: int, allow: bool, x: string)
    requires |rows| > 0 && x in Filed(rows[..|rows| - 1], k, id, allow)
    ensures x in Filed(rows, k, id, allow)
  {
    var pre := rows[..|rows| - 1];
    var i :| 0 <= i < |pre| && Files(pre[i], k, id) && pre[i].allow == allow && x == NameOf(pre[i].name);
    assert rows[i] == pre[i];
  }

  lemma HasRowSnoc(rows: seq<Row>, k: ScopeKind, id: int)
    requires |rows| > 0
    ensures HasRow(rows, k, id) <==> HasRow(rows[..|rows| - 1], k, id) || Files(rows[|rows| - 1], k, id)
  {
    var n := |rows| - 1;
    if HasRow(rows, k, id) && !Files(rows[n], k, id) {
      var i :| 0 <= i < |rows| && Files(rows[i], k, id);
      assert rows[..n][i] == rows[i];
    }
    if HasRow(rows[..n], k, id) {
      var i :| 0 <= i < n && Files(rows[..n][i], k, id);
      assert rows[i] == rows[..n][i];
    }
  }

  /** The effect of one row on the guild pair and on one per-object entry. */
  lemma AddRowEffect(p: CommandPermissions, row: Row, k: ScopeKind, id: int)
    ensures var q := AddRow(p, row);
            && q.guildId == p.guildId && q.adminId == p.adminId && q.managerId == p.managerId
            && q.guild == (if FromCode(row.kind) == Some(Guild) then PutAllow(p.guild, row.name, row.allow) else p.guild)
            && (k != Guild ==> (id in Table(q, k) <==> id in Table(p, k) || Files(row, k, id)))
            && (k != Guild && id in Table(q, k) ==>
                  Table(q, k)[id] == (if Files(row, k, id)
                                      then PutAllow(if id in Table(p, k) then Table(p, k)[id] else NoData(), row.name, row.allow)
                                      else Table(p, k)[id]))
  {
    if k != Guild {
      TableAddRow(p, row, k);
      if FromCode(row.kind) == Some(k) {
        PutAllowDictEffect(Table(p, k), row.objectId, row.name, row.allow, id);
      }
    }
  }

  lemma TableAddRow(p: CommandPermissions, row: Row, k: ScopeKind)
    requires k != Guild
    ensures Table(AddRow(p, row), k)
            == if FromCode(row.kind) == Some(k) then PutAllowDict(Table(p, k), row.objectId, row.name, row.allow)
               else Table(p, k)
  {
    if FromCode(row.kind) == Some(k) {
      TableAddRowFiled(p, row, k);
    } else {
      TableAddRowOther(p, row, k);
    }
  }

  lemma TableAddRowFiled(p: CommandPermissions, row: Row, k: ScopeKind)
    requires k != Guild && FromCode(row.kind) == Some(k)
    ensures Table(AddRow(p, row), k) == PutAllowDict(Table(p, k), row.objectId, row.name, row.allow)
  {
  }

  lemma TableAddRowOther(p: CommandPermissions, row: Row, k: ScopeKind)
    requires k != Guild && FromCode(row.kind) != Some(k)
    ensures Table(AddRow(p, row), k) == Table(p, k)
  {
  }

  lemma PutAllowDictEffect(m: map<int, PermissionData<string>>, key: int, name: Option<string>, allow: bool, id: int)
    ensures id in PutAllowDict(m, key, name, allow) <==> id in m || id == key
    ensures id in PutAllowDict(m, key, name, allow) ==>
              PutAllowDict(m, key, name, allow)[id]
              == if id == key then PutAllow(if id in m then m[id] else NoData(), name, allow) else m[id]
  {
  }

  /** Compilation files every row with a known kind code under its kind and
      object (a NULL name as `""`), keeps the ids of the `role_config` row,
      and ignores rows whose code is not 0..4: the guild pair and each
      per-object entry are exactly the names the rows file there. */
  lemma {:induction false} CompileFiles(guildId: int, roleRow: Option<RoleRow>, rows: seq<Row>, k: ScopeKind, id: int)
    ensures var p := Compile(guildId, roleRow, rows);
            && p.guildId == guildId && p.adminId == AdminOf(roleRow) && p.managerId == ManagerOf(roleRow)
            && p.guild == PermissionData(Filed(rows, Guild, id, true), Filed(rows, Guild, id, false))
            && (k != Guild ==> (id in Table(p, k) <==> HasRow(rows, k, id)))
            && (k != Guild && id in Table(p, k) ==>
                  Table(p, k)[id] == PermissionData(Filed(rows, k, id, true), Filed(rows, k, id, false)))
  {
    CompileGuild(guildId, roleRow, rows, id);
    if k != Guild {
      CompileTable(guildId, roleRow, rows, k, id);
    }
  }

  /** Without a row filed under `k`/`id`, no name is filed there. */
  lemma NoRowNoneFiled(rows: seq<Row>, k: ScopeKind, id: int, allow: bool)
    requires !HasRow(rows, k, id)
    ensures Filed(rows, k, id, allow) == {}
  {
  }

  lemma {:induction false} CompileGuild(guildId: int, roleRow: Option<RoleRow>, rows: seq<Row>, id: int)
    ensures var p := Compile(guildId, roleRow, rows);
            && p.guildId == guildId && p.adminId == AdminOf(roleRow) && p.managerId == ManagerOf(roleRow)
            && p.guild == PermissionData(Filed(rows, Guild, id, true), Filed(rows, Guild, id, false))
    decreases |rows|
  {
    if |rows| > 0 {
      var n := |rows| - 1;
      var pre := rows[..n];
      CompileGuild(guildId, roleRow, pre, id);
      assert Compile(guildId, roleRow, rows) == AddRow(Compile(guildId, roleRow, pre), rows[n]);
      AddRowEffect(Compile(guildId, roleRow, pre), rows[n], Guild, id);
      FiledSnoc(rows, Guild, id, true);
      FiledSnoc(rows, Guild, id, false);
    }
  }

  lemma {:induction false} CompileTable(guildId: int, roleRow: Option<RoleRow>, rows: seq<Row>, k: ScopeKind, id: int)
    requires k != Guild
    ensures var p := Compile(guildId, roleRow, rows);
            && (id in Table(p, k) <==> HasRow(rows, k, id))
            && (id in Table(p, k) ==>
                  Table(p, k)[id] == PermissionData(Filed(rows, k, id, true), Filed(rows, k, id, false)))
    decreases |rows|
  {
    if |rows| > 0 {
      var n := |rows| - 1;
      var pre := rows[..n];
      CompileTable(guildId, roleRow, pre, k, id);
      assert Compile(guildId, roleRow, rows) == AddRow(Compile(guildId, roleRow, pre), rows[n]);
      AddRowEffect(Compile(guildId, roleRow, pre), rows[n], k, id);
      FiledSnoc(rows, k, id, true);
      FiledSnoc(rows, k, id, false);
      HasRowSnoc(rows, k, id);
      if !HasRow(pre, k, id) {
        NoRowNoneFiled(pre, k, id, true);
        NoRowNoneFiled(pre, k, id, false);
      }
    }
  }

  /** A row with an unknown kind code changes nothing. */
  lemma UnknownKindIgnored(guildId: int, roleRow: Option<RoleRow>, rows: seq<Row>, bad: Row)
    requires FromCode(bad.kind).None?
    ensures Compile(guildId, roleRow, rows + [bad]) == Compile(guildId, roleRow, rows)
  {
    assert (rows + [bad])[..|rows|] == rows;
  }

  // ---------------------------------------------------------------------
  // Deciding
  // ---------------------------------------------------------------------

  /** `accumulate(tokens, lambda x, y: f'{x} {y}')`: each entry extends the
      previous one by a space and the next token. */
  function Accumulate(ws: seq<string>): (r: seq<string>)
    ensures |r| == |ws|
    decreases |ws|
  {
    if |ws| == 0 then []
    else if |ws| == 1 then [ws[0]]
    else
      var n := |ws| - 1;
      var p := Accumulate(ws[..n]);
      p + [p[n - 1] + " " + ws[n]]
  }

  /** Entry `i` of the accumulation is the first `i + 1` tokens joined by
      single spaces. */
  lemma {:induction false} AccumulateJoins(ws: seq<string>, i: int)
    requires 0 <= i < |ws|
    ensures Accumulate(ws)[i] == Join(ws[..i + 1], " ")
    decreases |ws|
  {
    if |ws| > 1 {
      var n := |ws| - 1;
      if i < n {
        AccumulateJoins(ws[..n], i);
        assert ws[..n][..i + 1] == ws[..i + 1];
      } else {
        AccumulateJoins(ws[..n], n - 1);
        assert ws[..n][..n] == ws[..n];
        JoinSnoc(ws[..n], ws[n], " ");
        assert ws[..n] + [ws[n]] == ws[..n + 1];
      }
    } else {
      assert ws[..1] == ws;
    }
  }

  /** `_split(command)`: the empty string, then every cumulative
      space-joined prefix of the whitespace tokens of `command`. */
  function SplitCommand(command: string): (r: seq<string>)
    ensures |r| == |Words(command)| + 1
    ensures r[0] == ""
  {
    [""] + Accumulate(Words(command))
  }

  /** After the leading `""`, entry `i` of the expansion is the first `i`
      tokens joined by single spaces. */
  lemma SplitCommandJoins(command: string, i: int)
    requires 1 <= i < |SplitCommand(command)|
    ensures SplitCommand(command)[i] == Join(Words(command)[..i], " ")
  {
    AccumulateJoins(Words(command), i - 1);
  }

  /** Each element of the expansion is a prefix of the next; after the empty
      string, each adds one space and one token. */
  lemma SplitCommandChain(command: string, i: int)
    requires 0 <= i < |SplitCommand(command)| - 1
    ensures IsPrefix(SplitCommand(command)[i], SplitCommand(command)[i + 1])
    ensures i > 0 ==> SplitCommand(command)[i + 1] == SplitCommand(command)[i] + " " + Words(command)[i]
  {
    var ws := Words(command);
    var r := SplitCommand(command);
    if i > 0 {
      SplitCommandJoins(command, i);
      SplitCommandJoins(command, i + 1);
      JoinSnoc(ws[..i], ws[i], " ");
      assert ws[..i] + [ws[i]] == ws[..i + 1];
      StepPrefix(r[i], ws[i]);
    }
  }

  lemma StepPrefix(a: string, w: string)
    ensures IsPrefix(a, a + " " + w)
  {
    assert (a + " " + w)[..|a|] == a;
  }

  /** For a canonical command name (tokens joined by single spaces) the
      expansion has one entry per token after `""` and ends with the name. */
  lemma SplitCanonical(ws: seq<string>)
    requires |ws| > 0
    requires forall i :: 0 <= i < |ws| ==> IsWord(ws[i])
    ensures |SplitCommand(Join(ws, " "))| == |ws| + 1
    ensures SplitCommand(Join(ws, " "))[|ws|] == Join(ws, " ")
  {
    WordsJoin(ws);
    SplitCommandJoins(Join(ws, " "), |ws|);
    assert ws[..|ws|] == ws;
  }

  /** `_split("")` is `[""]`. */
  lemma SplitEmpty()
    ensures SplitCommand("") == [""]
  {
  }

  /** The running state of `is_command_allowed`. */
  datatype Eval = Eval(allowed: bool, modded: PermissionData<Fired>)

  /** `cmd` is in the allowed or the denied set of a scope object. */
  predicate Hits(cmd: string, rules: PermissionData<string>) {
    cmd in rules.allowed || cmd in rules.denied
  }

  /** No prefix matches the scope object. */
  predicate NoHit(cmds: seq<string>, rules: PermissionData<string>) {
    forall i :: 0 <= i < |cmds| ==> !Hits(cmds[i], rules)
  }

  /** `cmds[i]` is the last (most specific) matching prefix. */
  predicate LastHit(cmds: seq<string>, rules: PermissionData<string>, i: int) {
    0 <= i < |cmds| && Hits(cmds[i], rules) && forall j :: i < j < |cmds| ==> !Hits(cmds[j], rules)
  }

  /** One `for cmd in cmds` loop over the sets of one scope object: a hit in
      `allowed` sets the running value and is audited as allowed; otherwise
      a hit in `denied` clears it and is audited as denied. */
  function ScanScope(e: Eval, cmds: seq<string>, rules: PermissionData<string>, id: int, kind: ScopeKind): Eval
    decreases |cmds|
  {
    if |cmds| == 0 then e
    else
      var e' := ScanScope(e, cmds[..|cmds| - 1], rules, id, kind);
      var cmd := cmds[|cmds| - 1];
      if cmd in rules.allowed then
        Eval(true, e'.modded.(allowed := e'.modded.allowed + {(cmd, id, kind)}))
      else if cmd in rules.denied then
        Eval(false, e'.modded.(denied := e'.modded.denied + {(cmd, id, kind)}))
      else e'
  }

  /** Within one scope object the most specific matching prefix decides, and
      a prefix in both sets counts as allowed; with no match the running
      value is kept. */
  lemma {:induction false} ScanScopeDecides(e: Eval, cmds: seq<string>, rules: PermissionData<string>, id: int, kind: ScopeKind)
    ensures NoHit(cmds, rules) ==> ScanScope(e, cmds, rules, id, kind).allowed == e.allowed
    ensures forall i :: LastHit(cmds, rules, i) ==>
              ScanScope(e, cmds, rules, id, kind).allowed == (cmds[i] in rules.allowed)
    decreases |cmds|
  {
    if |cmds| > 0 {
      var n := |cmds| - 1;
      var pre := cmds[..n];
      ScanScopeDecides(e, pre, rules, id, kind);
      if NoHit(cmds, rules) {
        NoHitPrefix(cmds, rules);
      }
      forall i | LastHit(cmds, rules, i)
        ensures ScanScope(e, cmds, rules, id, kind).allowed == (cmds[i] in rules.allowed)
      {
        LastHitPrefix(cmds, rules, i);
      }
    }
  }

  lemma NoHitPrefix(cmds: seq<string>, rules: PermissionData<string>)
    requires |cmds| > 0 && NoHit(cmds, rules)
    ensures NoHit(cmds[..|cmds| - 1], rules) && !Hits(cmds[|cmds| - 1], rules)
  {
    var pre := cmds[..|cmds| - 1];
    forall i | 0 <= i < |pre| ensures !Hits(pre[i], rules) {
      assert pre[i] == cmds[i];
    }
  }

  /** The last hit is the final prefix, or the last hit of the others. */
  lemma LastHitPrefix(cmds: seq<string>, rules: PermissionData<string>, i: int)
    requires LastHit(cmds, rules, i)
    ensures i < |cmds| - 1 ==> LastHit(cmds[..|cmds| - 1], rules, i) && !Hits(cmds[|cmds| - 1], rules)
  {
    var n := |cmds| - 1;
    var pre := cmds[..n];
    if i < n {
      assert pre[i] == cmds[i];
      assert forall j :: i < j < n ==> pre[j] == cmds[j];
    }
  }

  /** The audit entries one scope object contributes. */
  function FiredAllowed(cmds: seq<string>, rules: PermissionData<string>, id: int, kind: ScopeKind): set<Fired> {
    set c | c in cmds && c in rules.allowed :: (c, id, kind)
  }

  function FiredDenied(cmds: seq<string>, rules: PermissionData<string>, id: int, kind: ScopeKind): set<Fired> {
    set c | c in cmds && c !in rules.allowed && c in rules.denied :: (c, id, kind)
  }

  /** Every matching prefix is audited, whether or not it decides: the
      audit only grows, by exactly the hits of this scope object. */
  lemma {:induction false} ScanScopeAudits(e: Eval, cmds: seq<string>, rules: PermissionData<string>, id: int, kind: ScopeKind)
    ensures ScanScope(e, cmds, rules, id, kind).modded.allowed == e.modded.allowed + FiredAllowed(cmds, rules, id, kind)
    ensures ScanScope(e, cmds, rules, id, kind).modded.denied == e.modded.denied + FiredDenied(cmds, rules, id, kind)
    decreases |cmds|
  {
    if |cmds| > 0 {
      var n := |cmds| - 1;
      var pre := cmds[..n];
      ScanScopeAudits(e, pre, rules, id, kind);
      assert cmds == pre + [cmds[n]];
      assert forall c :: c in cmds <==> c in pre || c == cmds[n];
    }
  }

  /** The state the role loop carries: the evaluation and the two flags. */
  datatype RoleWalk = RoleWalk(eval: Eval, admin: bool, manager: bool)

  /** The `for role in user.roles` loop. */
  function ScanRoles(w: RoleWalk, cmds: seq<string>, p: CommandPermissions, roles: seq<int>): RoleWalk
    decreases |roles|
  {
    if |roles| == 0 then w
    else
      var w' := ScanRoles(w, cmds, p, roles[..|roles| - 1]);
      var role := roles[|roles| - 1];
      var manager := w'.manager || p.managerId == Some(role);
      var admin := w'.admin || p.adminId == Some(role);
      var e := if role in p.roles then ScanScope(w'.eval, cmds, p.roles[role], role, Role) else w'.eval;
      RoleWalk(e, admin, manager)
  }

  /** The flags the role loop raises depend only on the configured ids and
      the member's roles. */
  lemma {:induction false} ScanRolesFlags(w: RoleWalk, cmds: seq<string>, p: CommandPermissions, roles: seq<int>)
    ensures ScanRoles(w, cmds, p, roles).admin <==> w.admin || (p.adminId.Some? && p.adminId.value in roles)
    ensures ScanRoles(w, cmds, p, roles).manager <==> w.manager || (p.managerId.Some? && p.managerId.value in roles)
    decreases |roles|
  {
    if |roles| > 0 {
      var n := |roles| - 1;
      ScanRolesFlags(w, cmds, p, roles[..n]);
      assert roles == roles[..n] + [roles[n]];
      assert forall x :: x in roles <==> x in roles[..n] || x == roles[n];
    }
  }

  /** The guild, category and channel scans of `is_command_allowed`,
      starting from `allowed = True`. */
  function ChannelEval(p: CommandPermissions, channel: ChannelRef, cmds: seq<string>): Eval {
    var e1 := ScanScope(Eval(true, NoData()), cmds, p.guild, p.guildId, Guild);
    var e2 :=
      if channel.category.Some? && channel.category.value in p.categories then
        ScanScope(e1, cmds, p.categories[channel.category.value], channel.category.value, Category)
      else e1;
    if channel.id in p.channels then ScanScope(e2, cmds, p.channels[channel.id], channel.id, Channel)
    else e2
  }

  /** `is_command_allowed(channel, user, command)`. */
  function IsCommandAllowed(p: CommandPermissions, channel: ChannelRef, user: Member, command: string): Decision {
    var cmds := SplitCommand(command);
    var e3 := ChannelEval(p, channel, cmds);
    var w := ScanRoles(RoleWalk(e3, false, false), cmds, p, user.roles);
    var e5 :=
      if user.id in p.users then ScanScope(w.eval, cmds, p.users[user.id], user.id, User)
      else w.eval;
    Decision(e5.allowed, e5.modded, w.admin, w.manager)
  }

  // ---------------------------------------------------------------------
  // The walk as an ordered list of scopes
  // ---------------------------------------------------------------------

  /** A scope object the walk visits, with its rules. */
  datatype Visit = Visit(id: int, kind: ScopeKind, rules: PermissionData<string>)

  /** The roles that have an entry, in iteration order. */
  function RoleVisits(p: CommandPermissions, roles: seq<int>): seq<Visit>
    decreases |roles|
  {
    if |roles| == 0 then []
    else
      var role := roles[|roles| - 1];
      RoleVisits(p, roles[..|roles| - 1]) + (if role in p.roles then [Visit(role, Role, p.roles[role])] else [])
  }

  /** The precedence order: guild, then the channel's category if it has an
      entry, the channel, each role with an entry, the user. */
  function Visits(p: CommandPermissions, channel: ChannelRef, user: Member): seq<Visit> {
    ChannelVisits(p, channel) + RoleVisits(p, user.roles) + UserVisits(p, user)
  }

  /** The guild, then the category and the channel when they have rules. */
  function ChannelVisits(p: CommandPermissions, channel: ChannelRef): seq<Visit> {
    [Visit(p.guildId, Guild, p.guild)]
    + (if channel.category.Some? && channel.category.value in p.categories
       then [Visit(channel.category.value, Category, p.categories[channel.category.value])] else [])
    + (if channel.id in p.channels then [Visit(channel.id, Channel, p.channels[channel.id])] else [])
  }

  /** The user, when they have rules. */
  function UserVisits(p: CommandPermissions, user: Member): seq<Visit> {
    if user.id in p.users then [Visit(user.id, User, p.users[user.id])] else []
  }

  /** Scanning the visits one after another. */
  function Walk(e: Eval, cmds: seq<string>, vs: seq<Visit>): Eval
    decreases |vs|
  {
    if |vs| == 0 then e
    else
      var v := vs[|vs| - 1];
      ScanScope(Walk(e, cmds, vs[..|vs| - 1]), cmds, v.rules, v.id, v.kind)
  }

  lemma {:induction false} WalkAppend(e: Eval, cmds: seq<string>, a: seq<Visit>, b: seq<Visit>)
    ensures Walk(e, cmds, a + b) == Walk(Walk(e, cmds, a), cmds, b)
    decreases |b|
  {
    if |b| == 0 {
      assert a + b == a;
    } else {
      var n := |b| - 1;
      assert (a + b)[..|a + b| - 1] == a + b[..n];
      WalkAppend(e, cmds, a, b[..n]);
    }
  }

  lemma {:induction false} ScanRolesIsWalk(w: RoleWalk, cmds: seq<string>, p: CommandPermissions, roles: seq<int>)
    ensures ScanRoles(w, cmds, p, roles).eval == Walk(w.eval, cmds, RoleVisits(p, roles))
    decreases |roles|
  {
    if |roles| > 0 {
      var n := |roles| - 1;
      ScanRolesIsWalk(w, cmds, p, roles[..n]);
      var role := roles[n];
      if role in p.roles {
        var vs := RoleVisits(p, roles[..n]);
        WalkAppend(w.eval, cmds, vs, [Visit(role, Role, p.roles[role])]);
      } else {
        assert RoleVisits(p, roles) == RoleVisits(p, roles[..n]) + [];
        assert RoleVisits(p, roles[..n]) + [] == RoleVisits(p, roles[..n]);
      }
    }
  }

  /** The source's nested loops are the walk over `Visits`, starting from
      `allowed = True` and an empty audit. */
  lemma DecisionIsWalk(p: CommandPermissions, channel: ChannelRef, user: Member, command: string)
    ensures var d := IsCommandAllowed(p, channel, user, command);
            var e := Walk(Eval(true, NoData()), SplitCommand(command), Visits(p, channel, user));
            d.allowed == e.allowed && d.modded == e.modded
  {
    var cmds := SplitCommand(command);
    var e0 := Eval(true, NoData());
    var g := [Visit(p.guildId, Guild, p.guild)];
    var c := if channel.category.Some? && channel.category.value in p.categories
       then [Visit(channel.category.value, Category, p.categories[channel.category.value])] else [];
    var ch := if channel.id in p.channels then [Visit(channel.id, Channel, p.channels[channel.id])] else [];
    var rs := RoleVisits(p, user.roles);
    var u := if user.id in p.users then [Visit(user.id, User, p.users[user.id])] else [];
    assert Visits(p, channel, user) == (((g + c) + ch) + rs) + u;
    WalkAppend(e0, cmds, g, c);
    WalkAppend(e0, cmds, g + c, ch);
    WalkAppend(e0, cmds, (g + c) + ch, rs);
    WalkAppend(e0, cmds, ((g + c) + ch) + rs, u);
    var e3 := Walk(e0, cmds, (g + c) + ch);
    ScanRolesIsWalk(RoleWalk(e3, false, false), cmds, p, user.roles);
  }

  /** Along the walk, the last visited scope object with a matching prefix
      decides, through its most specific matching prefix. */
  lemma {:induction false} WalkLastScopeDecides(e: Eval, cmds: seq<string>, vs: seq<Visit>, k: int, i: int)
    requires 0 <= k < |vs| && LastHit(cmds, vs[k].rules, i)
    requires forall m :: k < m < |vs| ==> NoHit(cmds, vs[m].rules)
    ensures Walk(e, cmds, vs).allowed == (cmds[i] in vs[k].rules.allowed)
    decreases |vs|
  {
    var n := |vs| - 1;
    var v := vs[n];
    ScanScopeDecides(Walk(e, cmds, vs[..n]), cmds, v.rules, v.id, v.kind);
    if k < n {
      assert NoHit(cmds, vs[n].rules);
      WalkLastScopeDecides(e, cmds, vs[..n], k, i);
    }
  }

  /** With no matching prefix anywhere along the walk the start value stands. */
  lemma {:induction false} WalkNoHit(e: Eval, cmds: seq<string>, vs: seq<Visit>)
    requires forall m :: 0 <= m < |vs| ==> NoHit(cmds, vs[m].rules)
    ensures Walk(e, cmds, vs).allowed == e.allowed
    decreases |vs|
  {
    if |vs| > 0 {
      var n := |vs| - 1;
      assert NoHit(cmds, vs[n].rules);
      ScanScopeDecides(Walk(e, cmds, vs[..n]), cmds, vs[n].rules, vs[n].id, vs[n].kind);
      WalkNoHit(e, cmds, vs[..n]);
    }
  }

  /** Audit entries collected along a walk. */
  predicate FiredAlong(f: Fired, cmds: seq<string>, vs: seq<Visit>, allowedSide: bool) {
    exists m :: 0 <= m < |vs| &&
      f in (if allowedSide then FiredAllowed(cmds, vs[m].rules, vs[m].id, vs[m].kind)
            else FiredDenied(cmds, vs[m].rules, vs[m].id, vs[m].kind))
  }

  /** The audit of a walk is its start plus the hits of every visited scope
      object, deciding or not. */
  lemma {:induction false} WalkAudits(e: Eval, cmds: seq<string>, vs: seq<Visit>, f: Fired)
    ensures f in Walk(e, cmds, vs).modded.allowed <==> f in e.modded.allowed || FiredAlong(f, cmds, vs, true)
    ensures f in Walk(e, cmds, vs).modded.denied <==> f in e.modded.denied || FiredAlong(f, cmds, vs, false)
    decreases |vs|
  {
    if |vs| > 0 {
      var n := |vs| - 1;
      var v := vs[n];
      WalkAudits(e, cmds, vs[..n], f);
      ScanScopeAudits(Walk(e, cmds, vs[..n]), cmds, v.rules, v.id, v.kind);
      forall side: bool
        ensures FiredAlong(f, cmds, vs, side)
                <==> (FiredAlong(f, cmds, vs[..n], side) ||
                      f in (if side then FiredAllowed(cmds, v.rules, v.id, v.kind) else FiredDenied(cmds, v.rules, v.id, v.kind)))
      {
        if FiredAlong(f, cmds, vs, side) {
          var m :| 0 <= m < |vs| &&
            f in (if side then FiredAllowed(cmds, vs[m].rules, vs[m].id, vs[m].kind)
                  else FiredDenied(cmds, vs[m].rules, vs[m].id, vs[m].kind));
          if m < n {
            assert vs[..n][m] == vs[m];
          }
        }
        if FiredAlong(f, cmds, vs[..n], side) {
          var m :| 0 <= m < n &&
            f in (if side then FiredAllowed(cmds, vs[..n][m].rules, vs[..n][m].id, vs[..n][m].kind)
                  else FiredDenied(cmds, vs[..n][m].rules, vs[..n][m].id, vs[..n][m].kind));
          assert vs[..n][m] == vs[m];
        }
      }
    }
  }

  // ---------------------------------------------------------------------
  // Properties of the decision
  // ---------------------------------------------------------------------

  /** `admin` and `manager` hold exactly when one of the member's roles is
      the configured role; neither depends on the rules or on `allowed`. */
  lemma DecisionFlags(p: CommandPermissions, channel: ChannelRef, user: Member, command: string)
    ensures IsCommandAllowed(p, channel, user, command).admin <==> p.adminId.Some? && p.adminId.value in user.roles
    ensures IsCommandAllowed(p, channel, user, command).manager <==> p.managerId.Some? && p.managerId.value in user.roles
  {
    var cmds := SplitCommand(command);
    ScanRolesFlags(RoleWalk(ChannelEval(p, channel, cmds), false, false), cmds, p, user.roles);
  }

  /** Without a `role_config` row neither flag is ever raised. */
  lemma NoRoleRowNoFlags(guildId: int, rows: seq<Row>, channel: ChannelRef, user: Member, command: string)
    ensures !IsCommandAllowed(Compile(guildId, None, rows), channel, user, command).admin
    ensures !IsCommandAllowed(Compile(guildId, None, rows), channel, user, command).manager
  {
    var p := Compile(guildId, None, rows);
    CompileFiles(guildId, None, rows, Guild, 0);
    DecisionFlags(p, channel, user, command);
  }

  /** When no prefix matches any visited scope object the command is
      allowed and nothing is audited. */
  lemma DefaultAllowed(p: CommandPermissions, channel: ChannelRef, user: Member, command: string)
    requires forall m :: 0 <= m < |Visits(p, channel, user)| ==>
               NoHit(SplitCommand(command), Visits(p, channel, user)[m].rules)
    ensures IsCommandAllowed(p, channel, user, command).allowed
    ensures IsCommandAllowed(p, channel, user, command).modded == NoData()
  {
    var cmds := SplitCommand(command);
    var vs := Visits(p, channel, user);
    DecisionIsWalk(p, channel, user, command);
    WalkNoHit(Eval(true, NoData()), cmds, vs);
    var d := IsCommandAllowed(p, channel, user, command);
    forall f: Fired ensures f !in d.modded.allowed && f !in d.modded.denied {
      WalkAudits(Eval(true, NoData()), cmds, vs, f);
    }
  }

  /** With no rows at all every command is allowed everywhere, nothing is
      audited, and neither flag is raised. */
  lemma NoRowsAllowed(guildId: int, channel: ChannelRef, user: Member, command: string)
    ensures var d := IsCommandAllowed(Compile(guildId, None, []), channel, user, command);
            d.allowed && d.modded == NoData() && !d.admin && !d.manager
  {
    var p := Compile(guildId, None, []);
    var vs := Visits(p, channel, user);
    assert RoleVisits(p, user.roles) == [] by {
      RoleVisitsEmpty(p, user.roles);
    }
    assert vs == [Visit(guildId, Guild, NoData())];
    DefaultAllowed(p, channel, user, command);
    NoRoleRowNoFlags(guildId, [], channel, user, command);
  }

  lemma {:induction false} RoleVisitsEmpty(p: CommandPermissions, roles: seq<int>)
    requires p.roles == map[]
    ensures RoleVisits(p, roles) == []
    decreases |roles|
  {
    if |roles| > 0 {
      RoleVisitsEmpty(p, roles[..|roles| - 1]);
    }
  }

  /** A matching user rule decides the outcome, whatever the guild,
      category, channel and role rules say. */
  lemma UserRuleDecides(p: CommandPermissions, channel: ChannelRef, user: Member, command: string, i: int)
    requires user.id in p.users
    requires LastHit(SplitCommand(command), p.users[user.id], i)
    ensures IsCommandAllowed(p, channel, user, command).allowed == (SplitCommand(command)[i] in p.users[user.id].allowed)
  {
    var vs := Visits(p, channel, user);
    DecisionIsWalk(p, channel, user, command);
    WalkLastScopeDecides(Eval(true, NoData()), SplitCommand(command), vs, |vs| - 1, i);
  }

  /** Among the member's roles, the last one in iteration order whose rules
      match decides, unless the user has a matching rule of their own. */
  lemma LastRoleDecides(p: CommandPermissions, channel: ChannelRef, user: Member, command: string, r: int, i: int)
    requires 0 <= r < |user.roles| && user.roles[r] in p.roles
    requires LastHit(SplitCommand(command), p.roles[user.roles[r]], i)
    requires forall s :: r < s < |user.roles| && user.roles[s] in p.roles ==>
               NoHit(SplitCommand(command), p.roles[user.roles[s]])
    requires user.id in p.users ==> NoHit(SplitCommand(command), p.users[user.id])
    ensures IsCommandAllowed(p, channel, user, command).allowed
            == (SplitCommand(command)[i] in p.roles[user.roles[r]].allowed)
  {
    var cmds := SplitCommand(command);
    var pre := Visits(p, channel, user);
    var head := ChannelVisits(p, channel);
    var k := RoleVisitPosition(p, user.roles, r, cmds);
    var rv := RoleVisits(p, user.roles);
    var u := UserVisits(p, user);
    DecisionIsWalk(p, channel, user, command);
    QuietAfter(head, rv, u, k, cmds);
    WalkLastScopeDecides(Eval(true, NoData()), cmds, pre, |head| + k, i);
  }

  /** Visits that miss after position `k` of the middle part still miss
      after its place in the whole walk. */
  lemma QuietAfter(head: seq<Visit>, rv: seq<Visit>, u: seq<Visit>, k: int, cmds: seq<string>)
    requires 0 <= k < |rv|
    requires forall m :: k < m < |rv| ==> NoHit(cmds, rv[m].rules)
    requires forall m :: 0 <= m < |u| ==> NoHit(cmds, u[m].rules)
    ensures var all := head + rv + u;
            && all[|head| + k] == rv[k]
            && forall m :: |head| + k < m < |all| ==> NoHit(cmds, all[m].rules)
  {
    var all := head + rv + u;
    forall m | |head| + k < m < |all| ensures NoHit(cmds, all[m].rules) {
      if m < |head| + |rv| {
        assert all[m] == rv[m - |head|];
      } else {
        assert all[m] == u[m - |head| - |rv|];
      }
    }
  }

  /** Where role `roles[r]` sits among the role visits, and that the visits
      after it come from later roles. */
  lemma {:induction false} RoleVisitPosition(p: CommandPermissions, roles: seq<int>, r: int, cmds: seq<string>) returns (k: int)
    requires 0 <= r < |roles| && roles[r] in p.roles
    requires forall s :: r < s < |roles| && roles[s] in p.roles ==> NoHit(cmds, p.roles[roles[s]])
    ensures 0 <= k < |RoleVisits(p, roles)|
    ensures RoleVisits(p, roles)[k] == Visit(roles[r], Role, p.roles[roles[r]])
    ensures forall m :: k < m < |RoleVisits(p, roles)| ==> NoHit(cmds, RoleVisits(p, roles)[m].rules)
    decreases |roles|
  {
    var n := |roles| - 1;
    var pre := roles[..n];
    var rv := RoleVisits(p, roles);
    var last := if roles[n] in p.roles then [Visit(roles[n], Role, p.roles[roles[n]])] else [];
    assert rv == RoleVisits(p, pre) + last;
    if r == n {
      k := |RoleVisits(p, pre)|;
    } else {
      forall s | r < s < |pre| && pre[s] in p.roles ensures NoHit(cmds, p.roles[pre[s]]) {
        assert pre[s] == roles[s];
      }
      k := RoleVisitPosition(p, pre, r, cmds);
      forall m | k < m < |rv| ensures NoHit(cmds, rv[m].rules) {
        if m >= |RoleVisits(p, pre)| {
          assert rv[m] == last[0];
          assert NoHit(cmds, p.roles[roles[n]]);
        }
      }
    }
  }

  /** Every matching `(prefix, object, kind)` of every visited scope object
      is in the audit, on the allowed side when the prefix is in that
      object's allowed set, on the denied side otherwise; nothing else is. */
  lemma DecisionAudit(p: CommandPermissions, channel: ChannelRef, user: Member, command: string, f: Fired)
    ensures f in IsCommandAllowed(p, channel, user, command).modded.allowed
            <==> FiredAlong(f, SplitCommand(command), Visits(p, channel, user), true)
    ensures f in IsCommandAllowed(p, channel, user, command).modded.denied
            <==> FiredAlong(f, SplitCommand(command), Visits(p, channel, user), false)
  {
    DecisionIsWalk(p, channel, user, command);
    WalkAudits(Eval(true, NoData()), SplitCommand(command), Visits(p, channel, user), f);
  }

  /** `UserPerms(ctx, command_perms)`: the invoked command's qualified name
      is lower-cased and resolved; without a compiled configuration the
      command is allowed, nothing is audited, and neither flag is set. */
  function UserPerms(perms: Option<CommandPermissions>, channel: ChannelRef, user: Member, qualifiedName: string): (d: Decision)
    ensures perms.None? ==> d.allowed && d.modded == NoData() && !d.admin && !d.manager
    ensures perms.Some? ==> d == IsCommandAllowed(perms.value, channel, user, Lower(qualifiedName))
  {
    match perms
    case Some(p) => IsCommandAllowed(p, channel, user, Lower(qualifiedName))
    case None => Decision(true, NoData(), false, false)
  }

  /** The resolution does not depend on the case of the invoked name. */
  lemma UserPermsIgnoresCase(perms: Option<CommandPermissions>, channel: ChannelRef, user: Member, qualifiedName: string)
    ensures UserPerms(perms, channel, user, qualifiedName) == UserPerms(perms, channel, user, Lower(qualifiedName))
  {
    LowerIdempotent(qualifiedName);
  }

  /** A guild without a compiled configuration is treated exactly like one
      whose configuration has no rows and no role row. */
  lemma UserPermsUnconfigured(guildId: int, channel: ChannelRef, user: Member, qualifiedName: string)
    ensures UserPerms(None, channel, user, qualifiedName)
            == UserPerms(Some(Compile(guildId, None, [])), channel, user, qualifiedName)
  {
    NoRowsAllowed(guildId, channel, user, Lower(qualifiedName));
  }

  /** The expansion of a two-token command `"a b"` is `["", "a", "a b"]`. */
  lemma SplitTwoWords(a: string, b: string)
    requires IsWord(a) && IsWord(b)
    ensures SplitCommand(a + " " + b) == ["", a, a + " " + b]
  {
    var ws := [a, b];
    var c := Join(ws, " ");
    assert c == a + " " + b;
    WordsJoin(ws);
    assert ws[..1] == [a];
    assert Accumulate(ws[..1]) == [a];
  }

  /** A group command denied at a role with one of its subcommands allowed
      at the same role (say `"role"` and `"role create"`): the subcommand is
      allowed for a member holding that role. */
  lemma SubcommandOverridesGroup(guildId: int, channel: ChannelRef, member: Member, role: int, group: string, sub: string)
    requires IsWord(group) && IsWord(sub)
    requires member.roles == [role]
    ensures var rows := [Row(Code(Role), role, false, Some(group)), Row(Code(Role), role, true, Some(group + " " + sub))];
            IsCommandAllowed(Compile(guildId, None, rows), channel, member, group + " " + sub).allowed
  {
    var full := group + " " + sub;
    var rows := [Row(Code(Role), role, false, Some(group)), Row(Code(Role), role, true, Some(full))];
    var start := CommandPermissions(guildId, None, None, NoData(), map[], map[], map[], map[]);
    var p1 := AddRow(start, rows[0]);
    var p := AddRow(p1, rows[1]);
    assert Compile(guildId, None, rows) == p by {
      assert rows[..1] == [rows[0]];
      assert rows[..1][..0] == [];
      assert AddRows(start, rows[..1][..0]) == start;
      assert AddRows(start, rows[..1]) == p1;
    }
    AddRowEffect(start, rows[0], Role, role);
    AddRowEffect(p1, rows[1], Role, role);
    AddRowEffect(start, rows[0], User, member.id);
    AddRowEffect(p1, rows[1], User, member.id);
    assert member.id !in p.users;
    SplitTwoWords(group, sub);
    var cmds := SplitCommand(full);
    assert LastHit(cmds, p.roles[role], 2);
    LastRoleDecides(p, channel, member, full, 0, 2);
  }
}

=== FILE: database.dfy ===
/** The schema half of the bot's PostgreSQL helper: the SQL column types
    with their validation and DDL spelling, one column's clause in a
    `CREATE TABLE`, and the statements that create a table and its
    indexes. Executing SQL is not modelled. */
module Database {
  import opened Wrappers
  import opened Strings

  // ---------------------------------------------------------------------
  // Column types
  // ---------------------------------------------------------------------

  /** The two exceptions schema validation raises. */
  datatype SchemaFailure = SchemaError | TypeError

  /** One `SQLType` subclass each. `ForeignKey` and `Array` keep the type
      they wrap, where the source keeps its SQL text; the text is the same. */
  datatype SqlType =
    | Binary
    | Boolean
    | Date
    | Datetime(timezone: bool)
    | Double
    | Float
    | Integer(big: bool, small: bool, autoIncrement: bool)
    | Interval(field: Option<string>)
    | Numeric(precision: Option<int>, scale: Option<int>)
    | String(length: Option<int>, fixed: bool)
    | Time(timezone: bool)
    | Json
    | ForeignKey(table: string, column: string, target: SqlType, onDelete: string, onUpdate: string)
    | Array(element: SqlType)

  /** The interval fields PostgreSQL accepts. */
  const IntervalFields: seq<string> :=
    ["YEAR", "MONTH", "DAY", "HOUR", "MINUTE", "SECOND",
     "YEAR TO MONTH", "DAY TO HOUR", "DAY TO MINUTE", "DAY TO SECOND",
     "HOUR TO MINUTE", "HOUR TO SECOND", "MINUTE TO SECOND"]

  /** The referential actions of a foreign key. */
  const ReferentialActions: seq<string> := ["NO ACTION", "RESTRICT", "CASCADE", "SET NULL", "SET DEFAULT"]

  /** `ForeignKey`'s keyword defaults: an `Integer()` column, cascading
      deletes, no action on update. */
  const DefaultTarget: SqlType := Integer(false, false, false)
  const DefaultOnDelete: string := "CASCADE"
  const DefaultOnUpdate: string := "NO ACTION"

  /** `is_real_type`: every type but a serial integer, a foreign key and an
      array. */
  predicate IsReal(t: SqlType) {
    match t
    case Integer(_, _, autoIncrement) => !autoIncrement
    case ForeignKey(_, _, _, _, _) => false
    case Array(_) => false
    case _ => true
  }

  /** What the constructors guarantee of the objects they build. */
  predicate WellFormed(t: SqlType) {
    match t
    case Integer(big, small, _) => !(big && small)
    case Interval(field) => field.Some? ==> field.value in IntervalFields
    case Numeric(precision, scale) => precision.Some? ==> 0 <= precision.value <= 1000 && scale.Some?
    case String(length, fixed) => fixed ==> length.Some?
    case ForeignKey(table, _, target, onDelete, onUpdate) =>
      table != "" && onDelete in ReferentialActions && onUpdate in ReferentialActions
      && IsReal(target) && WellFormed(target)
    case Array(element) => IsReal(element) && WellFormed(element)
    case _ => true
  }

  /** `Integer(big=, small=, auto_increment=)`. */
  function NewInteger(big: bool, small: bool, autoIncrement: bool): (r: Result<SqlType, SchemaFailure>)
    ensures r.Failure? <==> big && small
    ensures r.Failure? ==> r.error == SchemaError
    ensures r.Success? ==> r.value == Integer(big, small, autoIncrement) && WellFormed(r.value)
    ensures r.Success? ==> (IsReal(r.value) <==> !autoIncrement)
  {
    if big && small then Failure(SchemaError) else Success(Integer(big, small, autoIncrement))
  }

  /** `Interval(field)`: an empty or missing field means a plain interval;
      otherwise the upper-cased field must be one PostgreSQL knows. */
  function NewInterval(field: Option<string>): (r: Result<SqlType, SchemaFailure>)
    ensures field.Some? && field.value != "" ==>
              if Upper(field.value) in IntervalFields then r == Success(Interval(Some(Upper(field.value))))
              else r == Failure(SchemaError)
    ensures field.None? || field.value == "" ==> r == Success(Interval(None))
    ensures r.Success? ==> WellFormed(r.value)
  {
    if field.Some? && field.value != "" then
      var f := Upper(field.value);
      if f in IntervalFields then Success(Interval(Some(f))) else Failure(SchemaError)
    else Success(Interval(None))
  }

  /** `Numeric(precision=, scale=)`: a precision must lie in 0..1000 (both
      ends allowed), and then a missing scale becomes 0. */
  function NewNumeric(precision: Option<int>, scale: Option<int>): (r: Result<SqlType, SchemaFailure>)
    ensures r.Failure? <==> precision.Some? && !(0 <= precision.value <= 1000)
    ensures r.Failure? ==> r.error == SchemaError
    ensures r.Success? ==> r.value.Numeric? && r.value.precision == precision && WellFormed(r.value)
    ensures r.Success? && precision.Some? ==> r.value.scale == Some(scale.GetOr(0))
    ensures r.Success? && precision.None? ==> r.value.scale == scale
  {
    if precision.Some? then
      if precision.value < 0 || precision.value > 1000 then Failure(SchemaError)
      else Success(Numeric(precision, if scale.None? then Some(0) else scale))
    else Success(Numeric(None, scale))
  }

  /** `String(length=, fixed=)`: a fixed-width string needs a length. */
  function NewString(length: Option<int>, fixed: bool): (r: Result<SqlType, SchemaFailure>)
    ensures r.Failure? <==> fixed && length.None?
    ensures r.Failure? ==> r.error == SchemaError
    ensures r.Success? ==> r.value == String(length, fixed) && WellFormed(r.value)
  {
    if fixed && length.None? then Failure(SchemaError) else Success(String(length, fixed))
  }

  /** `ForeignKey(table, column, sql_type=, on_delete=, on_update=)`: the
      table must be named, both actions are upper-cased and must be
      referential actions, and the referencing type must be real. The
      checks run in that order, so the first failing one decides the error. */
  function NewForeignKey(table: string, column: string, target: SqlType, onDelete: string, onUpdate: string)
    : (r: Result<SqlType, SchemaFailure>)
    ensures r.Success? <==>
              table != "" && Upper(onDelete) in ReferentialActions && Upper(onUpdate) in ReferentialActions
              && IsReal(target)
    ensures table == "" ==> r == Failure(SchemaError)
    ensures (table != "" && (Upper(onDelete) !in ReferentialActions || Upper(onUpdate) !in ReferentialActions))
              ==> r == Failure(TypeError)
    ensures (table != "" && Upper(onDelete) in ReferentialActions && Upper(onUpdate) in ReferentialActions
             && !IsReal(target)) ==> r == Failure(SchemaError)
    ensures r.Success? ==> r.value == ForeignKey(table, column, target, Upper(onDelete), Upper(onUpdate))
    ensures r.Success? && WellFormed(target) ==> WellFormed(r.value) && !IsReal(r.value)
  {
    if table == "" then Failure(SchemaError)
    else
      var d := Upper(onDelete);
      var u := Upper(onUpdate);
      if d !in ReferentialActions then Failure(TypeError)
      else if u !in ReferentialActions then Failure(TypeError)
      else if !IsReal(target) then Failure(SchemaError)
      else Success(ForeignKey(table, column, target, d, u))
  }

  /** `Array(sql_type)`: the element type must be real. */
  function NewArray(element: SqlType): (r: Result<SqlType, SchemaFailure>)
    ensures r.Success? <==> IsReal(element)
    ensures r.Failure? ==> r.error == SchemaError
    ensures r.Success? ==> r.value == Array(element) && !IsReal(r.value)
    ensures r.Success? && WellFormed(element) ==> WellFormed(r.value)
  {
    if !IsReal(element) then Failure(SchemaError) else Success(Array(element))
  }

  /** A foreign key with every default but the table and column is
      accepted whenever the table is named. */
  lemma DefaultForeignKey(table: string, column: string)
    requires table != ""
    ensures NewForeignKey(table, column, DefaultTarget, DefaultOnDelete, DefaultOnUpdate)
            == Success(ForeignKey(table, column, DefaultTarget, DefaultOnDelete, DefaultOnUpdate))
  {
    assert Upper(DefaultOnDelete) == DefaultOnDelete;
    assert Upper(DefaultOnUpdate) == DefaultOnUpdate;
  }

  /** `to_sql()`. */
  function ToSql(t: SqlType): string {
    match t
    case Binary => "BYTEA"
    case Boolean => "BOOLEAN"
    case Date => "DATE"
    case Datetime(timezone) => if timezone then "TIMESTAMP WITH TIME ZONE" else "TIMESTAMP"
    case Double => "REAL"
    case Float => "FLOAT"
    case Integer(big, small, autoIncrement) =>
      if autoIncrement then
        if big then "BIGSERIAL" else if small then "SMALLSERIAL" else "SERIAL"
      else if big then "BIGINT" else if small then "SMALLINT" else "INTEGER"
    case Interval(field) => if field.Some? && field.value != "" then "INTERVAL " + field.value else "INTERVAL"
    case Numeric(precision, scale) =>
      if precision.Some? then "NUMERIC(" + (IntToString(precision.value) + ", " + ScaleText(scale)) + ")"
      else "NUMERIC"
    case String(length, fixed) =>
      if length.None? then "TEXT"
      else if fixed then "CHAR(" + IntToString(length.value) + ")"
      else "VARCHAR(" + IntToString(length.value) + ")"
    case Time(timezone) => if timezone then "TIME WITH TIME ZONE" else "TIME"
    case Json => "JSONB"
    case ForeignKey(table, column, target, onDelete, onUpdate) =>
      ToSql(target) + " REFERENCES " + table + " (" + column + ")"
      + " ON DELETE " + onDelete + " ON UPDATE " + onUpdate
    case Array(element) => ToSql(element) + " ARRAY"
  }

  /** `str(scale)`, which is `None` for a scale never given. */
  function ScaleText(scale: Option<int>): string {
    match scale
    case Some(s) => IntToString(s)
    case None => "None"
  }

  // ---------------------------------------------------------------------
  // Reading a type back from its SQL
  // ---------------------------------------------------------------------

  /** The type `ToSql` prints identically: a `Numeric` without precision
      loses its scale, and nothing else changes. */
  function Canonical(t: SqlType): SqlType {
    match t
    case Numeric(precision, _) => if precision.None? then Numeric(None, None) else t
    case Array(element) => Array(Canonical(element))
    case _ => t
  }

  /** A type that is neither a foreign key nor an array of one: the types
      whose SQL text determines them. */
  predicate Readable(t: SqlType) {
    match t
    case ForeignKey(_, _, _, _, _) => false
    case Array(element) => !element.ForeignKey? && !element.Array?
    case _ => true
  }

  /** `n` when `s` is `<prefix>n)` for the printed integer `n`. */
  function ReadWrapped(prefix: string, s: string): Option<int> {
    if IsPrefix(prefix, s) && IsSuffix(")", s) && |prefix| < |s| && IsNumeral(s[|prefix|..|s| - 1]) then
      Some(ParseInt(s[|prefix|..|s| - 1]))
    else None
  }

  /** Reads `p, s` between the parentheses of `NUMERIC(p, s)`. */
  function ReadNumericArgs(a: string): Option<SqlType> {
    var ws := Split(a, ',');
    if |ws| == 2 && IsNumeral(ws[0]) && |ws[1]| > 1 && ws[1][0] == ' ' && IsNumeral(ws[1][1..]) then
      Some(Numeric(Some(ParseInt(ws[0])), Some(ParseInt(ws[1][1..]))))
    else None
  }

  /** Reads a column type back from the SQL `ToSql` prints. */
  function ReadType(s: string): Option<SqlType>
    decreases |s|
  {
    if IsSuffix(" ARRAY", s) then
      match ReadType(s[..|s| - 6])
      case Some(e) => Some(Array(e))
      case None => None
    else ReadScalar(s)
  }

  /** Reads a type other than an array, dispatching on the first letter. */
  function ReadScalar(s: string): Option<SqlType> {
    if |s| == 0 then None
    else
      match s[0]
      case 'B' =>
        if s == "BYTEA" then Some(Binary)
        else if s == "BOOLEAN" then Some(Boolean)
        else if s == "BIGSERIAL" then Some(Integer(true, false, true))
        else if s == "BIGINT" then Some(Integer(true, false, false))
        else None
      case 'C' => if ReadWrapped("CHAR(", s).Some? then Some(String(ReadWrapped("CHAR(", s), true)) else None
      case 'D' => if s == "DATE" then Some(Date) else None
      case 'F' => if s == "FLOAT" then Some(Float) else None
      case 'I' =>
        if s == "INTEGER" then Some(Integer(false, false, false))
        else if s == "INTERVAL" then Some(Interval(None))
        else if IsPrefix("INTERVAL ", s) then Some(Interval(Some(s[9..])))
        else None
      case 'J' => if s == "JSONB" then Some(Json) else None
      case 'N' =>
        if s == "NUMERIC" then Some(Numeric(None, None))
        else if IsPrefix("NUMERIC(", s) && IsSuffix(")", s) && |s| >= 9 then ReadNumericArgs(s[8..|s| - 1])
        else None
      case 'R' => if s == "REAL" then Some(Double) else None
      case 'S' =>
        if s == "SERIAL" then Some(Integer(false, false, true))
        else if s == "SMALLSERIAL" then Some(Integer(false, true, true))
        else if s == "SMALLINT" then Some(Integer(false, true, false))
        else None
      case 'T' =>
        if s == "TEXT" then Some(String(None, false))
        else if s == "TIMESTAMP WITH TIME ZONE" then Some(Datetime(true))
        else if s == "TIMESTAMP" then Some(Datetime(false))
        else if s == "TIME WITH TIME ZONE" then Some(Time(true))
        else if s == "TIME" then Some(Time(false))
        else None
      case 'V' => if ReadWrapped("VARCHAR(", s).Some? then Some(String(ReadWrapped("VARCHAR(", s), false)) else None
      case _ => None
  }

  lemma ReadInteger(big: bool, small: bool, autoIncrement: bool)
    requires !(big && small)
    ensures ReadScalar(ToSql(Integer(big, small, autoIncrement))) == Some(Integer(big, small, autoIncrement))
  {
  }

  lemma ReadIntervalField(f: string)
    requires f in IntervalFields
    ensures ReadScalar("INTERVAL " + f) == Some(Interval(Some(f)))
  {
    var s := "INTERVAL " + f;
    assert s[..9] == "INTERVAL ";
    assert s[9..] == f;
  }

  lemma ReadNumeric(p: int, sc: int)
    ensures ReadScalar(ToSql(Numeric(Some(p), Some(sc)))) == Some(Numeric(Some(p), Some(sc)))
  {
    var a := IntToString(p) + ", " + IntToString(sc);
    assert ToSql(Numeric(Some(p), Some(sc))) == "NUMERIC(" + a + ")";
    ReadWrappedNumeric(a);
    ReadNumericArgsOf(p, sc);
  }

  /** `NUMERIC(a)` is read by reading the arguments `a`. */
  lemma ReadWrappedNumeric(a: string)
    ensures ReadScalar("NUMERIC(" + a + ")") == ReadNumericArgs(a)
  {
    var s := "NUMERIC(" + a + ")";
    assert s[0] == 'N';
    assert s[..8] == "NUMERIC(";
    assert s[8..|s| - 1] == a;
    assert s[|s| - 1..] == ")";
    assert s != "NUMERIC" by {
      assert |s| >= 9;
    }
  }

  lemma ReadNumericArgsOf(p: int, sc: int)
    ensures ReadNumericArgs(IntToString(p) + ", " + IntToString(sc)) == Some(Numeric(Some(p), Some(sc)))
  {
    var a := IntToString(p) + ", " + IntToString(sc);
    forall k | 0 <= k < |IntToString(p)| ensures IntToString(p)[k] != ',' {
      IntToStringChars(p, k);
    }
    forall k | 0 <= k < |" " + IntToString(sc)| ensures (" " + IntToString(sc))[k] != ',' {
      if k > 0 {
        IntToStringChars(sc, k - 1);
      }
    }
    assert a == Join([IntToString(p), " " + IntToString(sc)], [',']);
    SplitJoin([IntToString(p), " " + IntToString(sc)], ',');
    ParseIntToString(p);
    ParseIntToString(sc);
    assert (" " + IntToString(sc))[1..] == IntToString(sc);
  }

  lemma ReadWrappedOf(prefix: string, n: int)
    ensures ReadWrapped(prefix, prefix + IntToString(n) + ")") == Some(n)
  {
    var s := prefix + IntToString(n) + ")";
    assert s[..|prefix|] == prefix;
    assert s[|prefix|..|s| - 1] == IntToString(n);
    ParseIntToString(n);
  }

  lemma ReadString(length: Option<int>, fixed: bool)
    requires fixed ==> length.Some?
    ensures ReadScalar(ToSql(String(length, fixed))) == Some(String(length, fixed))
  {
    if length.Some? {
      var n := length.value;
      if fixed {
        ReadWrappedOf("CHAR(", n);
        var s := "CHAR(" + IntToString(n) + ")";
        assert s[0] == 'C';
      } else {
        ReadWrappedOf("VARCHAR(", n);
        var s := "VARCHAR(" + IntToString(n) + ")";
        assert s[0] == 'V';
      }
    }
  }

  /** A text that differs from ` ARRAY` at the k-th character from the end
      does not end in ` ARRAY`. */
  lemma CharNotArray(s: string, k: nat)
    requires 1 <= k <= 6 && k <= |s| && s[|s| - k] != " ARRAY"[6 - k]
    ensures !IsSuffix(" ARRAY", s)
  {
    if |s| >= 6 {
      assert s[|s| - 6..][6 - k] == s[|s| - k];
    }
  }

  /** No interval field ends in `Y` except `DAY`, whose third letter from
      the end is not the `R` of ` ARRAY`. */
  lemma IntervalNotArray(f: string)
    requires f in IntervalFields
    ensures !IsSuffix(" ARRAY", "INTERVAL " + f)
  {
    var s := "INTERVAL " + f;
    assert s[|s| - 1] == f[|f| - 1];
    if f == "DAY" {
      assert s[|s| - 3] == 'D';
      CharNotArray(s, 3);
    } else {
      assert f[|f| - 1] != 'Y';
      CharNotArray(s, 1);
    }
  }

  /** No scalar type prints with the array suffix. */
  lemma ScalarNotArray(t: SqlType)
    requires WellFormed(t) && !t.ForeignKey? && !t.Array?
    ensures !IsSuffix(" ARRAY", ToSql(t))
  {
    var s := ToSql(t);
    if t.Interval? && t.field.Some? && t.field.value != "" {
      IntervalNotArray(t.field.value);
    } else {
      assert |s| > 0 && s[|s| - 1] != 'Y';
      CharNotArray(s, 1);
    }
  }

  lemma {:induction false} ReadScalarOf(t: SqlType)
    requires WellFormed(t) && !t.ForeignKey? && !t.Array?
    ensures ReadScalar(ToSql(t)) == Some(Canonical(t))
  {
    match t
    case Integer(big, small, autoIncrement) => ReadInteger(big, small, autoIncrement);
    case Interval(field) =>
      if field.Some? {
        ReadIntervalField(field.value);
      }
    case Numeric(precision, scale) =>
      if precision.Some? {
        ReadNumeric(precision.value, scale.value);
      }
    case String(length, fixed) => ReadString(length, fixed);
    case Datetime(_) => ReadClock(t);
    case Time(_) => ReadClock(t);
    case _ => ReadKeyword(t);
  }

  /** The types printed as one fixed keyword read back as themselves. */
  lemma ReadKeyword(t: SqlType)
    requires t.Binary? || t.Boolean? || t.Date? || t.Double? || t.Float? || t.Json?
    ensures ReadScalar(ToSql(t)) == Some(t)
  {
  }

  lemma ReadClock(t: SqlType)
    requires t.Datetime? || t.Time?
    ensures ReadScalar(ToSql(t)) == Some(t)
  {
  }

  /** Reading back the SQL of a well-formed type recovers the type, up to
      the scale a `Numeric` without precision never prints. */
  lemma {:induction false} ReadToSql(t: SqlType)
    requires WellFormed(t) && Readable(t)
    ensures ReadType(ToSql(t)) == Some(Canonical(t))
  {
    if t.Array? {
      var e := t.element;
      var s := ToSql(e) + " ARRAY";
      assert s[|s| - 6..] == " ARRAY";
      assert s[..|s| - 6] == ToSql(e);
      ScalarNotArray(e);
      ReadScalarOf(e);
    } else {
      ScalarNotArray(t);
      ReadScalarOf(t);
    }
  }

  /** Two well-formed readable types print the same SQL only when they
      are the same type, up to an unprinted `Numeric` scale. */
  lemma ToSqlInjective(a: SqlType, b: SqlType)
    requires WellFormed(a) && Readable(a) && WellFormed(b) && Readable(b)
    ensures ToSql(a) == ToSql(b) <==> Canonical(a) == Canonical(b)
  {
    ReadToSql(a);
    ReadToSql(b);
    if Canonical(a) == Canonical(b) {
      CanonicalSql(a);
      CanonicalSql(b);
    }
  }

  /** A type and its canonical form print the same SQL. */
  lemma CanonicalSql(t: SqlType)
    ensures ToSql(Canonical(t)) == ToSql(t)
  {
    if t.Array? {
      CanonicalSql(t.element);
    }
  }

  // ---------------------------------------------------------------------
  // Columns
  // ---------------------------------------------------------------------

  /** A column default, by how `create_statement` prints it: a string (quoted
      only in a `String` column), a boolean, or any other value by its
      `str()`. */
  datatype Default = StrDefault(text: string) | BoolDefault(b: bool) | OtherDefault(text: string)

  /** A column as its table sees it, after the table has named it. */
  datatype Column = Column(
    name: string,
    columnType: SqlType,
    index: bool,
    primaryKey: bool,
    nullable: bool,
    unique: bool,
    default: Option<Default>)

  /** How a default value is written after `DEFAULT`. */
  function DefaultLiteral(d: Default, t: SqlType): (r: string)
    ensures |r| > 0 && r[|r| - 1] != 'L'
  {
    match d
    case StrDefault(text) => if t.String? then "'" + text + "'" else "(" + text + ")"
    case BoolDefault(b) => if b then "TRUE" else "FALSE"
    case OtherDefault(text) => "(" + text + ")"
  }

  /** The words after the name and the type: the default, or else
      `UNIQUE` for a unique column; then `NOT NULL` for a column that is
      not nullable. */
  function Extras(c: Column): seq<string> {
    (match c.default
     case Some(d) => ["DEFAULT", DefaultLiteral(d, c.columnType)]
     case None => if c.unique then ["UNIQUE"] else [])
    + (if c.nullable then [] else ["NOT NULL"])
  }

  /** The words `create_statement` joins with spaces. */
  function Clauses(c: Column): seq<string> {
    [c.name, ToSql(c.columnType)] + Extras(c)
  }

  /** `Column.create_statement()`. */
  function CreateStatement(c: Column): string {
    Join(Clauses(c), " ")
  }

  /** The text a column clause starts with: its name and its type. */
  function Head(c: Column): string {
    c.name + " " + ToSql(c.columnType)
  }

  /** Reads the constraints that follow a column's name and type: the
      default's literal, whether the column is `UNIQUE`, whether it is
      nullable. */
  function ReadConstraints(rest: string): (Option<string>, bool, bool) {
    var nullable := !IsSuffix(" " + "NOT NULL", rest);
    var r := if nullable then rest else rest[..|rest| - 9];
    if IsPrefix(" " + "DEFAULT" + " ", r) then (Some(r[9..]), false, nullable)
    else (None, r == " " + "UNIQUE", nullable)
  }

  /** The constraints a column clause states, by the column's settings: the
      default when one is set, `UNIQUE` only without a default, and
      `NOT NULL` exactly for a column that is not nullable. */
  function Constraints(c: Column): (Option<string>, bool, bool) {
    (match c.default case Some(d) => Some(DefaultLiteral(d, c.columnType)) case None => None,
     c.unique && c.default.None?,
     c.nullable)
  }

  lemma CreateStatementSplits(c: Column)
    ensures CreateStatement(c) == Head(c) + Prefixed(Extras(c), " ")
  {
    Join2(c.name, ToSql(c.columnType), " ");
    JoinPrefixed([c.name, ToSql(c.columnType)], Extras(c), " ");
  }

  lemma Prefixed1(a: string, sep: string)
    ensures Prefixed([a], sep) == sep + a
  {
    assert [a][1..] == [];
  }

  lemma Prefixed2(a: string, b: string, sep: string)
    ensures Prefixed([a, b], sep) == sep + a + (sep + b)
  {
    assert [a, b][1..] == [b];
    Prefixed1(b, sep);
  }

  lemma Prefixed3(a: string, b: string, d: string, sep: string)
    ensures Prefixed([a, b, d], sep) == sep + a + (sep + b + (sep + d))
  {
    assert [a, b, d][1..] == [b, d];
    Prefixed2(b, d, sep);
  }

  /** What follows the name and type, for a column without `NOT NULL`. */
  lemma ReadFront(c: Column)
    ensures var front := Prefixed(Extras(c.(nullable := true)), " ");
            !IsSuffix(" " + "NOT NULL", front)
            && ReadConstraints(front) == Constraints(c.(nullable := true))
  {
    var c' := c.(nullable := true);
    var front := Prefixed(Extras(c'), " ");
    match c.default
    case Some(d) =>
      var lit := DefaultLiteral(d, c.columnType);
      assert Extras(c') == ["DEFAULT", lit];
      Prefixed2("DEFAULT", lit, " ");
      assert front == " " + "DEFAULT" + " " + lit;
      assert front[|front| - 1] == lit[|lit| - 1];
      assert front[..9] == " " + "DEFAULT" + " ";
      assert front[9..] == lit;
    case None =>
      if c.unique {
        assert Extras(c') == ["UNIQUE"];
        Prefixed1("UNIQUE", " ");
      } else {
        assert Extras(c') == [];
      }
  }

  /** The extra words split into the constraint part and `NOT NULL`. */
  lemma ExtrasNullable(c: Column)
    ensures Extras(c) == Extras(c.(nullable := true)) + (if c.nullable then [] else ["NOT NULL"])
  {
  }

  lemma PrefixedAppend(a: seq<string>, b: seq<string>, sep: string)
    ensures Prefixed(a + b, sep) == Prefixed(a, sep) + Prefixed(b, sep)
    decreases |a|
  {
    if |a| == 0 {
      assert a + b == b;
    } else {
      assert (a + b)[1..] == a[1..] + b;
      PrefixedAppend(a[1..], b, sep);
    }
  }

  /** A column clause starts with the column's name and type, and what
      follows reads back as exactly the constraints its settings ask for. */
  lemma CreateStatementReads(c: Column)
    ensures IsPrefix(Head(c), CreateStatement(c))
    ensures ReadConstraints(CreateStatement(c)[|Head(c)|..]) == Constraints(c)
  {
    CreateStatementSplits(c);
    var st := CreateStatement(c);
    var rest := Prefixed(Extras(c), " ");
    assert st[..|Head(c)|] == Head(c);
    assert st[|Head(c)|..] == rest;
    var front := Prefixed(Extras(c.(nullable := true)), " ");
    ReadFront(c);
    ExtrasNullable(c);
    PrefixedAppend(Extras(c.(nullable := true)), if c.nullable then [] else ["NOT NULL"], " ");
    if c.nullable {
      assert c.(nullable := true) == c;
      assert rest == front;
    } else {
      Prefixed1("NOT NULL", " ");
      assert rest == front + (" " + "NOT NULL");
      assert rest[|rest| - 9..] == " " + "NOT NULL";
      assert rest[..|rest| - 9] == front;
    }
  }

  // ---------------------------------------------------------------------
  // Tables
  // ---------------------------------------------------------------------

  /** A table: its name and its columns in declaration order. */
  datatype Table = Table(name: string, columns: seq<Column>)

  /** A column attribute of a table class: the attribute name, the name the
      column was given (if any), and the column. */
  datatype Declaration = Declaration(attribute: string, name: Option<string>, column: Column)

  /** `TableMeta`: the table is named by the `table_name` keyword or else
      by the lower-cased class name, and an unnamed column by its
      attribute. */
  function MakeTable(className: string, tableName: Option<string>, decls: seq<Declaration>): (t: Table)
    ensures |t.columns| == |decls|
  {
    Table(tableName.GetOr(Lower(className)),
          seq(|decls|, i requires 0 <= i < |decls| => decls[i].column.(name := decls[i].name.GetOr(decls[i].attribute))))
  }

  /** The index name `TableMeta` gives an indexed column. */
  function IndexName(table: string, column: string): string {
    table + "_" + column + "_idx"
  }

  /** The names of the primary-key columns, in column order. */
  function PrimaryKeys(cols: seq<Column>): seq<string>
    decreases |cols|
  {
    if |cols| == 0 then []
    else
      var n := |cols| - 1;
      PrimaryKeys(cols[..n]) + (if cols[n].primaryKey then [cols[n].name] else [])
  }

  /** The column clauses, then a `PRIMARY KEY` clause when some column is
      a primary key. */
  function Definitions(cols: seq<Column>): seq<string> {
    var keys := PrimaryKeys(cols);
    seq(|cols|, i requires 0 <= i < |cols| => CreateStatement(cols[i]))
    + (if |keys| > 0 then ["PRIMARY KEY (" + Join(keys, ", ") + ")"] else [])
  }

  const CreateKeyword := "CREATE TABLE"
  const GuardKeyword := "IF NOT EXISTS"

  /** The `CREATE TABLE` statement. */
  function CreateStatementOf(t: Table, overwrite: bool): string {
    Join([CreateKeyword] + (if overwrite then [] else [GuardKeyword])
         + [t.name, "(" + Join(Definitions(t.columns), ", ") + ")"], " ") + ";"
  }

  function IndexStatement(table: string, c: Column): string {
    "CREATE INDEX IF NOT EXISTS " + IndexName(table, c.name) + " ON " + table + " (" + c.name + ");"
  }

  /** One index statement per indexed column, in column order. */
  function IndexStatements(table: string, cols: seq<Column>): seq<string>
    decreases |cols|
  {
    if |cols| == 0 then []
    else
      var n := |cols| - 1;
      IndexStatements(table, cols[..n]) + (if cols[n].index then [IndexStatement(table, cols[n])] else [])
  }

  /** The statements `create_table` joins with newlines. */
  function Statements(t: Table, overwrite: bool): seq<string> {
    [CreateStatementOf(t, overwrite)] + IndexStatements(t.name, t.columns)
  }

  /** The first loop of `create_table`: one clause per column, and the
      names of the primary-key columns. */
  method CollectColumns(cols: seq<Column>) returns (creations: seq<string>, keys: seq<string>)
    ensures |creations| == |cols|
    ensures forall k :: 0 <= k < |cols| ==> creations[k] == CreateStatement(cols[k])
    ensures keys == PrimaryKeys(cols)
  {
    creations, keys := [], [];
    var i := 0;
    while i < |cols|
      invariant 0 <= i <= |cols|
      invariant |creations| == i
      invariant forall k :: 0 <= k < i ==> creations[k] == CreateStatement(cols[k])
      invariant keys == PrimaryKeys(cols[..i])
    {
      creations := creations + [CreateStatement(cols[i])];
      if cols[i].primaryKey {
        keys := keys + [cols[i].name];
      }
      assert cols[..i + 1][..i] == cols[..i];
      i := i + 1;
    }
    assert cols[..i] == cols;
  }

  /** The second loop of `create_table`: the index statements. */
  method CollectIndexes(table: string, cols: seq<Column>) returns (statements: seq<string>)
    ensures statements == IndexStatements(table, cols)
  {
    statements := [];
    var i := 0;
    while i < |cols|
      invariant 0 <= i <= |cols|
      invariant statements == IndexStatements(table, cols[..i])
    {
      if cols[i].index {
        statements := statements + [IndexStatement(table, cols[i])];
      }
      assert cols[..i + 1][..i] == cols[..i];
      i := i + 1;
    }
    assert cols[..i] == cols;
  }

  /** The column statements and the key list make up the definitions. */
  lemma DefinitionsOf(creations: seq<string>, keys: seq<string>, cols: seq<Column>)
    requires |creations| == |cols| && forall k :: 0 <= k < |cols| ==> creations[k] == CreateStatement(cols[k])
    requires keys == PrimaryKeys(cols)
    ensures Definitions(cols) == creations + (if |keys| > 0 then ["PRIMARY KEY (" + Join(keys, ", ") + ")"] else [])
  {
    assert creations == seq(|cols|, i requires 0 <= i < |cols| => CreateStatement(cols[i]));
  }

  /** `Table.create_table(overwrite=)`. */
  method CreateTable(t: Table, overwrite: bool) returns (sql: string)
    ensures sql == Join(Statements(t, overwrite), "\n")
  {
    var builder := [CreateKeyword];
    if !overwrite {
      builder := builder + [GuardKeyword];
    }
    var head := builder;
    assert head == [CreateKeyword] + (if overwrite then [] else [GuardKeyword]);
    builder := builder + [t.name];
    var creations, keys := CollectColumns(t.columns);
    DefinitionsOf(creations, keys, t.columns);
    if |keys| > 0 {
      creations := creations + ["PRIMARY KEY (" + Join(keys, ", ") + ")"];
    }
    assert creations == Definitions(t.columns);
    builder := builder + ["(" + Join(creations, ", ") + ")"];
    SnocTwice(head, t.name, "(" + Join(creations, ", ") + ")");
    var indexes := CollectIndexes(t.name, t.columns);
    var statements := [Join(builder, " ") + ";"] + indexes;
    sql := Join(statements, "\n");
  }

  lemma SnocTwice(s: seq<string>, a: string, b: string)
    ensures s + [a] + [b] == s + [a, b]
  {
  }

  /** Some primary-key column of `cols` is called `name`. */
  predicate KeyedBy(cols: seq<Column>, name: string) {
    exists i :: 0 <= i < |cols| && cols[i].primaryKey && cols[i].name == name
  }

  lemma KeyedBySnoc(cols: seq<Column>, name: string)
    requires |cols| > 0
    ensures var n := |cols| - 1;
            KeyedBy(cols, name) <==> KeyedBy(cols[..n], name) || (cols[n].primaryKey && cols[n].name == name)
  {
    var n := |cols| - 1;
    var pre := cols[..n];
    if KeyedBy(cols, name) {
      var i :| 0 <= i < |cols| && cols[i].primaryKey && cols[i].name == name;
      if i < n {
        assert pre[i] == cols[i];
      }
    }
    if KeyedBy(pre, name) {
      var i :| 0 <= i < n && pre[i].primaryKey && pre[i].name == name;
      assert cols[i] == pre[i];
    }
  }

  /** The primary-key list names exactly the primary-key columns. */
  lemma {:induction false} PrimaryKeysOf(cols: seq<Column>, name: string)
    ensures name in PrimaryKeys(cols) <==> KeyedBy(cols, name)
    decreases |cols|
  {
    if |cols| > 0 {
      PrimaryKeysOf(cols[..|cols| - 1], name);
      KeyedBySnoc(cols, name);
    }
  }

  lemma {:induction false} PrimaryKeysEmpty(cols: seq<Column>)
    ensures |PrimaryKeys(cols)| == 0 <==> forall i :: 0 <= i < |cols| ==> !cols[i].primaryKey
    decreases |cols|
  {
    if |cols| > 0 {
      var n := |cols| - 1;
      PrimaryKeysEmpty(cols[..n]);
      assert forall i :: 0 <= i < n ==> cols[..n][i] == cols[i];
    }
  }

  /** The table's definitions are its column clauses, in order, plus one
      `PRIMARY KEY` clause listing the key columns exactly when some column
      is a primary key. */
  lemma DefinitionsShape(cols: seq<Column>)
    ensures var defs := Definitions(cols);
            && (|defs| == |cols| + 1 <==> exists i :: 0 <= i < |cols| && cols[i].primaryKey)
            && (|defs| == |cols| || |defs| == |cols| + 1)
            && (forall i :: 0 <= i < |cols| ==> defs[i] == CreateStatement(cols[i]))
            && (|defs| == |cols| + 1 ==> defs[|cols|] == "PRIMARY KEY (" + Join(PrimaryKeys(cols), ", ") + ")")
  {
    PrimaryKeysEmpty(cols);
  }

  /** The `CREATE TABLE` statement spelled out: the guard, the name, the
      parenthesised definitions. */
  lemma CreateStatementOfForm(t: Table, overwrite: bool)
    ensures CreateStatementOf(t, overwrite)
            == CreateKeyword + " " + (if overwrite then "" else GuardKeyword + " ") + t.name + " "
               + ("(" + Join(Definitions(t.columns), ", ") + ")") + ";"
  {
    var x := "(" + Join(Definitions(t.columns), ", ") + ")";
    if overwrite {
      assert [CreateKeyword] + [] + [t.name, x] == [CreateKeyword, t.name, x];
      Join3(CreateKeyword, t.name, x, " ");
    } else {
      assert [CreateKeyword] + [GuardKeyword] + [t.name, x] == [CreateKeyword, GuardKeyword, t.name, x];
      Join4(CreateKeyword, GuardKeyword, t.name, x, " ");
    }
  }

  lemma PrefixOfConcat(a: string, b: string, u: string)
    ensures IsPrefix(a + b, a + u) ==> IsPrefix(b, u)
  {
    if IsPrefix(a + b, a + u) {
      assert u[..|b|] == (a + u)[..|a + b|][|a|..];
    }
  }

  /** No space-free name followed by ` (` starts with `IF NOT EXISTS `. */
  lemma NotGuard(name: string, rest: string)
    requires ' ' !in name && |rest| > 0 && rest[0] == '('
    ensures !IsPrefix(GuardKeyword + " ", name + " " + rest)
  {
    var u := name + " " + rest;
    var m := |name|;
    if m == 0 {
      assert u[0] == ' ';
    } else if m == 1 {
      assert u[1] == ' ';
    } else if m == 2 {
      assert u[3] == '(';
    } else {
      assert u[2] == name[2];
    }
  }

  /** A statement `head + rest` starts with `head + g` iff `rest` starts with `g`. */
  lemma PrefixAfterHead(head: string, g: string, rest: string)
    ensures IsPrefix(head + g, head + rest) <==> IsPrefix(g, rest)
  {
    PrefixOfConcat(head, g, rest);
    if IsPrefix(g, rest) {
      assert (head + rest)[..|head + g|] == head + rest[..|g|];
    }
  }

  /** The statement as the `CREATE TABLE ` head and what follows it. */
  lemma StatementTail(t: Table, overwrite: bool)
    ensures var x := "(" + Join(Definitions(t.columns), ", ") + ")";
            var tail := (if overwrite then "" else GuardKeyword + " ") + (t.name + " " + (x + ";"));
            CreateStatementOf(t, overwrite) == (CreateKeyword + " ") + tail
  {
    CreateStatementOfForm(t, overwrite);
  }

  lemma OverwriteUnguarded(t: Table)
    requires ' ' !in t.name
    ensures !IsPrefix((CreateKeyword + " ") + (GuardKeyword + " "), CreateStatementOf(t, true))
  {
    StatementTail(t, true);
    var x := "(" + Join(Definitions(t.columns), ", ") + ")";
    var u := t.name + " " + (x + ";");
    assert CreateStatementOf(t, true) == (CreateKeyword + " ") + u;
    NotGuard(t.name, x + ";");
    PrefixAfterHead(CreateKeyword + " ", GuardKeyword + " ", u);
  }

  lemma KeepGuarded(t: Table)
    ensures IsPrefix((CreateKeyword + " ") + (GuardKeyword + " "), CreateStatementOf(t, false))
  {
    StatementTail(t, false);
    var x := "(" + Join(Definitions(t.columns), ", ") + ")";
    var u := t.name + " " + (x + ";");
    var g := GuardKeyword + " ";
    assert CreateStatementOf(t, false) == (CreateKeyword + " ") + (g + u);
    assert IsPrefix(g, g + u);
    PrefixAfterHead(CreateKeyword + " ", g, g + u);
  }

  /** With a table name free of spaces, the statement asks for
      `IF NOT EXISTS` exactly when the table is not overwritten. */
  lemma IfNotExists(t: Table, overwrite: bool)
    requires ' ' !in t.name
    ensures IsPrefix((CreateKeyword + " ") + (GuardKeyword + " "), CreateStatementOf(t, overwrite)) <==> !overwrite
  {
    if overwrite {
      OverwriteUnguarded(t);
    } else {
      KeepGuarded(t);
    }
  }

  /** Some indexed column of `cols` has the index statement `st`. */
  predicate IndexedBy(table: string, cols: seq<Column>, st: string) {
    exists i :: 0 <= i < |cols| && cols[i].index && st == IndexStatement(table, cols[i])
  }

  lemma IndexedBySnoc(table: string, cols: seq<Column>, st: string)
    requires |cols| > 0
    ensures var n := |cols| - 1;
            IndexedBy(table, cols, st)
            <==> IndexedBy(table, cols[..n], st) || (cols[n].index && st == IndexStatement(table, cols[n]))
  {
    var n := |cols| - 1;
    var pre := cols[..n];
    if IndexedBy(table, cols, st) {
      var i :| 0 <= i < |cols| && cols[i].index && st == IndexStatement(table, cols[i]);
      if i < n {
        assert pre[i] == cols[i];
      }
    }
    if IndexedBy(table, pre, st) {
      var i :| 0 <= i < n && pre[i].index && st == IndexStatement(table, pre[i]);
      assert cols[i] == pre[i];
    }
  }

  /** The index statements are exactly those of the indexed columns. */
  lemma {:induction false} IndexStatementsOf(table: string, cols: seq<Column>, st: string)
    ensures st in IndexStatements(table, cols) <==> IndexedBy(table, cols, st)
    decreases |cols|
  {
    if |cols| > 0 {
      IndexStatementsOf(table, cols[..|cols| - 1], st);
      IndexedBySnoc(table, cols, st);
    }
  }

  /** A table class's indexed column gets the statement creating the index
      `<table>_<column>_idx`, with both names defaulted as the metaclass
      does. */
  lemma DeclaredIndex(className: string, tableName: Option<string>, decls: seq<Declaration>, i: int, overwrite: bool)
    requires 0 <= i < |decls| && decls[i].column.index
    ensures var tn := tableName.GetOr(Lower(className));
            var cn := decls[i].name.GetOr(decls[i].attribute);
            "CREATE INDEX IF NOT EXISTS " + tn + "_" + cn + "_idx ON " + tn + " (" + cn + ");"
              in Statements(MakeTable(className, tableName, decls), overwrite)
  {
    var t := MakeTable(className, tableName, decls);
    assert t.columns[i].index && t.columns[i].name == decls[i].name.GetOr(decls[i].attribute);
    var tn := tableName.GetOr(Lower(className));
    var cn := decls[i].name.GetOr(decls[i].attribute);
    var st := IndexStatement(t.name, t.columns[i]);
    assert st == "CREATE INDEX IF NOT EXISTS " + tn + "_" + cn + "_idx ON " + tn + " (" + cn + ");";
    IndexStatementsOf(t.name, t.columns, st);
    assert Statements(t, overwrite)[1..] == IndexStatements(t.name, t.columns);
  }

  /** A table class's primary-key clause names the declared primary-key
      columns by their defaulted names. */
  lemma DeclaredPrimaryKeys(className: string, tableName: Option<string>, decls: seq<Declaration>, name: string)
    ensures name in PrimaryKeys(MakeTable(className, tableName, decls).columns)
            <==> (exists i :: 0 <= i < |decls| && decls[i].column.primaryKey
                                && decls[i].name.GetOr(decls[i].attribute) == name)
  {
    var t := MakeTable(className, tableName, decls);
    PrimaryKeysOf(t.columns, name);
    assert forall i :: 0 <= i < |decls| ==>
      t.columns[i].primaryKey == decls[i].column.primaryKey && t.columns[i].name == decls[i].name.GetOr(decls[i].attribute);
  }
}

=== FILE: scope.dfy ===
/** The scope kinds shared by the command and the logging configuration.
    `CommandConfigType` and `StatConfigType` are two copies of the same
    enumeration; rows store a kind by its integer code. */
module Scope {
  import opened Wrappers

  datatype ScopeKind = Guild | Channel | User | Role | Category

  /** The enumeration value stored in the `type` column. */
  function Code(k: ScopeKind): (c: int)
    ensures 0 <= c <= 4
    ensures FromCode(c) == Some(k)
  {
    match k
    case Guild => 0
    case Channel => 1
    case User => 2
    case Role => 3
    case Category => 4
  }

  /** Looking an enumeration member up by value; an unknown value is the
      `ValueError` the configuration loaders catch and skip. */
  function FromCode(c: int): (r: Option<ScopeKind>)
    ensures r.Some? <==> 0 <= c <= 4
  {
    if c == 0 then Some(Guild)
    else if c == 1 then Some(Channel)
    else if c == 2 then Some(User)
    else if c == 3 then Some(Role)
    else if c == 4 then Some(Category)
    else None
  }

  /** Distinct codes name distinct kinds. */
  lemma FromCodeInjective(a: int, b: int)
    requires FromCode(a).Some? && FromCode(a) == FromCode(b)
    ensures a == b
  {
    assert Code(FromCode(a).value) == a;
  }
}

=== FILE: stat_config.dfy ===
/** The logging-permission resolver: `StatPermissions` keeps one `allow`
    flag per scope object (the guild flag defaulting to on) and `is_allowed`
    returns the last flag present along guild, category, channel, roles and
    user.  It is the boolean twin of the command resolver and agrees with it
    on the empty command path. */
module StatConfig {
  import opened Wrappers
  import opened Scope
  import CommandConfig

  /** One row of `SELECT type, object_id, allow FROM stat_config`. */
  datatype StatRow = StatRow(kind: int, objectId: int, allow: bool)

  /** A compiled `StatPermissions` object. */
  datatype StatPermissions = StatPermissions(
    guildId: int,
    guild: bool,
    roles: map<int, bool>,
    categories: map<int, bool>,
    channels: map<int, bool>,
    users: map<int, bool>)

  /** The per-object table of a non-guild kind. */
  function Table(p: StatPermissions, k: ScopeKind): map<int, bool>
    requires k != Guild
  {
    match k
    case Channel => p.channels
    case Category => p.categories
    case User => p.users
    case Role => p.roles
  }

  /** One iteration of the constructor's row loop: plain assignment, so a
      later row for the same object overwrites an earlier one. */
  function AddRow(p: StatPermissions, row: StatRow): StatPermissions {
    match FromCode(row.kind)
    case None => p
    case Some(k) =>
      match k
      case Guild => p.(guild := row.allow)
      case Channel => p.(channels := p.channels[row.objectId := row.allow])
      case Category => p.(categories := p.categories[row.objectId := row.allow])
      case User => p.(users := p.users[row.objectId := row.allow])
      case Role => p.(roles := p.roles[row.objectId := row.allow])
  }

  function AddRows(p: StatPermissions, rows: seq<StatRow>): StatPermissions
    decreases |rows|
  {
    if |rows| == 0 then p else AddRow(AddRows(p, rows[..|rows| - 1]), rows[|rows| - 1])
  }

  /** `StatPermissions.__init__(guild_id, db_rows)`. */
  function Compile(guildId: int, rows: seq<StatRow>): StatPermissions {
    AddRows(StatPermissions(guildId, true, map[], map[], map[], map[]), rows)
  }

  /** Row `r` is filed under kind `k` and object `id`. */
  predicate Files(r: StatRow, k: ScopeKind, id: int) {
    FromCode(r.kind) == Some(k) && (k == Guild || r.objectId == id)
  }

  predicate HasRow(rows: seq<StatRow>, k: ScopeKind, id: int) {
    exists i :: 0 <= i < |rows| && Files(rows[i], k, id)
  }

  /** `rows[i]` is the last row filed under `k`/`id`. */
  predicate LastRow(rows: seq<StatRow>, k: ScopeKind, id: int, i: int) {
    0 <= i < |rows| && Files(rows[i], k, id) && forall j :: i < j < |rows| ==> !Files(rows[j], k, id)
  }

  /** The table of kind `k` after one row: updated at the row's object
      when the row is of kind `k`, unchanged otherwise. */
  lemma AddRowTable(p: StatPermissions, row: StatRow, k: ScopeKind)
    requires k != Guild
    ensures Table(AddRow(p, row), k)
            == if FromCode(row.kind) == Some(k) then Table(p, k)[row.objectId := row.allow] else Table(p, k)
  {
    if FromCode(row.kind) == Some(k) {
      AddRowTableFiled(p, row, k);
    } else {
      AddRowTableOther(p, row, k);
    }
  }

  lemma AddRowTableFiled(p: StatPermissions, row: StatRow, k: ScopeKind)
    requires k != Guild && FromCode(row.kind) == Some(k)
    ensures Table(AddRow(p, row), k) == Table(p, k)[row.objectId := row.allow]
  {
  }

  lemma AddRowTableOther(p: StatPermissions, row: StatRow, k: ScopeKind)
    requires k != Guild && FromCode(row.kind) != Some(k)
    ensures Table(AddRow(p, row), k) == Table(p, k)
  {
  }

  lemma AddRowEffect(p: StatPermissions, row: StatRow, k: ScopeKind, id: int)
    ensures var q := AddRow(p, row);
            && q.guildId == p.guildId
            && q.guild == (if Files(row, Guild, id) then row.allow else p.guild)
            && (k != Guild ==> (id in Table(q, k) <==> id in Table(p, k) || Files(row, k, id)))
            && (k != Guild && id in Table(q, k) ==>
                  Table(q, k)[id] == (if Files(row, k, id) then row.allow else Table(p, k)[id]))
  {
    if k != Guild {
      AddRowTable(p, row, k);
    }
  }

  /** Compilation skips rows whose code is not 0..4; the guild flag is the
      `allow` of the last guild row, or on when there is none; an object has
      an entry exactly when some row names it, and its flag is the `allow`
      of the last such row. */
  lemma {:induction false} CompileFiles(guildId: int, rows: seq<StatRow>, k: ScopeKind, id: int)
    ensures var p := Compile(guildId, rows);
            && p.guildId == guildId
            && (!HasRow(rows, Guild, id) ==> p.guild)
            && (forall i :: LastRow(rows, Guild, id, i) ==> p.guild == rows[i].allow)
            && (k != Guild ==> (id in Table(p, k) <==> HasRow(rows, k, id)))
            && (k != Guild ==> forall i :: LastRow(rows, k, id, i) ==> Table(p, k)[id] == rows[i].allow)
  {
    CompileGuild(guildId, rows, id);
    if k != Guild {
      CompileTable(guildId, rows, k, id);
    }
  }

  /** A row is filed under `k`/`id` in `rows` exactly when it is in all but
      the last row, or in the last one. */
  lemma HasRowSnoc(rows: seq<StatRow>, k: ScopeKind, id: int)
    requires |rows| > 0
    ensures HasRow(rows, k, id) <==> HasRow(rows[..|rows| - 1], k, id) || Files(rows[|rows| - 1], k, id)
  {
    var n := |rows| - 1;
    var pre := rows[..n];
    if HasRow(rows, k, id) && !Files(rows[n], k, id) {
      var i :| 0 <= i < |rows| && Files(rows[i], k, id);
      assert pre[i] == rows[i];
    }
    if HasRow(pre, k, id) {
      var i :| 0 <= i < n && Files(pre[i], k, id);
      assert rows[i] == pre[i];
    }
  }

  /** The last row filed under `k`/`id` is the final row, or else the final
      row is filed elsewhere and it is the last such row of the rest. */
  lemma LastRowSnoc(rows: seq<StatRow>, k: ScopeKind, id: int, i: int)
    requires LastRow(rows, k, id, i)
    ensures i < |rows| - 1 ==> !Files(rows[|rows| - 1], k, id) && LastRow(rows[..|rows| - 1], k, id, i)
  {
    var n := |rows| - 1;
    var pre := rows[..n];
    if i < n {
      assert pre[i] == rows[i];
      assert forall j :: i < j < n ==> pre[j] == rows[j];
    }
  }

  lemma {:induction false} CompileGuild(guildId: int, rows: seq<StatRow>, id: int)
    ensures var p := Compile(guildId, rows);
            && p.guildId == guildId
            && (!HasRow(rows, Guild, id) ==> p.guild)
            && (forall i :: LastRow(rows, Guild, id, i) ==> p.guild == rows[i].allow)
    decreases |rows|
  {
    if |rows| > 0 {
      var n := |rows| - 1;
      var pre := rows[..n];
      CompileGuild(guildId, pre, id);
      assert Compile(guildId, rows) == AddRow(Compile(guildId, pre), rows[n]);
      AddRowEffect(Compile(guildId, pre), rows[n], Guild, id);
      HasRowSnoc(rows, Guild, id);
      forall i | LastRow(rows, Guild, id, i) ensures Compile(guildId, rows).guild == rows[i].allow {
        LastRowSnoc(rows, Guild, id, i);
      }
    }
  }

  lemma {:induction false} CompileTable(guildId: int, rows: seq<StatRow>, k: ScopeKind, id: int)
    requires k != Guild
    ensures var p := Compile(guildId, rows);
            && (id in Table(p, k) <==> HasRow(rows, k, id))
            && (forall i :: LastRow(rows, k, id, i) ==> Table(p, k)[id] == rows[i].allow)
    decreases |rows|
  {
    if |rows| > 0 {
      var n := |rows| - 1;
      var pre := rows[..n];
      CompileTable(guildId, pre, k, id);
      assert Compile(guildId, rows) == AddRow(Compile(guildId, pre), rows[n]);
      AddRowEffect(Compile(guildId, pre), rows[n], k, id);
      HasRowSnoc(rows, k, id);
      forall i | LastRow(rows, k, id, i) ensures Table(Compile(guildId, rows), k)[id] == rows[i].allow {
        LastRowSnoc(rows, k, id, i);
      }
    }
  }

  /** A row with an unknown kind code changes nothing. */
  lemma UnknownKindIgnored(guildId: int, rows: seq<StatRow>, bad: StatRow)
    requires FromCode(bad.kind).None?
    ensures Compile(guildId, rows + [bad]) == Compile(guildId, rows)
  {
    assert (rows + [bad])[..|rows|] == rows;
  }

  /** A later row for the same kind and object overwrites an earlier one. */
  lemma LaterRowOverwrites(guildId: int, rows: seq<StatRow>, row: StatRow)
    requires FromCode(row.kind).Some?
    ensures var p := Compile(guildId, rows + [row]);
            var k := FromCode(row.kind).value;
            if k == Guild then p.guild == row.allow
            else row.objectId in Table(p, k) && Table(p, k)[row.objectId] == row.allow
  {
    var all := rows + [row];
    var k := FromCode(row.kind).value;
    CompileFiles(guildId, all, k, row.objectId);
    assert LastRow(all, k, row.objectId, |rows|);
  }

  /** The `for role in user.roles` loop. */
  function ScanRoles(allowed: bool, p: StatPermissions, roles: seq<int>): bool
    decreases |roles|
  {
    if |roles| == 0 then allowed
    else
      var a := ScanRoles(allowed, p, roles[..|roles| - 1]);
      var role := roles[|roles| - 1];
      if role in p.roles then p.roles[role] else a
  }

  /** The guild, category and channel steps of `is_allowed`. */
  function ChannelFlag(p: StatPermissions, channel: CommandConfig.ChannelRef): bool {
    var a1 := p.guild;
    var a2 := if channel.category.Some? && channel.category.value in p.categories then p.categories[channel.category.value] else a1;
    if channel.id in p.channels then p.channels[channel.id] else a2
  }

  /** `is_allowed(channel, user)`. */
  function IsAllowed(p: StatPermissions, channel: CommandConfig.ChannelRef, user: CommandConfig.Member): bool {
    var a4 := ScanRoles(ChannelFlag(p, channel), p, user.roles);
    if user.id in p.users then p.users[user.id] else a4
  }

  /** The flags of the roles that have an entry, in iteration order. */
  function RoleFlags(p: StatPermissions, roles: seq<int>): seq<bool>
    decreases |roles|
  {
    if |roles| == 0 then []
    else
      var role := roles[|roles| - 1];
      RoleFlags(p, roles[..|roles| - 1]) + (if role in p.roles then [p.roles[role]] else [])
  }

  /** Every flag present along the precedence order, lowest first. */
  function Chain(p: StatPermissions, channel: CommandConfig.ChannelRef, user: CommandConfig.Member): seq<bool> {
    ChannelChain(p, channel)
    + RoleFlags(p, user.roles)
    + (if user.id in p.users then [p.users[user.id]] else [])
  }

  /** The guild, category and channel flags present, lowest first. */
  function ChannelChain(p: StatPermissions, channel: CommandConfig.ChannelRef): seq<bool> {
    [p.guild]
    + (if channel.category.Some? && channel.category.value in p.categories then [p.categories[channel.category.value]] else [])
    + (if channel.id in p.channels then [p.channels[channel.id]] else [])
  }

  lemma {:induction false} ScanRolesLast(a: bool, p: StatPermissions, roles: seq<int>)
    ensures ScanRoles(a, p, roles) == (var fs := [a] + RoleFlags(p, roles); fs[|fs| - 1])
    decreases |roles|
  {
    if |roles| > 0 {
      ScanRolesLast(a, p, roles[..|roles| - 1]);
    }
  }

  /** `is_allowed` is the last flag present along guild, category, channel,
      each role, user. */
  lemma IsAllowedIsLastOfChain(p: StatPermissions, channel: CommandConfig.ChannelRef, user: CommandConfig.Member)
    ensures var c := Chain(p, channel, user); IsAllowed(p, channel, user) == c[|c| - 1]
  {
    var head := ChannelChain(p, channel);
    var a3 := ChannelFlag(p, channel);
    assert a3 == head[|head| - 1];
    ScanRolesLast(a3, p, user.roles);
    var rf := RoleFlags(p, user.roles);
    if |rf| > 0 {
      assert ([a3] + rf)[|rf|] == rf[|rf| - 1];
      assert (head + rf)[|head + rf| - 1] == rf[|rf| - 1];
    }
  }

  /** A user entry, when present, is the answer whatever else is set. */
  lemma UserEntryDecides(p: StatPermissions, channel: CommandConfig.ChannelRef, user: CommandConfig.Member)
    requires user.id in p.users
    ensures IsAllowed(p, channel, user) == p.users[user.id]
  {
  }

  /** Without a user entry, the last role in iteration order that has an
      entry overrides every earlier role, the channel, category and guild. */
  lemma LastRoleDecides(p: StatPermissions, channel: CommandConfig.ChannelRef, user: CommandConfig.Member, r: int)
    requires user.id !in p.users
    requires 0 <= r < |user.roles| && user.roles[r] in p.roles
    requires forall s :: r < s < |user.roles| ==> user.roles[s] !in p.roles
    ensures IsAllowed(p, channel, user) == p.roles[user.roles[r]]
  {
    ScanRolesAfter(ChannelFlag(p, channel), p, user.roles, r);
  }

  lemma {:induction false} ScanRolesAfter(a: bool, p: StatPermissions, roles: seq<int>, r: int)
    requires 0 <= r < |roles| && roles[r] in p.roles
    requires forall s :: r < s < |roles| ==> roles[s] !in p.roles
    ensures ScanRoles(a, p, roles) == p.roles[roles[r]]
    decreases |roles|
  {
    var n := |roles| - 1;
    if r < n {
      assert roles[n] !in p.roles;
      assert roles[..n][r] == roles[r];
      forall s | r < s < n ensures roles[..n][s] !in p.roles {
        assert roles[..n][s] == roles[s];
      }
      ScanRolesAfter(a, p, roles[..n], r);
    }
  }

  /** With no rows, logging is on for every channel and user. */
  lemma NoRowsAllowed(guildId: int, channel: CommandConfig.ChannelRef, user: CommandConfig.Member)
    ensures IsAllowed(Compile(guildId, []), channel, user)
  {
    NoRolesKeep(true, Compile(guildId, []), user.roles);
  }

  lemma {:induction false} NoRolesKeep(a: bool, p: StatPermissions, roles: seq<int>)
    requires p.roles == map[]
    ensures ScanRoles(a, p, roles) == a
    decreases |roles|
  {
    if |roles| > 0 {
      NoRolesKeep(a, p, roles[..|roles| - 1]);
    }
  }

  // ---------------------------------------------------------------------
  // Agreement with the command resolver
  // ---------------------------------------------------------------------

  /** The same override as a `command_config` row with the empty name. */
  function ToCommandRow(r: StatRow): CommandConfig.Row {
    CommandConfig.Row(r.kind, r.objectId, r.allow, Some(""))
  }

  function ToCommandRows(rows: seq<StatRow>): (r: seq<CommandConfig.Row>)
    ensures |r| == |rows|
    ensures forall i :: 0 <= i < |rows| ==> r[i] == ToCommandRow(rows[i])
  {
    seq(|rows|, i requires 0 <= i < |rows| => ToCommandRow(rows[i]))
  }

  /** At most one row per scope object, and at most one guild row, as the
      `one_object` constraint keeps it. */
  predicate Unique(rows: seq<StatRow>) {
    forall i, j :: 0 <= i < j < |rows| && FromCode(rows[i].kind).Some? && rows[i].kind == rows[j].kind
      ==> FromCode(rows[i].kind) != Some(Guild) && rows[i].objectId != rows[j].objectId
  }

  lemma UniqueRow(rows: seq<StatRow>, k: ScopeKind, id: int, i: int, j: int)
    requires Unique(rows)
    requires 0 <= i < |rows| && 0 <= j < |rows| && Files(rows[i], k, id) && Files(rows[j], k, id)
    ensures i == j
  {
    FromCodeInjective(rows[i].kind, rows[j].kind);
  }

  lemma UniqueLast(rows: seq<StatRow>, k: ScopeKind, id: int, i: int)
    requires Unique(rows)
    requires 0 <= i < |rows| && Files(rows[i], k, id)
    ensures LastRow(rows, k, id, i)
  {
    forall j | i < j < |rows| ensures !Files(rows[j], k, id) {
      if Files(rows[j], k, id) {
        UniqueRow(rows, k, id, i, j);
      }
    }
  }

  /** The one row filed under `k`/`id` decides both compiled forms: the
      command entry holds `""` on the side of its `allow`. */
  lemma EntryAgrees(guildId: int, roleRow: Option<CommandConfig.RoleRow>, rows: seq<StatRow>, k: ScopeKind, id: int, i: int)
    requires Unique(rows)
    requires 0 <= i < |rows| && Files(rows[i], k, id)
    ensures var cp := CommandConfig.Compile(guildId, roleRow, ToCommandRows(rows));
            var cr := CommandConfig.Filed(ToCommandRows(rows), k, id, true);
            var cd := CommandConfig.Filed(ToCommandRows(rows), k, id, false);
            ("" in cr || "" in cd) && ("" in cr <==> rows[i].allow)
  {
    var crows := ToCommandRows(rows);
    assert CommandConfig.Files(crows[i], k, id);
    if rows[i].allow {
      assert "" in CommandConfig.Filed(crows, k, id, true);
    } else {
      assert "" in CommandConfig.Filed(crows, k, id, false);
    }
    if "" in CommandConfig.Filed(crows, k, id, true) {
      var j :| 0 <= j < |crows| && CommandConfig.Files(crows[j], k, id) && crows[j].allow == true
        && "" == CommandConfig.NameOf(crows[j].name);
      assert Files(rows[j], k, id);
      UniqueRow(rows, k, id, i, j);
    }
  }

  /** What a scan of the single prefix `""` does to the running value. */
  lemma ScanEmptyPath(e: CommandConfig.Eval, rules: CommandConfig.PermissionData<string>, id: int, kind: ScopeKind)
    ensures CommandConfig.ScanScope(e, [""], rules, id, kind).allowed
            == if "" in rules.allowed then true else if "" in rules.denied then false else e.allowed
  {
    assert [""][..0] == [];
  }

  /** For a non-guild kind both compiled forms have an entry for the same
      objects, and the command entry scanned with `""` yields the flag. */
  lemma TableAgrees(guildId: int, roleRow: Option<CommandConfig.RoleRow>, rows: seq<StatRow>, k: ScopeKind, id: int, e: CommandConfig.Eval)
    requires Unique(rows) && k != Guild
    ensures var cp := CommandConfig.Compile(guildId, roleRow, ToCommandRows(rows));
            var sp := Compile(guildId, rows);
            && (id in CommandConfig.Table(cp, k) <==> id in Table(sp, k))
            && (id in Table(sp, k) ==>
                  CommandConfig.ScanScope(e, [""], CommandConfig.Table(cp, k)[id], id, k).allowed == Table(sp, k)[id])
  {
    var crows := ToCommandRows(rows);
    var cp := CommandConfig.Compile(guildId, roleRow, crows);
    var sp := Compile(guildId, rows);
    CommandConfig.CompileFiles(guildId, roleRow, crows, k, id);
    CompileFiles(guildId, rows, k, id);
    assert CommandConfig.HasRow(crows, k, id) <==> HasRow(rows, k, id) by {
      if CommandConfig.HasRow(crows, k, id) {
        var i :| 0 <= i < |crows| && CommandConfig.Files(crows[i], k, id);
        assert Files(rows[i], k, id);
      }
      if HasRow(rows, k, id) {
        var i :| 0 <= i < |rows| && Files(rows[i], k, id);
        assert CommandConfig.Files(crows[i], k, id);
      }
    }
    if id in Table(sp, k) {
      var i :| 0 <= i < |rows| && Files(rows[i], k, id);
      UniqueLast(rows, k, id, i);
      EntryAgrees(guildId, roleRow, rows, k, id, i);
      ScanEmptyPath(e, CommandConfig.Table(cp, k)[id], id, k);
    }
  }

  /** The guild scan of the command resolver from `allowed = True` yields
      the guild flag. */
  lemma GuildAgrees(guildId: int, roleRow: Option<CommandConfig.RoleRow>, rows: seq<StatRow>)
    requires Unique(rows)
    ensures var cp := CommandConfig.Compile(guildId, roleRow, ToCommandRows(rows));
            CommandConfig.ScanScope(CommandConfig.Eval(true, CommandConfig.NoData()), [""], cp.guild, cp.guildId, Guild).allowed
            == Compile(guildId, rows).guild
  {
    var crows := ToCommandRows(rows);
    var cp := CommandConfig.Compile(guildId, roleRow, crows);
    var e := CommandConfig.Eval(true, CommandConfig.NoData());
    CommandConfig.CompileFiles(guildId, roleRow, crows, Guild, guildId);
    CompileFiles(guildId, rows, Guild, guildId);
    ScanEmptyPath(e, cp.guild, cp.guildId, Guild);
    if HasRow(rows, Guild, guildId) {
      var i :| 0 <= i < |rows| && Files(rows[i], Guild, guildId);
      UniqueLast(rows, Guild, guildId, i);
      EntryAgrees(guildId, roleRow, rows, Guild, guildId, i);
    }
  }

  lemma {:induction false} RolesAgree(guildId: int, roleRow: Option<CommandConfig.RoleRow>, rows: seq<StatRow>,
                                      w: CommandConfig.RoleWalk, a: bool, roles: seq<int>)
    requires Unique(rows)
    requires w.eval.allowed == a
    ensures var cp := CommandConfig.Compile(guildId, roleRow, ToCommandRows(rows));
            CommandConfig.ScanRoles(w, [""], cp, roles).eval.allowed == ScanRoles(a, Compile(guildId, rows), roles)
    decreases |roles|
  {
    if |roles| > 0 {
      var cp := CommandConfig.Compile(guildId, roleRow, ToCommandRows(rows));
      var n := |roles| - 1;
      RolesAgree(guildId, roleRow, rows, w, a, roles[..n]);
      var w' := CommandConfig.ScanRoles(w, [""], cp, roles[..n]);
      TableAgrees(guildId, roleRow, rows, Role, roles[n], w'.eval);
    }
  }

  /** The guild, category and channel steps agree. */
  lemma ChannelAgrees(guildId: int, roleRow: Option<CommandConfig.RoleRow>, rows: seq<StatRow>, channel: CommandConfig.ChannelRef)
    requires Unique(rows)
    ensures CommandConfig.ChannelEval(CommandConfig.Compile(guildId, roleRow, ToCommandRows(rows)), channel, [""]).allowed
            == ChannelFlag(Compile(guildId, rows), channel)
  {
    var cp := CommandConfig.Compile(guildId, roleRow, ToCommandRows(rows));
    var e1 := CommandConfig.ScanScope(CommandConfig.Eval(true, CommandConfig.NoData()), [""], cp.guild, cp.guildId, Guild);
    GuildAgrees(guildId, roleRow, rows);
    var e2 :=
      if channel.category.Some? && channel.category.value in cp.categories then
        CommandConfig.ScanScope(e1, [""], cp.categories[channel.category.value], channel.category.value, Category)
      else e1;
    if channel.category.Some? {
      TableAgrees(guildId, roleRow, rows, Category, channel.category.value, e1);
    }
    TableAgrees(guildId, roleRow, rows, Channel, channel.id, e2);
  }

  /** Given the same rows (empty names, one row per scope object), the
      logging decision equals the `allowed` part of the command decision
      for the empty command path. */
  lemma AgreesWithCommandResolver(guildId: int, roleRow: Option<CommandConfig.RoleRow>, rows: seq<StatRow>,
                                  channel: CommandConfig.ChannelRef, user: CommandConfig.Member)
    requires Unique(rows)
    ensures IsAllowed(Compile(guildId, rows), channel, user)
            == CommandConfig.IsCommandAllowed(CommandConfig.Compile(guildId, roleRow, ToCommandRows(rows)), channel, user, "").allowed
  {
    var cp := CommandConfig.Compile(guildId, roleRow, ToCommandRows(rows));
    var sp := Compile(guildId, rows);
    CommandConfig.SplitEmpty();
    var e3 := CommandConfig.ChannelEval(cp, channel, [""]);
    ChannelAgrees(guildId, roleRow, rows, channel);
    var w := CommandConfig.ScanRoles(CommandConfig.RoleWalk(e3, false, false), [""], cp, user.roles);
    RolesAgree(guildId, roleRow, rows, CommandConfig.RoleWalk(e3, false, false), ChannelFlag(sp, channel), user.roles);
    TableAgrees(guildId, roleRow, rows, User, user.id, w.eval);
  }
}

=== FILE: statistics.dfy ===
/** The statistics helpers: the selection a statistics command runs on and
    the SQL condition it filters by, the interval argument parser, and the
    aggregation of message-count rows. */
module Statistics {
  import opened Wrappers
  import opened Strings

  // ---------------------------------------------------------------------
  // StatisticType
  // ---------------------------------------------------------------------

  /** A `StatisticType`, by the ids of the objects it was given. */
  datatype StatisticType = StatisticType(guild: Option<int>, channel: Option<int>, member: Option<int>, global: bool)

  predicate IsMember(t: StatisticType) {
    t.member.Some?
  }

  predicate IsChannel(t: StatisticType) {
    t.channel.Some? && t.member.None?
  }

  predicate IsGuild(t: StatisticType) {
    t.guild.Some? && t.channel.None? && t.member.None?
  }

  /** At most one of the three selections holds. */
  lemma SelectionsExclusive(t: StatisticType)
    ensures !(IsMember(t) && IsChannel(t)) && !(IsMember(t) && IsGuild(t)) && !(IsChannel(t) && IsGuild(t))
  {
  }

  /** `self.guild.id` on a member selection without a guild. */
  datatype ConditionError = AttributeError

  /** `get_condition()`: member, then channel, then guild, then global;
      `None` when nothing is selected. */
  function GetCondition(t: StatisticType): Result<Option<string>, ConditionError> {
    if IsMember(t) then
      if t.guild.None? then Failure(AttributeError)
      else Success(Some(Join(["guild_id", "=", IntToString(t.guild.value), "AND", "user_id", "=", IntToString(t.member.value)], " ")))
    else if IsChannel(t) then Success(Some(Join(["channel_id", "=", IntToString(t.channel.value)], " ")))
    else if IsGuild(t) then Success(Some(Join(["guild_id", "=", IntToString(t.guild.value)], " ")))
    else if t.global then Success(Some("time IS NOT NONE"))
    else Success(None)
  }

  /** What a condition filters on. */
  datatype Filter = MemberFilter(guildId: int, userId: int) | ChannelFilter(channelId: int) | GuildFilter(guildId: int) | GlobalFilter

  /** The filter a selection asks for, by the precedence of `get_condition`. */
  function Intended(t: StatisticType): Option<Filter>
    requires !(IsMember(t) && t.guild.None?)
  {
    if IsMember(t) then Some(MemberFilter(t.guild.value, t.member.value))
    else if IsChannel(t) then Some(ChannelFilter(t.channel.value))
    else if IsGuild(t) then Some(GuildFilter(t.guild.value))
    else if t.global then Some(GlobalFilter)
    else None
  }

  /** Reads a condition back into the filter it expresses. */
  function ParseCondition(s: string): Option<Filter> {
    if s == "time IS NOT NONE" then Some(GlobalFilter)
    else
      var ws := Split(s, ' ');
      if |ws| == 7 && ws[0] == "guild_id" && ws[1] == "=" && IsNumeral(ws[2]) && ws[3] == "AND"
         && ws[4] == "user_id" && ws[5] == "=" && IsNumeral(ws[6]) then
        Some(MemberFilter(ParseInt(ws[2]), ParseInt(ws[6])))
      else if |ws| == 3 && ws[0] == "channel_id" && ws[1] == "=" && IsNumeral(ws[2]) then
        Some(ChannelFilter(ParseInt(ws[2])))
      else if |ws| == 3 && ws[0] == "guild_id" && ws[1] == "=" && IsNumeral(ws[2]) then
        Some(GuildFilter(ParseInt(ws[2])))
      else None
  }

  lemma SplitWords(ws: seq<string>)
    requires |ws| > 0 && forall i :: 0 <= i < |ws| ==> ' ' !in ws[i]
    ensures Split(Join(ws, " "), ' ') == ws
  {
    SplitJoin(ws, ' ');
  }

  /** A condition that starts with a column name is not the global one. */
  lemma NotGlobal(ws: seq<string>)
    requires |ws| > 0 && |ws[0]| > 0 && ws[0][0] != 't'
    ensures Join(ws, " ") != "time IS NOT NONE"
  {
    JoinStartsWithFirst(ws, " ");
    assert Join(ws, " ")[0] == ws[0][0];
  }

  lemma MemberConditionParses(g: int, m: int)
    ensures ParseCondition(Join(["guild_id", "=", IntToString(g), "AND", "user_id", "=", IntToString(m)], " "))
            == Some(MemberFilter(g, m))
  {
    ParseIntToString(g);
    ParseIntToString(m);
    var ws := ["guild_id", "=", IntToString(g), "AND", "user_id", "=", IntToString(m)];
    SplitWords(ws);
    NotGlobal(ws);
  }

  lemma ChannelConditionParses(c: int)
    ensures ParseCondition(Join(["channel_id", "=", IntToString(c)], " ")) == Some(ChannelFilter(c))
  {
    ParseIntToString(c);
    var ws := ["channel_id", "=", IntToString(c)];
    SplitWords(ws);
    NotGlobal(ws);
  }

  lemma GuildConditionParses(g: int)
    ensures ParseCondition(Join(["guild_id", "=", IntToString(g)], " ")) == Some(GuildFilter(g))
  {
    ParseIntToString(g);
    var ws := ["guild_id", "=", IntToString(g)];
    SplitWords(ws);
    NotGlobal(ws);
  }

  /** `get_condition` fails exactly on a member selection without a guild;
      otherwise its condition filters on what the selection asks for, in
      the precedence member, channel, guild, global; it gives no condition
      exactly when the selection asks for no filter. */
  lemma ConditionRoundTrip(t: StatisticType)
    ensures GetCondition(t).Failure? <==> IsMember(t) && t.guild.None?
    ensures GetCondition(t).Success? ==>
              match GetCondition(t).value
              case None => Intended(t).None?
              case Some(s) => ParseCondition(s) == Intended(t)
    ensures GetCondition(t).Success? ==> (GetCondition(t).value.None? <==> Intended(t).None?)
  {
    if IsMember(t) && t.guild.Some? {
      MemberConditionParses(t.guild.value, t.member.value);
    } else if IsChannel(t) {
      ChannelConditionParses(t.channel.value);
    } else if IsGuild(t) {
      GuildConditionParses(t.guild.value);
    }
  }

  // ---------------------------------------------------------------------
  // IntervalConverter
  // ---------------------------------------------------------------------

  /** The `BadArgument` raised for an out-of-range count. */
  datatype IntervalError = BadArgument

  /** The count the pattern `(\d{1,2}) <unit>` matches at index `i`, if
      any: two digits are tried before one. */
  function MatchAt(s: string, i: nat, unit: string): (r: Option<nat>)
    ensures r.Some? ==> r.value <= 99
  {
    var tail := " " + unit;
    if i + 2 <= |s| && IsDigit(s[i]) && IsDigit(s[i + 1]) && IsPrefix(tail, s[i + 2..]) then
      Some(10 * DigitValue(s[i]) + DigitValue(s[i + 1]))
    else if i + 1 <= |s| && IsDigit(s[i]) && IsPrefix(tail, s[i + 1..]) then
      Some(DigitValue(s[i]))
    else None
  }

  /** `re.search`: the match at the leftmost index from `i` on. */
  function SearchFrom(s: string, unit: string, i: nat): (r: Option<nat>)
    ensures r.Some? ==> r.value <= 99
    decreases |s| - i
  {
    if i > |s| then None
    else
      match MatchAt(s, i, unit)
      case Some(v) => Some(v)
      case None => SearchFrom(s, unit, i + 1)
  }

  function Search(s: string, unit: string): (r: Option<nat>)
    ensures r.Some? ==> r.value <= 99
  {
    SearchFrom(s, unit, 0)
  }

  /** The search result is the count at the leftmost matching index. */
  lemma {:induction false} SearchFromLeftmost(s: string, unit: string, i: nat)
    ensures match SearchFrom(s, unit, i)
            case None => forall j: nat :: i <= j ==> MatchAt(s, j, unit).None?
            case Some(v) => exists j: nat :: i <= j <= |s| && MatchAt(s, j, unit) == Some(v)
                              && forall k: nat :: i <= k < j ==> MatchAt(s, k, unit).None?
    decreases |s| - i
  {
    if i > |s| {
      forall j: nat | i <= j ensures MatchAt(s, j, unit).None? {
      }
    } else if MatchAt(s, i, unit).None? {
      SearchFromLeftmost(s, unit, i + 1);
      match SearchFrom(s, unit, i + 1)
      case None =>
      case Some(v) =>
        var j: nat :| i + 1 <= j <= |s| && MatchAt(s, j, unit) == Some(v)
          && forall k: nat :: i + 1 <= k < j ==> MatchAt(s, k, unit).None?;
        assert forall k: nat :: i <= k < j ==> MatchAt(s, k, unit).None?;
    }
  }

  /** `IntervalConverter.convert(argument)`. */
  function Convert(argument: string): Result<Option<string>, IntervalError> {
    ConvertLowered(Lower(argument))
  }

  /** `convert` after the argument has been lower-cased. */
  function ConvertLowered(low: string): Result<Option<string>, IntervalError> {
    match Search(low, "day")
    case Some(days) => if days <= 0 then Failure(BadArgument) else Success(Some(NatToString(days) + " days"))
    case None =>
      match Search(low, "week")
      case Some(weeks) => if weeks <= 0 then Failure(BadArgument) else Success(Some(NatToString(weeks) + " weeks"))
      case None =>
        match Search(low, "month")
        case Some(months) =>
          if months >= 24 || months <= 0 then Failure(BadArgument) else Success(Some(NatToString(months) + " months"))
        case None => Success(None)
  }

  /** The pattern for `unit` matches at index `j` with count `v`, and at
      no earlier index: the match `re.search` reports. */
  predicate FirstMatch(s: string, unit: string, j: nat, v: nat) {
    MatchAt(s, j, unit) == Some(v) && forall k: nat :: k < j ==> MatchAt(s, k, unit).None?
  }

  /** The pattern for `unit` matches nowhere in `s`. */
  predicate NoMatch(s: string, unit: string) {
    forall j: nat :: j <= |s| ==> MatchAt(s, j, unit).None?
  }

  /** Two leftmost matches are the same match, so the search reports it. */
  lemma SearchOfFirst(s: string, unit: string, j: nat, v: nat)
    requires FirstMatch(s, unit, j, v)
    ensures Search(s, unit) == Some(v)
  {
    SearchFromLeftmost(s, unit, 0);
  }

  lemma SearchOfNone(s: string, unit: string)
    requires NoMatch(s, unit)
    ensures Search(s, unit).None?
  {
    SearchFromLeftmost(s, unit, 0);
  }

  /** The outcomes of `convert`, by the leftmost match of the first unit
      (day, then week, then month) whose pattern matches the lower-cased
      argument anywhere: the count read there, or `BadArgument` when that
      count is out of range; no match at all gives `None`. */
  lemma ConvertCases(argument: string)
    ensures var low := Lower(argument);
            && (forall j: nat, d: nat :: FirstMatch(low, "day", j, d) ==>
                  Convert(argument) == if d == 0 then Failure(BadArgument) else Success(Some(NatToString(d) + " days")))
            && (forall j: nat, w: nat :: NoMatch(low, "day") && FirstMatch(low, "week", j, w) ==>
                  Convert(argument) == if w == 0 then Failure(BadArgument) else Success(Some(NatToString(w) + " weeks")))
            && (forall j: nat, m: nat :: NoMatch(low, "day") && NoMatch(low, "week") && FirstMatch(low, "month", j, m) ==>
                  Convert(argument) == if 1 <= m <= 23 then Success(Some(NatToString(m) + " months")) else Failure(BadArgument))
            && (NoMatch(low, "day") && NoMatch(low, "week") && NoMatch(low, "month") ==>
                  Convert(argument) == Success(None))
  {
    var low := Lower(argument);
    forall j: nat, d: nat | FirstMatch(low, "day", j, d)
      ensures Convert(argument) == if d == 0 then Failure(BadArgument) else Success(Some(NatToString(d) + " days"))
    {
      SearchOfFirst(low, "day", j, d);
    }
    forall j: nat, w: nat | NoMatch(low, "day") && FirstMatch(low, "week", j, w)
      ensures Convert(argument) == if w == 0 then Failure(BadArgument) else Success(Some(NatToString(w) + " weeks"))
    {
      SearchOfNone(low, "day");
      SearchOfFirst(low, "week", j, w);
    }
    forall j: nat, m: nat | NoMatch(low, "day") && NoMatch(low, "week") && FirstMatch(low, "month", j, m)
      ensures Convert(argument) == if 1 <= m <= 23 then Success(Some(NatToString(m) + " months")) else Failure(BadArgument)
    {
      SearchOfNone(low, "day");
      SearchOfNone(low, "week");
      SearchOfFirst(low, "month", j, m);
    }
    if NoMatch(low, "day") && NoMatch(low, "week") && NoMatch(low, "month") {
      SearchOfNone(low, "day");
      SearchOfNone(low, "week");
      SearchOfNone(low, "month");
    }
  }

  predicate IsLowerAscii(s: string) {
    forall i :: 0 <= i < |s| ==> !('A' <= s[i] <= 'Z')
  }

  lemma LowerOfLower(s: string)
    requires IsLowerAscii(s)
    ensures Lower(s) == s
  {
  }

  /** A numeral followed by lower-case text is unchanged by `lower()`. */
  lemma LowerNumeral(n: string, tail: string)
    requires AllDigits(n) && IsLowerAscii(tail)
    ensures Lower(n + tail) == n + tail
  {
    var s := n + tail;
    forall i | 0 <= i < |s| ensures !('A' <= s[i] <= 'Z') {
      if i < |n| {
        assert s[i] == n[i];
      } else {
        assert s[i] == tail[i - |n|];
      }
    }
    LowerOfLower(s);
  }

  /** The numeral and the unit of a converted interval are found right at
      the start. */
  lemma MatchAtStart(d: nat, unit: string, tail: string)
    requires 1 <= d <= 99 && IsPrefix(" " + unit, tail)
    ensures MatchAt(NatToString(d) + tail, 0, unit) == Some(d)
  {
    var n := NatToString(d);
    var s := n + tail;
    if d < 10 {
      assert s[0] == n[0];
      assert s[1..] == tail;
      assert n == [DigitChar(d)];
    } else {
      assert n == NatToString(d / 10) + [DigitChar(d % 10)];
      assert NatToString(d / 10) == [DigitChar(d / 10)];
      assert s[0] == DigitChar(d / 10) && s[1] == DigitChar(d % 10);
      assert s[2..] == tail;
    }
  }

  lemma SearchAtStart(d: nat, unit: string, tail: string)
    requires 1 <= d <= 99 && IsPrefix(" " + unit, tail)
    ensures Search(NatToString(d) + tail, unit) == Some(d)
  {
    MatchAtStart(d, unit, tail);
  }

  /** In `<numeral><tail>` with `tail` a space and a word, the text from a
      position inside or right after the numeral does not start with
      ` <pat>` when `pat` and the word start differently. */
  lemma NoTailAt(n: string, tail: string, pat: string, k: nat)
    requires AllDigits(n) && |pat| > 0 && |tail| > 1 && tail[0] == ' ' && tail[1] != pat[0]
    requires k <= |n|
    ensures !IsPrefix(" " + pat, (n + tail)[k..])
  {
    var s := n + tail;
    var p := " " + pat;
    if k < |n| {
      assert s[k] == n[k];
      assert s[k..][0] != p[0];
    } else {
      assert s[k..] == tail;
      assert s[k..][1] != p[1];
    }
  }

  /** In `<numeral><tail>`, a pattern whose word starts differently from
      the tail's word matches nowhere. */
  lemma NoMatchAfterNumeral(n: string, tail: string, pat: string, j: nat)
    requires AllDigits(n) && |pat| > 0 && |tail| > 1 && tail[0] == ' ' && tail[1] != pat[0]
    requires forall i :: 0 <= i < |tail| ==> !IsDigit(tail[i])
    ensures MatchAt(n + tail, j, pat).None?
  {
    var s := n + tail;
    assert forall k :: 0 <= k < |s| ==> (IsDigit(s[k]) <==> k < |n|) by {
      forall k | 0 <= k < |s| ensures IsDigit(s[k]) <==> k < |n| {
        if k < |n| {
          assert s[k] == n[k];
        } else {
          assert s[k] == tail[k - |n|];
        }
      }
    }
    if j + 2 <= |s| && IsDigit(s[j]) && IsDigit(s[j + 1]) {
      NoTailAt(n, tail, pat, j + 2);
    }
    if j + 1 <= |s| && IsDigit(s[j]) {
      NoTailAt(n, tail, pat, j + 1);
    }
  }

  lemma NoSearchAfterNumeral(d: nat, tail: string, pat: string)
    requires |pat| > 0 && |tail| > 1 && tail[0] == ' ' && tail[1] != pat[0]
    requires forall i :: 0 <= i < |tail| ==> !IsDigit(tail[i])
    ensures Search(NatToString(d) + tail, pat).None?
  {
    var s := NatToString(d) + tail;
    forall j: nat ensures MatchAt(s, j, pat).None? {
      NoMatchAfterNumeral(NatToString(d), tail, pat, j);
    }
    SearchFromLeftmost(s, pat, 0);
  }

  /** Where each unit's pattern first matches in a converted interval. */
  lemma SearchDays(d: nat)
    requires 1 <= d <= 99
    ensures Search(NatToString(d) + " days", "day") == Some(d)
  {
    SearchAtStart(d, "day", " days");
  }

  lemma SearchWeeks(w: nat)
    requires 1 <= w <= 99
    ensures var s := NatToString(w) + " weeks";
            Search(s, "day").None? && Search(s, "week") == Some(w)
  {
    NoSearchAfterNumeral(w, " weeks", "day");
    SearchAtStart(w, "week", " weeks");
  }

  lemma SearchMonths(m: nat)
    requires 1 <= m <= 99
    ensures var s := NatToString(m) + " months";
            Search(s, "day").None? && Search(s, "week").None? && Search(s, "month") == Some(m)
  {
    NoSearchAfterNumeral(m, " months", "day");
    NoSearchAfterNumeral(m, " months", "week");
    SearchAtStart(m, "month", " months");
  }

  lemma ConvertDays(d: nat)
    requires 1 <= d <= 99
    ensures Convert(NatToString(d) + " days") == Success(Some(NatToString(d) + " days"))
  {
    LowerNumeral(NatToString(d), " days");
    SearchDays(d);
  }

  lemma ConvertWeeks(w: nat)
    requires 1 <= w <= 99
    ensures Convert(NatToString(w) + " weeks") == Success(Some(NatToString(w) + " weeks"))
  {
    LowerNumeral(NatToString(w), " weeks");
    SearchWeeks(w);
  }

  lemma ConvertMonths(m: nat)
    requires 1 <= m <= 23
    ensures Convert(NatToString(m) + " months") == Success(Some(NatToString(m) + " months"))
  {
    LowerNumeral(NatToString(m), " months");
    SearchMonths(m);
  }

  /** Converting a converted interval gives it back unchanged. */
  lemma ConvertIdempotent(argument: string)
    requires Convert(argument).Success? && Convert(argument).value.Some?
    ensures Convert(Convert(argument).value.value) == Convert(argument)
  {
    var low := Lower(argument);
    if Search(low, "day").Some? {
      ConvertDays(Search(low, "day").value);
    } else if Search(low, "week").Some? {
      ConvertWeeks(Search(low, "week").value);
    } else {
      ConvertMonths(Search(low, "month").value);
    }
  }

  // ---------------------------------------------------------------------
  // Counting message rows
  // ---------------------------------------------------------------------

  /** A `messages` row: the channel and user ids (either may be absent in
      compressed rows) and the message count. */
  datatype Entry = Entry(channelId: Option<int>, userId: Option<int>, amount: int)

  /** The column `count` groups by. */
  datatype Column = ChannelColumn | UserColumn

  function KeyOf(e: Entry, key: Column): Option<int> {
    match key
    case ChannelColumn => e.channelId
    case UserColumn => e.userId
  }

  /** The sum of the amounts of the rows whose `key` is `id`. */
  function SumFor(entries: seq<Entry>, key: Column, id: int): int
    decreases |entries|
  {
    if |entries| == 0 then 0
    else
      var e := entries[|entries| - 1];
      SumFor(entries[..|entries| - 1], key, id) + (if KeyOf(e, key) == Some(id) then e.amount else 0)
  }

  predicate HasKey(entries: seq<Entry>, key: Column, id: int) {
    exists i :: 0 <= i < |entries| && KeyOf(entries[i], key) == Some(id)
  }

  /** An id no row has sums to zero. */
  lemma {:induction false} SumForAbsent(entries: seq<Entry>, key: Column, id: int)
    requires !HasKey(entries, key, id)
    ensures SumFor(entries, key, id) == 0
    decreases |entries|
  {
    if |entries| > 0 {
      var pre := entries[..|entries| - 1];
      assert !HasKey(pre, key, id) by {
        forall i | 0 <= i < |pre| ensures KeyOf(pre[i], key) != Some(id) {
          assert pre[i] == entries[i];
        }
      }
      SumForAbsent(pre, key, id);
    }
  }

  /** The total a counter holds for `x`: its first pair with that id. */
  function Find(ts: seq<(int, int)>, x: int): Option<int>
    decreases |ts|
  {
    if |ts| == 0 then None else if ts[0].0 == x then Some(ts[0].1) else Find(ts[1..], x)
  }

  /** A total found for `x` is the total of a pair with id `x`. */
  lemma {:induction false} FindIn(ts: seq<(int, int)>, x: int)
    requires Find(ts, x).Some?
    ensures (x, Find(ts, x).value) in ts
    decreases |ts|
  {
    if ts[0].0 != x {
      FindIn(ts[1..], x);
      assert (x, Find(ts, x).value) in ts[1..];
    }
  }

  /** No id occurs twice. */
  predicate DistinctIds(ts: seq<(int, int)>)
    decreases |ts|
  {
    |ts| == 0 || (Find(ts[1..], ts[0].0).None? && DistinctIds(ts[1..]))
  }

  lemma {:induction false} FindMember(ts: seq<(int, int)>, p: (int, int))
    requires p in ts
    ensures Find(ts, p.0).Some?
    ensures DistinctIds(ts) ==> Find(ts, p.0) == Some(p.1)
    decreases |ts|
  {
    if ts[0] != p {
      assert p in ts[1..];
      FindMember(ts[1..], p);
    }
  }

  /** `counter[id] += a` on a `Counter` kept in first-insertion order. */
  function AddTo(ts: seq<(int, int)>, id: int, a: int): seq<(int, int)>
    decreases |ts|
  {
    if |ts| == 0 then [(id, a)]
    else if ts[0].0 == id then [(id, ts[0].1 + a)] + ts[1..]
    else [ts[0]] + AddTo(ts[1..], id, a)
  }

  /** Adding to `id` changes its total by `a`, starting from zero, and no
      other total. */
  lemma {:induction false} AddToFind(ts: seq<(int, int)>, id: int, a: int, x: int)
    ensures Find(AddTo(ts, id, a), x) == if x == id then Some(Find(ts, x).GetOr(0) + a) else Find(ts, x)
    decreases |ts|
  {
    if |ts| == 0 {
      FindCons((id, a), [], x);
      assert [(id, a)] + [] == [(id, a)];
    } else if ts[0].0 == id {
      AddToFindHere(ts, id, a, x);
    } else {
      AddToFind(ts[1..], id, a, x);
      AddToFindLater(ts, id, a, x);
    }
  }

  lemma AddToFindHere(ts: seq<(int, int)>, id: int, a: int, x: int)
    requires |ts| > 0 && ts[0].0 == id
    ensures Find(AddTo(ts, id, a), x) == if x == id then Some(Find(ts, x).GetOr(0) + a) else Find(ts, x)
  {
    assert AddTo(ts, id, a) == [(id, ts[0].1 + a)] + ts[1..];
    FindCons((id, ts[0].1 + a), ts[1..], x);
  }

  lemma AddToFindLater(ts: seq<(int, int)>, id: int, a: int, x: int)
    requires |ts| > 0 && ts[0].0 != id
    requires Find(AddTo(ts[1..], id, a), x) == if x == id then Some(Find(ts[1..], x).GetOr(0) + a) else Find(ts[1..], x)
    ensures Find(AddTo(ts, id, a), x) == if x == id then Some(Find(ts, x).GetOr(0) + a) else Find(ts, x)
  {
    assert AddTo(ts, id, a) == [ts[0]] + AddTo(ts[1..], id, a);
    FindCons(ts[0], AddTo(ts[1..], id, a), x);
  }

  lemma FindCons(p: (int, int), ts: seq<(int, int)>, x: int)
    ensures Find([p] + ts, x) == if p.0 == x then Some(p.1) else Find(ts, x)
  {
    assert ([p] + ts)[0] == p && ([p] + ts)[1..] == ts;
  }

  lemma {:induction false} AddToDistinct(ts: seq<(int, int)>, id: int, a: int)
    requires DistinctIds(ts)
    ensures DistinctIds(AddTo(ts, id, a))
    decreases |ts|
  {
    if |ts| > 0 && ts[0].0 != id {
      AddToDistinct(ts[1..], id, a);
      AddToFind(ts[1..], id, a, ts[0].0);
      assert ([ts[0]] + AddTo(ts[1..], id, a))[1..] == AddTo(ts[1..], id, a);
    } else if |ts| > 0 {
      assert ([(id, ts[0].1 + a)] + ts[1..])[1..] == ts[1..];
    }
  }

  /** The `Counter` the loop of `count` builds. */
  function Totals(entries: seq<Entry>, key: Column): (r: seq<(int, int)>)
    ensures DistinctIds(r)
    decreases |entries|
  {
    if |entries| == 0 then []
    else
      var e := entries[|entries| - 1];
      var ts := Totals(entries[..|entries| - 1], key);
      match KeyOf(e, key)
      case None => ts
      case Some(id) => AddToDistinct(ts, id, e.amount); AddTo(ts, id, e.amount)
  }

  lemma HasKeySnoc(entries: seq<Entry>, key: Column, id: int)
    requires |entries| > 0
    ensures HasKey(entries, key, id)
        <==> HasKey(entries[..|entries| - 1], key, id) || KeyOf(entries[|entries| - 1], key) == Some(id)
  {
    var n := |entries| - 1;
    var pre := entries[..n];
    if HasKey(entries, key, id) && KeyOf(entries[n], key) != Some(id) {
      var i :| 0 <= i < |entries| && KeyOf(entries[i], key) == Some(id);
      assert pre[i] == entries[i];
    }
    if HasKey(pre, key, id) {
      var i :| 0 <= i < |pre| && KeyOf(pre[i], key) == Some(id);
      assert entries[i] == pre[i];
    }
  }

  /** The counter holds exactly the ids some row has, each with the sum of
      its rows' amounts; rows without the key are ignored. */
  lemma {:induction false} TotalsExact(entries: seq<Entry>, key: Column, id: int)
    ensures Find(Totals(entries, key), id) == if HasKey(entries, key, id) then Some(SumFor(entries, key, id)) else None
    decreases |entries|
  {
    if |entries| > 0 {
      var n := |entries| - 1;
      var pre := entries[..n];
      var e := entries[n];
      TotalsExact(pre, key, id);
      HasKeySnoc(entries, key, id);
      if !HasKey(pre, key, id) {
        SumForAbsent(pre, key, id);
      }
      assert SumFor(entries, key, id) == SumFor(pre, key, id) + (if KeyOf(e, key) == Some(id) then e.amount else 0);
      match KeyOf(e, key)
      case None =>
        assert Totals(entries, key) == Totals(pre, key);
      case Some(x) =>
        assert Totals(entries, key) == AddTo(Totals(pre, key), x, e.amount);
        AddToFind(Totals(pre, key), x, e.amount, id);
    }
  }

  predicate SortedDesc(s: seq<(int, int)>) {
    forall i, j :: 0 <= i < j < |s| ==> s[i].1 >= s[j].1
  }

  /** The tail of a sorted list is sorted and bounded by its head. */
  lemma SortedTail(s: seq<(int, int)>)
    requires |s| > 0 && SortedDesc(s)
    ensures SortedDesc(s[1..])
    ensures forall q :: q in s[1..] ==> s[0].1 >= q.1
  {
    forall q | q in s[1..] ensures s[0].1 >= q.1 {
      var j :| 0 <= j < |s[1..]| && s[1..][j] == q;
      assert s[j + 1] == q;
    }
  }

  /** A head at least as large as every entry of a sorted list keeps it
      sorted. */
  lemma SortedCons(x: (int, int), rest: seq<(int, int)>)
    requires SortedDesc(rest) && forall q :: q in rest ==> x.1 >= q.1
    ensures SortedDesc([x] + rest)
  {
    var r := [x] + rest;
    forall i, j | 0 <= i < j < |r| ensures r[i].1 >= r[j].1 {
      assert r[j] == rest[j - 1];
      if i > 0 {
        assert r[i] == rest[i - 1];
      } else {
        assert r[j] in rest;
      }
    }
  }

  /** Inserts after every element with a total at least as large, so
      equal totals keep their first-insertion order. */
  function Insert(p: (int, int), s: seq<(int, int)>): (r: seq<(int, int)>)
    requires SortedDesc(s)
    ensures SortedDesc(r)
    ensures forall q :: q in r ==> q == p || q in s
    ensures multiset(r) == multiset(s) + multiset{p}
    decreases |s|
  {
    if |s| == 0 then [p]
    else if s[0].1 >= p.1 then
      SortedTail(s);
      var rest := Insert(p, s[1..]);
      assert s == [s[0]] + s[1..];
      SortedCons(s[0], rest);
      [s[0]] + rest
    else
      SortedCons(p, s);
      [p] + s
  }

  /** `sorted(counter.items(), key=count, reverse=True)`. */
  function SortDesc(s: seq<(int, int)>): (r: seq<(int, int)>)
    ensures SortedDesc(r)
    ensures multiset(r) == multiset(s)
    decreases |s|
  {
    if |s| == 0 then []
    else
      var n := |s| - 1;
      assert s == s[..n] + [s[n]];
      Insert(s[n], SortDesc(s[..n]))
  }

  /** `counter.most_common(n)`: the `n` largest totals, none for `n <= 0`. */
  function MostCommon(s: seq<(int, int)>, n: int): seq<(int, int)> {
    var sorted := SortDesc(s);
    if n <= 0 then [] else if n < |sorted| then sorted[..n] else sorted
  }

  /** No two positions of `s` hold the same id. */
  predicate NoRepeatedId(s: seq<(int, int)>) {
    forall i, j :: 0 <= i < j < |s| ==> s[i].0 != s[j].0
  }

  /** A counter whose ids are distinct repeats no id at any two positions. */
  lemma {:induction false} DistinctNoRepeat(ts: seq<(int, int)>)
    requires DistinctIds(ts)
    ensures NoRepeatedId(ts)
    decreases |ts|
  {
    if |ts| > 0 {
      var t := ts[1..];
      DistinctNoRepeat(t);
      forall j | 0 < j < |ts| ensures ts[0].0 != ts[j].0 {
        assert ts[j] == t[j - 1];
        FindMember(t, ts[j]);
      }
      forall i, j | 0 < i < j < |ts| ensures ts[i].0 != ts[j].0 {
        assert ts[i] == t[i - 1] && ts[j] == t[j - 1];
      }
    }
  }

  /** Putting a pair with a new id in front keeps the ids unrepeated. */
  lemma ConsNoRepeat(h: (int, int), t: seq<(int, int)>)
    requires NoRepeatedId(t) && forall q :: q in t ==> q.0 != h.0
    ensures NoRepeatedId([h] + t)
  {
    var r := [h] + t;
    forall i, j | 0 <= i < j < |r| ensures r[i].0 != r[j].0 {
      assert r[j] == t[j - 1];
      if i > 0 {
        assert r[i] == t[i - 1];
      }
    }
  }

  /** The tail of a sequence without repeated ids has none, and none of
      its ids is the head's. */
  lemma TailNoRepeat(s: seq<(int, int)>)
    requires |s| > 0 && NoRepeatedId(s)
    ensures NoRepeatedId(s[1..]) && forall q :: q in s[1..] ==> q.0 != s[0].0
  {
    var t := s[1..];
    forall i, j | 0 <= i < j < |t| ensures t[i].0 != t[j].0 {
      assert t[i] == s[i + 1] && t[j] == s[j + 1];
    }
    forall q | q in t ensures q.0 != s[0].0 {
      var k :| 0 <= k < |t| && t[k] == q;
      assert s[k + 1] == q;
    }
  }

  /** Inserting a pair whose id is new keeps the ids unrepeated. */
  lemma {:induction false} InsertNoRepeat(p: (int, int), s: seq<(int, int)>)
    requires SortedDesc(s) && NoRepeatedId(s)
    requires forall q :: q in s ==> q.0 != p.0
    ensures NoRepeatedId(Insert(p, s))
    decreases |s|
  {
    if |s| == 0 {
      ConsNoRepeat(p, []);
      assert Insert(p, s) == [p] + [];
    } else if s[0].1 >= p.1 {
      SortedTail(s);
      TailNoRepeat(s);
      InsertNoRepeat(p, s[1..]);
      ConsNoRepeat(s[0], Insert(p, s[1..]));
    } else {
      ConsNoRepeat(p, s);
    }
  }

  /** Sorting by total keeps the ids unrepeated. */
  lemma {:induction false} SortNoRepeat(s: seq<(int, int)>)
    requires NoRepeatedId(s)
    ensures NoRepeatedId(SortDesc(s))
    decreases |s|
  {
    if |s| > 0 {
      var n := |s| - 1;
      var pre := s[..n];
      assert NoRepeatedId(pre) by {
        forall i, j | 0 <= i < j < |pre| ensures pre[i].0 != pre[j].0 {
          assert pre[i] == s[i] && pre[j] == s[j];
        }
      }
      SortNoRepeat(pre);
      var sorted := SortDesc(pre);
      forall q | q in sorted ensures q.0 != s[n].0 {
        assert q in multiset(sorted);
        assert q in multiset(pre);
        var k :| 0 <= k < |pre| && pre[k] == q;
        assert s[k] == q;
      }
      InsertNoRepeat(s[n], sorted);
    }
  }

  /** `count(entries, key, n=n)`. */
  function Count(entries: seq<Entry>, key: Column, n: int): seq<(int, int)> {
    MostCommon(Totals(entries, key), n)
  }

  /** `count` never lists an id twice: the counter's ids are distinct and
      sorting keeps them so. */
  lemma CountIdsDistinct(entries: seq<Entry>, key: Column, n: int)
    ensures var r := Count(entries, key, n);
            forall i, j :: 0 <= i < j < |r| ==> r[i].0 != r[j].0
  {
    var ts := Totals(entries, key);
    var sorted := SortDesc(ts);
    var r := Count(entries, key, n);
    DistinctNoRepeat(ts);
    SortNoRepeat(ts);
    forall i, j | 0 <= i < j < |r| ensures r[i].0 != r[j].0 {
      assert r[i] == sorted[i] && r[j] == sorted[j];
    }
  }

  /** `count` returns `min(n, #ids)` pairs in descending order of total,
      each an id some row has together with the sum of its amounts, and no
      id twice. */
  lemma CountListsTotals(entries: seq<Entry>, key: Column, n: int)
    ensures var r := Count(entries, key, n);
            var ts := Totals(entries, key);
            && |r| == (if n <= 0 then 0 else if n < |ts| then n else |ts|)
            && SortedDesc(r)
            && (forall i :: 0 <= i < |r| ==> HasKey(entries, key, r[i].0) && r[i].1 == SumFor(entries, key, r[i].0))
            && forall i, j :: 0 <= i < j < |r| ==> r[i].0 != r[j].0
  {
    var ts := Totals(entries, key);
    var sorted := SortDesc(ts);
    var r := Count(entries, key, n);
    CountIdsDistinct(entries, key, n);
    assert |sorted| == |ts| by {
      assert |multiset(sorted)| == |multiset(ts)|;
    }
    forall i | 0 <= i < |r| ensures HasKey(entries, key, r[i].0) && r[i].1 == SumFor(entries, key, r[i].0) {
      var p := r[i];
      assert p == sorted[i];
      assert p in multiset(ts);
      FindMember(ts, p);
      TotalsExact(entries, key, p.0);
    }
  }

  /** A pair `most_common` leaves out has a total no larger than any it
      keeps. */
  lemma MostCommonBound(s: seq<(int, int)>, n: int, p: (int, int))
    requires p in s
    requires forall i :: 0 <= i < |MostCommon(s, n)| ==> MostCommon(s, n)[i] != p
    ensures forall i :: 0 <= i < |MostCommon(s, n)| ==> MostCommon(s, n)[i].1 >= p.1
  {
    var sorted := SortDesc(s);
    InSorted(s, p);
    var j :| 0 <= j < |sorted| && sorted[j] == p;
    if 0 < n < |sorted| {
      assert MostCommon(s, n) == sorted[..n];
      SortedPrefixAbove(sorted, n, j);
    }
  }

  lemma InSorted(s: seq<(int, int)>, p: (int, int))
    requires p in s
    ensures p in SortDesc(s)
  {
    assert p in multiset(s);
    assert p in multiset(SortDesc(s));
  }

  /** When `sorted[j]` is not among the first `n` entries of a sorted
      list, each of those entries is at least as large. */
  lemma SortedPrefixAbove(sorted: seq<(int, int)>, n: int, j: int)
    requires SortedDesc(sorted) && 0 < n < |sorted| && 0 <= j < |sorted|
    requires forall i :: 0 <= i < n ==> sorted[..n][i] != sorted[j]
    ensures forall i :: 0 <= i < n ==> sorted[..n][i].1 >= sorted[j].1
  {
    forall i | 0 <= i < n ensures sorted[..n][i].1 >= sorted[j].1 {
      assert sorted[..n][i] == sorted[i];
    }
  }

  /** An id some row has that `count` leaves out totals no more than any
      id it lists. */
  lemma CountTopN(entries: seq<Entry>, key: Column, n: int, id: int)
    requires HasKey(entries, key, id)
    requires forall i :: 0 <= i < |Count(entries, key, n)| ==> Count(entries, key, n)[i].0 != id
    ensures forall i :: 0 <= i < |Count(entries, key, n)| ==> Count(entries, key, n)[i].1 >= SumFor(entries, key, id)
  {
    var ts := Totals(entries, key);
    var p := (id, SumFor(entries, key, id));
    TotalsExact(entries, key, id);
    assert Find(ts, id) == Some(p.1);
    FindIn(ts, id);
    assert p in ts;
    var r := MostCommon(ts, n);
    assert r == Count(entries, key, n);
    assert forall i :: 0 <= i < |r| ==> r[i] != p;
    MostCommonBound(ts, n, p);
  }

  /** The row classes by which ids are missing. */
  datatype RowClass = BothIds | NoUser | NoChannel | NoIds

  function ClassOf(e: Entry): RowClass {
    if e.channelId.Some? && e.userId.Some? then BothIds
    else if e.channelId.Some? then NoUser
    else if e.userId.Some? then NoChannel
    else NoIds
  }

  /** The sum of the amounts of the rows of class `c`. */
  function SumOf(entries: seq<Entry>, c: RowClass): int
    decreases |entries|
  {
    if |entries| == 0 then 0
    else
      var e := entries[|entries| - 1];
      SumOf(entries[..|entries| - 1], c) + (if ClassOf(e) == c then e.amount else 0)
  }

  function TotalAmount(entries: seq<Entry>): int
    decreases |entries|
  {
    if |entries| == 0 then 0 else TotalAmount(entries[..|entries| - 1]) + entries[|entries| - 1].amount
  }

  /** The four classes split the total. */
  lemma {:induction false} ClassesPartition(entries: seq<Entry>)
    ensures TotalAmount(entries) == SumOf(entries, BothIds) + SumOf(entries, NoUser) + SumOf(entries, NoChannel) + SumOf(entries, NoIds)
    decreases |entries|
  {
    if |entries| > 0 {
      ClassesPartition(entries[..|entries| - 1]);
    }
  }

  /** `count_all(entries)`: the total less the rows that have a user but
      no channel. */
  method CountAll(entries: seq<Entry>) returns (total: int)
    ensures total == TotalAmount(entries) - SumOf(entries, NoChannel)
  {
    total := 0;
    var k := 0;
    while k < |entries|
      invariant 0 <= k <= |entries|
      invariant total == TotalAmount(entries[..k]) - SumOf(entries[..k], NoChannel)
    {
      var e := entries[k];
      if e.channelId.Some? || (e.channelId.None? && e.userId.None?) {
        total := total + e.amount;
      }
      assert entries[..k + 1][..k] == entries[..k];
      k := k + 1;
    }
    assert entries[..k] == entries;
  }

  /** `count_compressed(entries)`: `big` sums the rows without either id,
      `small` the rows missing exactly one. */
  method CountCompressed(entries: seq<Entry>) returns (small: int, big: int)
    ensures big == SumOf(entries, NoIds)
    ensures small == SumOf(entries, NoUser) + SumOf(entries, NoChannel)
  {
    small, big := 0, 0;
    var k := 0;
    while k < |entries|
      invariant 0 <= k <= |entries|
      invariant big == SumOf(entries[..k], NoIds)
      invariant small == SumOf(entries[..k], NoUser) + SumOf(entries[..k], NoChannel)
    {
      var e := entries[k];
      if e.channelId.None? && e.userId.None? {
        big := big + e.amount;
      } else if e.channelId.None? || e.userId.None? {
        small := small + e.amount;
      }
      assert entries[..k + 1][..k] == entries[..k];
      k := k + 1;
    }
    assert entries[..k] == entries;
  }
}

=== FILE: storage_cache.dfy ===
/** The memoising decorator `cache(maxsize)` and the TTL map `ExpiringDict`.
    The decorator keeps a bounded LRU map from a string key to a value; the
    key is built from the wrapped function's `module.name` and the reprs of
    the call's arguments.  The clock of `ExpiringDict` is a parameter. */
module StorageCache {
  import opened Wrappers
  import opened Strings

  // ---------------------------------------------------------------------
  // Keys
  // ---------------------------------------------------------------------

  /** A Python object as far as key building sees it: its class, its
      `repr()`, and whether its class keeps `object.__repr__`. */
  datatype PyObject = PyObject(moduleName: string, className: string, repr: string, defaultRepr: bool)

  /** The wrapped function, by `__module__` and `__name__`. */
  datatype Func = Func(moduleName: string, name: string)

  /** `f'{func.__module__}.{func.__name__}'`: not `__qualname__`, so two
      methods of the same name in different classes of one module share it. */
  function DottedName(f: Func): string {
    f.moduleName + "." + f.name
  }

  /** `_true_repr`: the class path for objects without a custom `__repr__`
      (dropping the address `object.__repr__` would print), `repr` otherwise. */
  function TrueRepr(o: PyObject): string {
    if o.defaultRepr then "<" + o.moduleName + "." + o.className + ">" else o.repr
  }

  function ArgReprs(args: seq<PyObject>): (r: seq<string>)
    ensures |r| == |args|
    ensures forall i :: 0 <= i < |args| ==> r[i] == TrueRepr(args[i])
  {
    seq(|args|, i requires 0 <= i < |args| => TrueRepr(args[i]))
  }

  /** Each keyword argument contributes its name's and its value's repr. */
  function KwargReprs(kwargs: seq<(PyObject, PyObject)>): (r: seq<string>)
    ensures |r| == 2 * |kwargs|
    ensures forall i :: 0 <= i < |kwargs| ==> r[2 * i] == TrueRepr(kwargs[i].0) && r[2 * i + 1] == TrueRepr(kwargs[i].1)
    decreases |kwargs|
  {
    if |kwargs| == 0 then []
    else KwargReprs(kwargs[..|kwargs| - 1]) + [TrueRepr(kwargs[|kwargs| - 1].0), TrueRepr(kwargs[|kwargs| - 1].1)]
  }

  /** The list `create_key` joins. */
  function KeyParts(f: Func, args: seq<PyObject>, kwargs: seq<(PyObject, PyObject)>): seq<string> {
    [DottedName(f)] + ArgReprs(args) + KwargReprs(kwargs)
  }

  /** `create_key(*args, **kwargs)`. */
  function CreateKey(f: Func, args: seq<PyObject>, kwargs: seq<(PyObject, PyObject)>): string {
    Join(KeyParts(f, args, kwargs), ":")
  }

  predicate ColonFree(parts: seq<string>) {
    forall i :: 0 <= i < |parts| ==> ':' !in parts[i]
  }

  /** Splitting a key on `:` gives back its parts when none holds a colon:
      the key starts with the function's `module.name` and then lists the
      argument reprs in order. */
  lemma CreateKeyParts(f: Func, args: seq<PyObject>, kwargs: seq<(PyObject, PyObject)>)
    requires ColonFree(KeyParts(f, args, kwargs))
    ensures Split(CreateKey(f, args, kwargs), ':') == KeyParts(f, args, kwargs)
  {
    SplitJoin(KeyParts(f, args, kwargs), ':');
  }

  /** `repr(args)` of the positional-argument tuple. */
  function TupleRepr(args: seq<PyObject>): string {
    var inner := Join(seq(|args|, i requires 0 <= i < |args| => args[i].repr), ", ");
    "(" + inner + (if |args| == 1 then ",)" else ")")
  }

  /** `repr(kwargs)` of the keyword-argument dict. */
  function DictRepr(kwargs: seq<(PyObject, PyObject)>): string {
    "{" + Join(seq(|kwargs|, i requires 0 <= i < |kwargs| => kwargs[i].0.repr + ": " + kwargs[i].1.repr), ", ") + "}"
  }

  /** The wrapper calls `create_key(args, kwargs)`: two objects, the tuple
      and the dict, whose reprs use each argument's own `repr`. */
  function CallKey(f: Func, args: seq<PyObject>, kwargs: seq<(PyObject, PyObject)>): string {
    CreateKey(f,
      [PyObject("builtins", "tuple", TupleRepr(args), false), PyObject("builtins", "dict", DictRepr(kwargs), false)],
      [])
  }

  /** Without keyword arguments a key is the `module.name`, a colon, the
      tuple's repr and `:{}`. */
  lemma CallKeyShape(f: Func, a: seq<PyObject>)
    ensures CallKey(f, a, []) == DottedName(f) + [':'] + (TupleRepr(a) + ":{}")
  {
    var p := KeyParts(f, [PyObject("builtins", "tuple", TupleRepr(a), false), PyObject("builtins", "dict", DictRepr([]), false)], []);
    assert DictRepr([]) == "{}";
    assert p == [DottedName(f), TupleRepr(a), "{}"];
    Join3(DottedName(f), TupleRepr(a), "{}", ":");
  }

  /** Without keyword arguments, and with colon-free `module.name`s, two
      calls share a key exactly when they call the same function with
      argument tuples of the same repr: the name ends at the first `:`, and
      every key ends in the same `:{}`. */
  lemma CallKeyInjective(f: Func, g: Func, a: seq<PyObject>, b: seq<PyObject>)
    requires ':' !in DottedName(f) && ':' !in DottedName(g)
    ensures CallKey(f, a, []) == CallKey(g, b, []) <==> DottedName(f) == DottedName(g) && TupleRepr(a) == TupleRepr(b)
  {
    CallKeyShape(f, a);
    CallKeyShape(g, b);
    var ta, tb := TupleRepr(a) + ":{}", TupleRepr(b) + ":{}";
    if CallKey(f, a, []) == CallKey(g, b, []) {
      SplitAtFirst(DottedName(f), ta, DottedName(g), tb, ':');
      assert ta[..|ta| - 3] == TupleRepr(a) && tb[..|tb| - 3] == TupleRepr(b);
    }
  }

  // ---------------------------------------------------------------------
  // The bounded LRU map
  // ---------------------------------------------------------------------

  /** An `lru.LRU(maxsize)`: the entries and the keys from least to most
      recently used. */
  datatype Cache<V> = Cache(maxsize: int, entries: map<string, V>, order: seq<string>)

  predicate Distinct(s: seq<string>) {
    forall i, j :: 0 <= i < j < |s| ==> s[i] != s[j]
  }

  /** The representation invariant: the recency list holds each key of the
      map exactly once and never more than `maxsize` keys. */
  predicate Valid<V>(c: Cache<V>) {
    && c.maxsize >= 1
    && |c.order| <= c.maxsize
    && Distinct(c.order)
    && (forall k :: k in c.entries ==> k in c.order)
    && (forall i :: 0 <= i < |c.order| ==> c.order[i] in c.entries)
  }

  lemma ValidIntro<V>(c: Cache<V>)
    requires c.maxsize >= 1 && |c.order| <= c.maxsize && Distinct(c.order)
    requires forall x :: x in c.entries <==> x in c.order
    ensures Valid(c)
  {
  }

  lemma ValidElim<V>(c: Cache<V>)
    requires Valid(c)
    ensures forall x :: x in c.entries <==> x in c.order
  {
  }

  /** `LRU(maxsize)`; a size below one is the library's `ValueError`. */
  function NewCache<V>(maxsize: int): (r: Option<Cache<V>>)
    ensures r.Some? <==> maxsize >= 1
    ensures r.Some? ==> Valid(r.value) && r.value.entries == map[] && r.value.maxsize == maxsize
  {
    if maxsize >= 1 then Some(Cache(maxsize, map[], [])) else None
  }

  lemma DistinctSnoc(t: seq<string>, x: string)
    requires Distinct(t) && x !in t
    ensures Distinct(t + [x])
  {
  }

  lemma DistinctPrefix(s: seq<string>)
    requires |s| > 0 && Distinct(s)
    ensures Distinct(s[..|s| - 1]) && s[|s| - 1] !in s[..|s| - 1]
  {
    var t := s[..|s| - 1];
    forall i, j | 0 <= i < j < |t| ensures t[i] != t[j] {
      assert t[i] == s[i] && t[j] == s[j];
    }
  }

  /** The recency list without `k`. */
  function Remove(s: seq<string>, k: string): (r: seq<string>)
    ensures forall x :: x in r <==> x in s && x != k
    ensures Distinct(s) ==> Distinct(r)
    ensures |r| <= |s| && (k in s ==> |r| < |s|)
    ensures k !in s ==> r == s
    decreases |s|
  {
    if |s| == 0 then []
    else
      var t := s[..|s| - 1];
      var rest := Remove(t, k);
      var last := s[|s| - 1];
      assert s == t + [last];
      if last == k then rest
      else
        assert Distinct(s) ==> Distinct(rest + [last]) by {
          if Distinct(s) {
            DistinctPrefix(s);
            DistinctSnoc(rest, last);
          }
        }
        rest + [last]
  }

  /** Removing a key from a distinct recency list takes out its one
      position and keeps every other key in its order. */
  lemma {:induction false} RemoveAt(s: seq<string>, i: int)
    requires Distinct(s) && 0 <= i < |s|
    ensures Remove(s, s[i]) == s[..i] + s[i + 1..]
    decreases |s|
  {
    var n := |s| - 1;
    var t := s[..n];
    DistinctPrefix(s);
    assert s == t + [s[n]];
    if i == n {
      assert s[..i] + s[i + 1..] == t;
    } else {
      assert t[i] == s[i];
      RemoveAt(t, i);
      assert s[..i] + s[i + 1..] == t[..i] + t[i + 1..] + [s[n]];
    }
  }

  /** `key in cache`: a membership test that leaves the recency alone. */
  function Lookup<V>(c: Cache<V>, key: string): (r: Option<V>)
    ensures r.Some? <==> key in c.entries
    ensures r.Some? ==> r.value == c.entries[key]
  {
    if key in c.entries then Some(c.entries[key]) else None
  }

  /** Reading `cache[key]` marks the key most recently used. */
  function Touch<V>(c: Cache<V>, key: string): (r: Cache<V>)
    ensures r.entries == c.entries && r.maxsize == c.maxsize
    ensures Valid(c) ==> Valid(r)
    ensures key in c.entries ==> r.order == Remove(c.order, key) + [key]
    ensures key !in c.entries ==> r == c
  {
    if key in c.entries then
      var order := Remove(c.order, key);
      var r := Cache(c.maxsize, c.entries, order + [key]);
      assert Valid(c) ==> Valid(r) by {
        if Valid(c) {
          DistinctSnoc(order, key);
          ValidElim(c);
          ValidIntro(r);
        }
      }
      r
    else c
  }

  /** The key `Put` would evict: the least recently used one, when the
      key is new and the map is full. */
  function Victim<V>(c: Cache<V>, key: string): Option<string> {
    if key !in c.entries && |c.order| >= c.maxsize && |c.order| > 0 then Some(c.order[0]) else None
  }

  /** Dropping the least recently used key from a recency list. */
  lemma DropFirst(s: seq<string>)
    requires |s| > 0 && Distinct(s)
    ensures Distinct(s[1..])
    ensures forall k :: k in s[1..] <==> k in s && k != s[0]
  {
    var t := s[1..];
    forall i, j | 0 <= i < j < |t| ensures t[i] != t[j] {
      assert t[i] == s[i + 1] && t[j] == s[j + 1];
    }
    forall k ensures k in t <==> k in s && k != s[0] {
      if k in s && k != s[0] {
        var i :| 0 <= i < |s| && s[i] == k;
        assert t[i - 1] == k;
      }
      if k in t {
        var i :| 0 <= i < |t| && t[i] == k;
        assert s[i + 1] == k;
      }
    }
  }

  lemma PutExistingValid<V>(c: Cache<V>, key: string, value: V)
    requires Valid(c) && key in c.entries
    ensures Valid(Cache(c.maxsize, c.entries[key := value], Remove(c.order, key) + [key]))
  {
    var order := Remove(c.order, key);
    DistinctSnoc(order, key);
    ValidElim(c);
    ValidIntro(Cache(c.maxsize, c.entries[key := value], order + [key]));
  }

  lemma PutEvictingValid<V>(c: Cache<V>, key: string, value: V)
    requires Valid(c) && key !in c.entries && |c.order| >= c.maxsize && |c.order| > 0
    ensures Valid(Cache(c.maxsize, (c.entries - {c.order[0]})[key := value], c.order[1..] + [key]))
  {
    ValidElim(c);
    DropFirst(c.order);
    DistinctSnoc(c.order[1..], key);
    ValidIntro(Cache(c.maxsize, (c.entries - {c.order[0]})[key := value], c.order[1..] + [key]));
  }

  lemma PutFreshValid<V>(c: Cache<V>, key: string, value: V)
    requires Valid(c) && key !in c.entries && |c.order| < c.maxsize
    ensures Valid(Cache(c.maxsize, c.entries[key := value], c.order + [key]))
  {
    ValidElim(c);
    DistinctSnoc(c.order, key);
    ValidIntro(Cache(c.maxsize, c.entries[key := value], c.order + [key]));
  }

  /** `cache[key] = value`. */
  function Put<V>(c: Cache<V>, key: string, value: V): (r: Cache<V>)
    ensures Lookup(r, key) == Some(value)
    ensures forall k :: k != key ==> (k in r.entries <==> k in c.entries && Victim(c, key) != Some(k))
    ensures forall k :: k != key && k in r.entries ==> r.entries[k] == c.entries[k]
    ensures r.maxsize == c.maxsize
    ensures r.order == if key in c.entries then Remove(c.order, key) + [key]
                       else if Victim(c, key).Some? then c.order[1..] + [key]
                       else c.order + [key]
    ensures Valid(c) ==> Valid(r)
  {
    if key in c.entries then
      var r := Cache(c.maxsize, c.entries[key := value], Remove(c.order, key) + [key]);
      if Valid(c) then PutExistingValid(c, key, value); r else r
    else if |c.order| >= c.maxsize && |c.order| > 0 then
      var r := Cache(c.maxsize, (c.entries - {c.order[0]})[key := value], c.order[1..] + [key]);
      if Valid(c) then PutEvictingValid(c, key, value); r else r
    else
      var r := Cache(c.maxsize, c.entries[key := value], c.order + [key]);
      if Valid(c) then PutFreshValid(c, key, value); r else r
  }

  /** `del cache[key]`. */
  function Delete<V>(c: Cache<V>, key: string): (r: Cache<V>)
    ensures r.entries == c.entries - {key} && r.maxsize == c.maxsize
    ensures Valid(c) ==> Valid(r)
  {
    var r := Cache(c.maxsize, c.entries - {key}, Remove(c.order, key));
    assert Valid(c) ==> Valid(r) by {
      if Valid(c) {
        ValidElim(c);
        ValidIntro(r);
      }
    }
    r
  }

  lemma {:induction false} DistinctSetSize(s: seq<string>)
    requires Distinct(s)
    ensures |set x | x in s| == |s|
    decreases |s|
  {
    if |s| > 0 {
      var t := s[..|s| - 1];
      var last := s[|s| - 1];
      assert Distinct(t) by {
        forall i, j | 0 <= i < j < |t| ensures t[i] != t[j] {
          assert t[i] == s[i] && t[j] == s[j];
        }
      }
      DistinctSetSize(t);
      assert s == t + [last];
      assert (set x | x in s) == (set x | x in t) + {last};
      assert last !in t;
    }
  }

  /** A valid cache never holds more than `maxsize` entries. */
  lemma SizeBound<V>(c: Cache<V>)
    requires Valid(c)
    ensures |c.entries| <= c.maxsize
  {
    DistinctSetSize(c.order);
    assert c.entries.Keys == set x | x in c.order;
  }

  /** Storing one value under each key of `ks`, in order. */
  function PutAll<V>(c: Cache<V>, ks: seq<string>, v: V): Cache<V>
    decreases |ks|
  {
    if |ks| == 0 then c else Put(PutAll(c, ks[..|ks| - 1], v), ks[|ks| - 1], v)
  }

  /** Storing a new key in a cache with room appends it to the recency
      list and adds it to the keys. */
  lemma PutFresh<V>(c: Cache<V>, key: string, v: V)
    requires key !in c.entries && |c.order| < c.maxsize
    ensures Put(c, key, v).order == c.order + [key]
    ensures forall k :: k in Put(c, key, v).entries <==> k in c.entries || k == key
  {
  }

  /** Storing a new key in a full cache drops the head of the recency
      list, and that key only. */
  lemma PutEvict<V>(c: Cache<V>, key: string, v: V)
    requires key !in c.entries && |c.order| >= c.maxsize && |c.order| > 0
    ensures forall k :: k in Put(c, key, v).entries <==> k == key || (k in c.entries && k != c.order[0])
  {
  }

  /** Filling an empty cache with distinct keys, no more than it holds,
      keeps them all, least recently stored first. */
  lemma {:induction false} FillOrder<V>(n: int, ks: seq<string>, v: V)
    requires 1 <= n && |ks| <= n && Distinct(ks)
    ensures var c := PutAll(Cache(n, map[], []), ks, v);
            c.maxsize == n && c.order == ks && forall k :: k in c.entries <==> k in ks
    decreases |ks|
  {
    if |ks| > 0 {
      var pre := ks[..|ks| - 1];
      var key := ks[|ks| - 1];
      DistinctPrefix(ks);
      FillOrder(n, pre, v);
      var c := PutAll(Cache(n, map[], []), pre, v);
      assert PutAll(Cache(n, map[], []), ks, v) == Put(c, key, v);
      PutFresh(c, key, v);
      assert ks == pre + [key];
    }
  }

  /** A cache filled to capacity with distinct keys evicts the first of
      them, the least recently used, when a new key is stored. */
  lemma FillThenEvict<V>(n: int, ks: seq<string>, v: V, x: string)
    requires 1 <= n && |ks| == n && Distinct(ks) && x !in ks
    ensures var r := Put(PutAll(Cache(n, map[], []), ks, v), x, v);
            forall k :: k in r.entries <==> k == x || (k in ks && k != ks[0])
  {
    FillOrder(n, ks, v);
    PutEvict(PutAll(Cache(n, map[], []), ks, v), x, v);
  }

  /** Reading a key of a full cache saves it from the next eviction: the
      least recently used of the others goes instead. */
  lemma TouchThenEvict<V>(c: Cache<V>, j: int, x: string, v: V)
    requires Valid(c) && 2 <= |c.order| == c.maxsize && 0 <= j < |c.order| && x !in c.entries
    ensures var r := Put(Touch(c, c.order[j]), x, v);
            forall k :: k in r.entries <==> k == x || (k in c.entries && k != (if j == 0 then c.order[1] else c.order[0]))
  {
    RemoveAt(c.order, j);
    var t := Touch(c, c.order[j]);
    assert t.order == c.order[..j] + c.order[j + 1..] + [c.order[j]];
    assert t.order[0] == if j == 0 then c.order[1] else c.order[0];
    PutEvict(t, x, v);
  }

  /** The same, for a cache filled with `ks` in order: reading `ks[j]`
      makes the next new key evict `ks[0]`, or `ks[1]` when `ks[0]` was
      the one read. */
  lemma TouchedKept<V>(n: int, ks: seq<string>, v: V, x: string, j: int)
    requires 2 <= n && |ks| == n && Distinct(ks) && x !in ks && 0 <= j < n
    ensures var r := Put(Touch(PutAll(Cache(n, map[], []), ks, v), ks[j]), x, v);
            forall k :: k in r.entries <==> k == x || (k in ks && k != (if j == 0 then ks[1] else ks[0]))
  {
    var c := PutAll(Cache(n, map[], []), ks, v);
    FillOrder(n, ks, v);
    ValidIntro(c);
    TouchThenEvict(c, j, x, v);
  }

  // ---------------------------------------------------------------------
  // The wrapper
  // ---------------------------------------------------------------------

  /** What calling the wrapped function gave: a value, an awaitable whose
      value is known only once it resolves, or an exception. */
  datatype Outcome<V> = Ready(value: V) | Awaitable | Raised

  /** What the wrapper hands back: the value, the value wrapped in a new
      coroutine (for coroutine functions), the awaitable that stores its
      value under `key` when it resolves, or the exception `func` raised,
      passed on unchanged. */
  datatype Reply<V> = Plain(value: V) | Coroutine(value: V) | Deferred(key: string) | Propagated

  datatype CallResult<V> = CallResult(reply: Reply<V>, cache: Cache<V>, called: bool)

  function Wrap<V>(v: V, coroutineFunction: bool): Reply<V> {
    if coroutineFunction then Coroutine(v) else Plain(v)
  }

  /** `wrapper(*args, **kwargs)` with its key already built; `outcome` is
      what `func` gives if it is called.  The two flags are independent
      because `inspect.isawaitable` looks at the returned value and
      `asyncio.iscoroutinefunction` at the function: a coroutine function
      always returns an awaitable, so for it a miss is always `Awaitable`
      and `Wrap` only matters on a hit, where the stored (resolved) value is
      handed back in a new coroutine; a plain function may return either. */
  function Call<V>(c: Cache<V>, key: string, outcome: Outcome<V>, coroutineFunction: bool): (r: CallResult<V>)
    ensures key in c.entries ==> !r.called && r.reply == Wrap(c.entries[key], coroutineFunction)
                                 && r.cache == Touch(c, key)
    ensures key !in c.entries ==> r.called
    ensures key !in c.entries && outcome.Awaitable? ==> r.reply == Deferred(key) && r.cache == c
    ensures key !in c.entries && outcome.Raised? ==> r.reply == Propagated && r.cache == c
    ensures key !in c.entries && outcome.Ready? ==>
              r.reply == Wrap(outcome.value, coroutineFunction) && Lookup(r.cache, key) == Some(outcome.value)
    ensures Valid(c) ==> Valid(r.cache)
  {
    if key in c.entries then
      CallResult(Wrap(c.entries[key], coroutineFunction), Touch(c, key), false)
    else
      match outcome
      case Awaitable => CallResult(Deferred(key), c, true)
      case Raised => CallResult(Propagated, c, true)
      case Ready(v) => CallResult(Wrap(v, coroutineFunction), Put(c, key, v), true)
  }

  /** `_wrap_and_store_coroutine`: once the awaitable resolves to `v`, the
      value is stored under the key and returned. */
  function Resolve<V>(c: Cache<V>, key: string, v: V): (r: (V, Cache<V>))
    ensures r.0 == v && Lookup(r.1, key) == Some(v)
    ensures Valid(c) ==> Valid(r.1)
  {
    (v, Put(c, key, v))
  }

  /** After a synchronous miss the next call with the same key is a hit:
      `func` is not called again and the same value comes back. */
  lemma MissThenHit<V>(c: Cache<V>, key: string, v: V, next: Outcome<V>, coroutineFunction: bool)
    requires key !in c.entries
    ensures var first := Call(c, key, Ready(v), coroutineFunction);
            var second := Call(first.cache, key, next, coroutineFunction);
            first.called && !second.called && second.reply == first.reply
  {
  }

  /** An awaitable miss stores nothing: calling again before it resolves
      calls `func` again; after it resolves the call is a hit. */
  lemma AwaitableStoresOnResolve<V>(c: Cache<V>, key: string, v: V, next: Outcome<V>)
    requires key !in c.entries
    ensures var first := Call(c, key, Awaitable, true);
            && first.reply == Deferred(key)
            && Call(first.cache, key, next, true).called
            && var stored := Resolve(first.cache, key, v).1;
               Call(stored, key, next, true) == CallResult(Coroutine(v), Touch(stored, key), false)
  {
  }

  /** `_invalidate(*args, **kwargs)` with its key already built. */
  function Invalidate<V>(c: Cache<V>, key: string): (r: (bool, Cache<V>))
    ensures r.0 <==> key in c.entries
    ensures r.0 ==> r.1.entries == c.entries - {key}
    ensures !r.0 ==> r.1 == c
    ensures Valid(c) ==> Valid(r.1)
  {
    if key in c.entries then (true, Delete(c, key)) else (false, c)
  }

  /** After a call has stored its value, invalidating its key reports a
      removal and makes the next call with that key call `func` again. */
  lemma InvalidateForcesRecompute<V>(c: Cache<V>, key: string, v: V, next: Outcome<V>, coroutineFunction: bool)
    ensures var first := Call(c, key, Ready(v), coroutineFunction);
            var cleared := Invalidate(first.cache, key);
            cleared.0 && Call(cleared.1, key, next, coroutineFunction).called
  {
  }

  /** The loop of `_invalidate_containing` over a snapshot of the keys. */
  function DeleteMatching<V>(c: Cache<V>, keys: seq<string>, s: string): (r: Cache<V>)
    ensures r.maxsize == c.maxsize
    ensures Valid(c) ==> Valid(r)
    decreases |keys|
  {
    if |keys| == 0 then c
    else
      var rest := DeleteMatching(c, keys[..|keys| - 1], s);
      var k := keys[|keys| - 1];
      if Contains(k, s) then Delete(rest, k) else rest
  }

  /** `_invalidate_containing(s)`. */
  function InvalidateContaining<V>(c: Cache<V>, s: string): (r: Cache<V>)
    ensures Valid(c) ==> Valid(r)
  {
    DeleteMatching(c, c.order, s)
  }

  lemma {:induction false} DeleteMatchingKey<V>(c: Cache<V>, keys: seq<string>, s: string, k: string)
    ensures var r := DeleteMatching(c, keys, s);
            && (k in r.entries <==> k in c.entries && !(k in keys && Contains(k, s)))
            && (k in r.entries ==> r.entries[k] == c.entries[k])
    decreases |keys|
  {
    if |keys| > 0 {
      var pre := keys[..|keys| - 1];
      DeleteMatchingKey(c, pre, s, k);
      assert keys == pre + [keys[|keys| - 1]];
    }
  }

  /** Invalidating by substring removes exactly the keys that contain `s`
      and keeps every other entry with its value. */
  lemma InvalidateContainingExact<V>(c: Cache<V>, s: string, k: string)
    requires Valid(c)
    ensures var r := InvalidateContaining(c, s);
            && (k in r.entries <==> k in c.entries && !Contains(k, s))
            && (k in r.entries ==> r.entries[k] == c.entries[k])
  {
    DeleteMatchingKey(c, c.order, s, k);
  }

  /** Every key contains the empty string, so invalidating by `""` empties
      the cache. */
  lemma InvalidateContainingEmpty<V>(c: Cache<V>)
    requires Valid(c)
    ensures InvalidateContaining(c, "").entries == map[]
  {
    var r := InvalidateContaining(c, "");
    forall k | k in r.entries ensures false {
      InvalidateContainingExact(c, "", k);
      ContainsEmpty(k);
    }
  }

  // ---------------------------------------------------------------------
  // ExpiringDict
  // ---------------------------------------------------------------------

  /** An `ExpiringDict(seconds)`: each value with the clock reading at
      which it expires. */
  datatype Expiring<V> = Expiring(ttl: int, items: map<string, (V, int)>)

  function NewExpiring<V>(seconds: int): (r: Expiring<V>)
    ensures r.ttl == seconds && r.items == map[]
  {
    Expiring(seconds, map[])
  }

  /** The lifetime `__setitem__` gives an entry: `seconds`, or the
      dictionary's ttl when `seconds` is negative. */
  function Lifetime<V>(d: Expiring<V>, seconds: int): int {
    if seconds < 0 then d.ttl else seconds
  }

  /** `__setitem__(key, value, seconds=seconds)` at clock reading `now`. */
  function SetItem<V>(d: Expiring<V>, key: string, value: V, seconds: int, now: int): (r: Expiring<V>)
    ensures r.ttl == d.ttl
    ensures key in r.items && r.items[key] == (value, now + Lifetime(d, seconds))
    ensures forall k :: k != key ==> (k in r.items <==> k in d.items)
    ensures forall k :: k != key && k in r.items ==> r.items[k] == d.items[k]
  {
    d.(items := d.items[key := (value, now + Lifetime(d, seconds))])
  }

  /** `__verify_cache_integrity` at clock reading `now`. */
  function Purge<V>(d: Expiring<V>, now: int): (r: Expiring<V>)
    ensures r.ttl == d.ttl
    ensures forall k :: k in r.items <==> k in d.items && now <= d.items[k].1
    ensures forall k :: k in r.items ==> r.items[k] == d.items[k]
  {
    d.(items := map k | k in d.items && !(now > d.items[k].1) :: d.items[k])
  }

  /** `key in d` at clock reading `now`: purges, then tests. */
  function ContainsKey<V>(d: Expiring<V>, key: string, now: int): (r: (bool, Expiring<V>))
    ensures r.1 == Purge(d, now)
    ensures r.0 <==> key in d.items && now <= d.items[key].1
  {
    var p := Purge(d, now);
    (key in p.items, p)
  }

  /** `d[key]` at clock reading `now`: purges, then reads; a missing or
      expired key is the `KeyError`. */
  function GetItem<V>(d: Expiring<V>, key: string, now: int): (r: (Option<V>, Expiring<V>))
    ensures r.1 == Purge(d, now)
    ensures r.0.Some? <==> key in d.items && now <= d.items[key].1
    ensures r.0.Some? ==> r.0.value == d.items[key].0
  {
    var p := Purge(d, now);
    (if key in p.items then Some(p.items[key].0) else None, p)
  }

  /** A new dictionary holds nothing at any clock reading, and a value set
      without an explicit lifetime lives for the TTL it was created with. */
  lemma FreshExpiring<V>(seconds: int, key: string, value: V, t: int, now: int)
    ensures !ContainsKey(NewExpiring<V>(seconds), key, now).0
    ensures GetItem(NewExpiring<V>(seconds), key, now).0.None?
    ensures GetItem(SetItem(NewExpiring<V>(seconds), key, value, -1, t), key, now).0
            == if now <= t + seconds then Some(value) else None
  {
    SetThenGet(NewExpiring<V>(seconds), key, value, -1, t, now);
  }

  /** A value set at `t` is readable exactly until `t` plus its lifetime. */
  lemma SetThenGet<V>(d: Expiring<V>, key: string, value: V, seconds: int, t: int, now: int)
    ensures GetItem(SetItem(d, key, value, seconds, t), key, now).0
            == if now <= t + Lifetime(d, seconds) then Some(value) else None
  {
  }

  /** Purging at an earlier reading and then at a later one is the same as
      purging once at the later reading. */
  lemma PurgeMonotone<V>(d: Expiring<V>, t1: int, t2: int)
    requires t1 <= t2
    ensures Purge(Purge(d, t1), t2) == Purge(d, t2)
  {
    assert Purge(Purge(d, t1), t2).items == Purge(d, t2).items;
  }
}

=== FILE: strings.dfy ===
/** The handful of Python string operations the modelled code relies on:
    `sep.join`, `str.split` (with and without a separator), `in` on strings,
    `str(int)` / `int(str)` for decimal numerals, and ASCII case mapping. */
module Strings {

  predicate IsPrefix(p: string, s: string) {
    |p| <= |s| && s[..|p|] == p
  }

  predicate IsSuffix(p: string, s: string) {
    |p| <= |s| && s[|s| - |p|..] == p
  }

  /** Python's `sep.join(parts)`. */
  function Join(parts: seq<string>, sep: string): string
    decreases |parts|
  {
    if |parts| == 0 then ""
    else if |parts| == 1 then parts[0]
    else parts[0] + sep + Join(parts[1..], sep)
  }

  /** Joining one more part appends the separator and that part. */
  lemma {:induction false} JoinSnoc(parts: seq<string>, p: string, sep: string)
    requires |parts| > 0
    ensures Join(parts + [p], sep) == Join(parts, sep) + sep + p
    decreases |parts|
  {
    if |parts| == 1 {
      assert (parts + [p])[1..] == [p];
    } else {
      assert (parts + [p])[1..] == parts[1..] + [p];
      JoinSnoc(parts[1..], p, sep);
    }
  }

  /** Joins of two, three and four parts, spelled out. */
  lemma Join2(a: string, b: string, sep: string)
    ensures Join([a, b], sep) == a + sep + b
  {
    assert [a, b][1..] == [b];
  }

  lemma Join3(a: string, b: string, c: string, sep: string)
    ensures Join([a, b, c], sep) == a + sep + b + sep + c
  {
    assert [a, b, c][1..] == [b, c];
    Join2(b, c, sep);
  }

  lemma Join4(a: string, b: string, c: string, d: string, sep: string)
    ensures Join([a, b, c, d], sep) == a + sep + b + sep + c + sep + d
  {
    assert [a, b, c, d][1..] == [b, c, d];
    Join3(b, c, d, sep);
  }

  /** Each word preceded by the separator, concatenated: what joining adds
      for words placed after a non-empty list. */
  function Prefixed(ws: seq<string>, sep: string): string
    decreases |ws|
  {
    if |ws| == 0 then "" else sep + ws[0] + Prefixed(ws[1..], sep)
  }

  lemma {:induction false} JoinPrefixed(parts: seq<string>, extra: seq<string>, sep: string)
    requires |parts| > 0
    ensures Join(parts + extra, sep) == Join(parts, sep) + Prefixed(extra, sep)
    decreases |extra|
  {
    if |extra| == 0 {
      assert parts + extra == parts;
    } else {
      JoinSnoc(parts, extra[0], sep);
      assert parts + extra == (parts + [extra[0]]) + extra[1..];
      JoinPrefixed(parts + [extra[0]], extra[1..], sep);
    }
  }

  /** A join starts with its first part. */
  lemma JoinStartsWithFirst(ps: seq<string>, sep: string)
    requires |ps| > 0
    ensures IsPrefix(ps[0], Join(ps, sep))
  {
  }

  /** Python's `s.split(c)` for a one-character separator: never empty, and
      an empty string gives `[""]`. */
  function Split(s: string, c: char): (r: seq<string>)
    ensures |r| > 0
    decreases |s|
  {
    if |s| == 0 then [""]
    else
      var rest := Split(s[1..], c);
      if s[0] == c then [""] + rest
      else [[s[0]] + rest[0]] + rest[1..]
  }

  /** A separator-free prefix stays glued to the first piece. */
  lemma {:induction false} SplitFreePrefix(p: string, t: string, c: char)
    requires c !in p
    ensures Split(p + t, c) == [p + Split(t, c)[0]] + Split(t, c)[1..]
    decreases |p|
  {
    if |p| == 0 {
      assert p + t == t;
      var r := Split(t, c);
      assert p + r[0] == r[0];
      assert [r[0]] + r[1..] == r;
    } else {
      assert (p + t)[0] == p[0];
      assert (p + t)[1..] == p[1..] + t;
      SplitFreePrefix(p[1..], t, c);
      assert [p[0]] + (p[1..] + Split(t, c)[0]) == p + Split(t, c)[0];
    }
  }

  /** Splitting undoes joining when no part contains the separator. */
  lemma {:induction false} SplitJoin(parts: seq<string>, c: char)
    requires |parts| > 0
    requires forall i :: 0 <= i < |parts| ==> c !in parts[i]
    ensures Split(Join(parts, [c]), c) == parts
    decreases |parts|
  {
    if |parts| == 1 {
      SplitFreePrefix(parts[0], "", c);
      assert parts[0] + "" == parts[0];
    } else {
      var tail := Join(parts[1..], [c]);
      assert Join(parts, [c]) == parts[0] + ([c] + tail);
      SplitFreePrefix(parts[0], [c] + tail, c);
      assert ([c] + tail)[1..] == tail;
      SplitJoin(parts[1..], c);
      assert Split([c] + tail, c) == [""] + parts[1..];
      assert parts[0] + "" == parts[0];
      assert [parts[0]] + parts[1..] == parts;
    }
  }

  /** Joining is injective on separator-free parts. */
  lemma JoinInjective(a: seq<string>, b: seq<string>, c: char)
    requires |a| > 0 && |b| > 0
    requires forall i :: 0 <= i < |a| ==> c !in a[i]
    requires forall i :: 0 <= i < |b| ==> c !in b[i]
    requires Join(a, [c]) == Join(b, [c])
    ensures a == b
  {
    SplitJoin(a, c);
    SplitJoin(b, c);
  }

  /** A separator-free head ends at the first separator, so a string of the
      form head, separator, rest determines both. */
  lemma SplitAtFirst(x: string, y: string, x2: string, y2: string, c: char)
    requires c !in x && c !in x2
    requires x + [c] + y == x2 + [c] + y2
    ensures x == x2 && y == y2
  {
    var s := x + ([c] + y);
    assert s == x + [c] + y && s == x2 + ([c] + y2);
    SplitFreePrefix(x, [c] + y, c);
    SplitFreePrefix(x2, [c] + y2, c);
    assert Split([c] + y, c)[0] == "" && Split([c] + y2, c)[0] == "";
    assert Split(s, c)[0] == x + "" == x;
    assert Split(s, c)[0] == x2 + "" == x2;
    assert s[|x| + 1..] == y;
    assert s[|x2| + 1..] == y2;
  }

  /** Python's `sub in s`. */
  predicate Contains(s: string, sub: string)
    decreases |s|
  {
    IsPrefix(sub, s) || (|s| > 0 && Contains(s[1..], sub))
  }

  /** `sub` occurs in `s` starting at index `i`. */
  predicate OccursAt(s: string, sub: string, i: int) {
    0 <= i <= |s| - |sub| && s[i..i + |sub|] == sub
  }

  /** `Contains` holds exactly when `sub` occurs at some position of `s`. */
  lemma {:induction false} ContainsIffOccurs(s: string, sub: string)
    ensures Contains(s, sub) <==> exists i :: OccursAt(s, sub, i)
    decreases |s|
  {
    if IsPrefix(sub, s) {
      assert OccursAt(s, sub, 0);
    } else if |s| == 0 {
    } else {
      ContainsIffOccurs(s[1..], sub);
      if Contains(s[1..], sub) {
        var i :| OccursAt(s[1..], sub, i);
        assert s[1..][i..i + |sub|] == s[i + 1..i + 1 + |sub|];
        assert OccursAt(s, sub, i + 1);
      }
      if exists i :: OccursAt(s, sub, i) {
        var i :| OccursAt(s, sub, i);
        if i > 0 {
          assert s[1..][i - 1..i - 1 + |sub|] == s[i..i + |sub|];
          assert OccursAt(s[1..], sub, i - 1);
        }
      }
    }
  }

  /** The empty string occurs in every string. */
  lemma ContainsEmpty(s: string)
    ensures Contains(s, "")
  {
    assert IsPrefix("", s);
  }

  predicate IsDigit(ch: char) {
    '0' <= ch <= '9'
  }

  predicate AllDigits(s: string) {
    forall i :: 0 <= i < |s| ==> IsDigit(s[i])
  }

  function DigitChar(d: nat): (ch: char)
    requires d < 10
    ensures IsDigit(ch)
  {
    (48 + d) as char
  }

  function DigitValue(ch: char): (d: nat)
    requires IsDigit(ch)
    ensures d < 10
  {
    ch as int - 48
  }

  /** Python's `str(n)` for a non-negative integer. */
  function NatToString(n: nat): (r: string)
    ensures |r| > 0 && AllDigits(r)
    ensures n < 10 <==> |r| == 1
    ensures n < 100 <==> |r| <= 2
    decreases n
  {
    if n < 10 then [DigitChar(n)] else NatToString(n / 10) + [DigitChar(n % 10)]
  }

  /** Python's `str(i)` for any integer. */
  function IntToString(i: int): string {
    if i < 0 then "-" + NatToString(-i) else NatToString(i)
  }

  /** Python's `int(s)` on a string of ASCII digits (leading zeros allowed). */
  function ParseNat(s: string): nat
    requires AllDigits(s)
    decreases |s|
  {
    if |s| == 0 then 0 else 10 * ParseNat(s[..|s| - 1]) + DigitValue(s[|s| - 1])
  }

  /** Reading back a printed numeral gives the number. */
  lemma {:induction false} ParseNatToString(n: nat)
    ensures ParseNat(NatToString(n)) == n
    decreases n
  {
    var r := NatToString(n);
    if n < 10 {
      assert r[..0] == "";
    } else {
      ParseNatToString(n / 10);
      assert r[..|r| - 1] == NatToString(n / 10);
    }
  }

  /** What `str(i)` prints: digits, with a leading minus sign when negative. */
  predicate IsNumeral(s: string) {
    (|s| > 0 && AllDigits(s)) || (|s| > 1 && s[0] == '-' && AllDigits(s[1..]))
  }

  /** Python's `int(s)` on such a numeral. */
  function ParseInt(s: string): int
    requires IsNumeral(s)
  {
    if |s| > 0 && AllDigits(s) then ParseNat(s) else -(ParseNat(s[1..]) as int)
  }

  /** Reading back a printed integer gives the integer. */
  lemma ParseIntToString(i: int)
    ensures IsNumeral(IntToString(i)) && ParseInt(IntToString(i)) == i
    ensures ' ' !in IntToString(i)
  {
    if i < 0 {
      ParseNatToString(-i);
      NegativeNumeral(NatToString(-i));
    } else {
      ParseNatToString(i);
      DigitsNoSpace(NatToString(i));
    }
  }

  lemma DigitsNoSpace(d: string)
    requires AllDigits(d)
    ensures ' ' !in d
  {
    assert forall k :: 0 <= k < |d| ==> d[k] != ' ';
  }

  /** A minus sign before a numeral: a numeral that is not all digits,
      read without its sign, with no space in it. */
  lemma NegativeNumeral(d: string)
    requires |d| > 0 && AllDigits(d)
    ensures IsNumeral("-" + d) && !AllDigits("-" + d) && ("-" + d)[1..] == d
    ensures ' ' !in "-" + d
  {
    var s := "-" + d;
    assert s[1..] == d;
    assert !IsDigit(s[0]);
    forall k | 0 <= k < |s| ensures s[k] != ' ' {
      if k > 0 {
        assert s[k] == d[k - 1];
      }
    }
  }

  /** A printed integer holds only digits and the minus sign. */
  lemma IntToStringChars(i: int, k: int)
    requires 0 <= k < |IntToString(i)|
    ensures IsDigit(IntToString(i)[k]) || IntToString(i)[k] == '-'
  {
    if i < 0 && k > 0 {
      assert IntToString(i)[k] == NatToString(-i)[k - 1];
    }
  }

  /** The whitespace set of Python's `str.isspace`, which `str.split()` splits on. */
  predicate IsSpace(ch: char) {
    var c := ch as int;
    c == 32 || 9 <= c <= 13 || 28 <= c <= 31 || c == 0x85 || c == 0xA0 || c == 0x1680
    || 0x2000 <= c <= 0x200A || c == 0x2028 || c == 0x2029 || c == 0x202F || c == 0x205F
    || c == 0x3000
  }

  /** A token `str.split()` can produce: non-empty, no whitespace. */
  predicate IsWord(w: string) {
    |w| > 0 && forall i :: 0 <= i < |w| ==> !IsSpace(w[i])
  }

  /** The longest whitespace-free prefix of `s`. */
  function WordAt(s: string): (w: string)
    ensures IsPrefix(w, s)
    ensures forall i :: 0 <= i < |w| ==> !IsSpace(w[i])
    ensures |w| == |s| || IsSpace(s[|w|])
    decreases |s|
  {
    if |s| == 0 || IsSpace(s[0]) then "" else [s[0]] + WordAt(s[1..])
  }

  /** Python's `s.split()`: the maximal runs of non-whitespace, in order. */
  function Words(s: string): (r: seq<string>)
    ensures forall i :: 0 <= i < |r| ==> IsWord(r[i])
    decreases |s|
  {
    if |s| == 0 then []
    else if IsSpace(s[0]) then Words(s[1..])
    else
      var w := WordAt(s);
      [w] + Words(s[|w|..])
  }

  lemma {:induction false} WordAtOfWord(w: string, t: string)
    requires forall i :: 0 <= i < |w| ==> !IsSpace(w[i])
    requires |t| == 0 || IsSpace(t[0])
    ensures WordAt(w + t) == w
    decreases |w|
  {
    if |w| == 0 {
      assert w + t == t;
    } else {
      assert (w + t)[1..] == w[1..] + t;
      WordAtOfWord(w[1..], t);
      assert [w[0]] + w[1..] == w;
    }
  }

  /** Splitting a single-space join of words gives the words back. */
  lemma {:induction false} WordsJoin(ws: seq<string>)
    requires forall i :: 0 <= i < |ws| ==> IsWord(ws[i])
    ensures Words(Join(ws, " ")) == ws
    decreases |ws|
  {
    if |ws| == 0 {
    } else if |ws| == 1 {
      WordAtOfWord(ws[0], "");
      assert ws[0] + "" == ws[0];
      assert ws[0][|ws[0]|..] == "";
    } else {
      var w := ws[0];
      var tail := Join(ws[1..], " ");
      var s := w + (" " + tail);
      assert Join(ws, " ") == s;
      WordAtOfWord(w, " " + tail);
      assert s[|w|..] == " " + tail;
      assert (" " + tail)[1..] == tail;
      WordsJoin(ws[1..]);
      assert [w] + ws[1..] == ws;
    }
  }

  function LowerChar(ch: char): char {
    if 'A' <= ch <= 'Z' then (ch as int + 32) as char else ch
  }

  function UpperChar(ch: char): char {
    if 'a' <= ch <= 'z' then (ch as int - 32) as char else ch
  }

  /** `str.lower()` restricted to ASCII letters. */
  function Lower(s: string): (r: string)
    ensures |r| == |s|
  {
    seq(|s|, i requires 0 <= i < |s| => LowerChar(s[i]))
  }

  /** Lower-casing twice is lower-casing once. */
  lemma LowerIdempotent(s: string)
    ensures Lower(Lower(s)) == Lower(s)
  {
    assert forall i :: 0 <= i < |s| ==> Lower(Lower(s))[i] == Lower(s)[i];
  }

  /** `str.upper()` restricted to ASCII letters. */
  function Upper(s: string): (r: string)
    ensures |r| == |s|
  {
    seq(|s|, i requires 0 <= i < |s| => UpperChar(s[i]))
  }
}

=== FILE: time_util.dfy ===
/** Integer duration formatting (`human`) and flooring the current time to a
    multiple of `top` minutes (`floor_time`), with the clock reading passed
    in. */
module TimeUtil {
  import opened Wrappers
  import opened Strings

  // ---------------------------------------------------------------------
  // human
  // ---------------------------------------------------------------------

  /** A duration split into days, hours, minutes and seconds. */
  datatype Span = Span(days: int, hours: int, minutes: int, seconds: int)

  /** The four quantities `human` computes with floor division and modulo. */
  function Components(n: int): (c: Span)
    ensures 0 <= c.hours < 24 && 0 <= c.minutes < 60 && 0 <= c.seconds < 60
    ensures c.days * 86400 + c.hours * 3600 + c.minutes * 60 + c.seconds == n
    ensures n >= 0 ==> c.days >= 0
  {
    var q1 := n / 60;
    var q2 := q1 / 60;
    assert n == 60 * q1 + n % 60;
    assert q1 == 60 * q2 + q1 % 60;
    assert q2 == 24 * (q2 / 24) + q2 % 24;
    Span(q2 / 24, q2 % 24, q1 % 60, n % 60)
  }

  /** `f"{int(v)} {unit}"`. */
  function Piece(v: nat, unit: string): string {
    NatToString(v) + " " + unit
  }

  /** The piece for one quantity when it is positive. */
  function PieceIf(v: int, unit: string): seq<string> {
    if v > 0 then [Piece(v, unit)] else []
  }

  /** The `builder` list: days, hours, minutes, seconds, each only when
      positive. */
  function Pieces(c: Span): seq<string> {
    PieceIf(c.days, "days") + PieceIf(c.hours, "hours") + PieceIf(c.minutes, "minutes") + PieceIf(c.seconds, "seconds")
  }

  /** `human(total_seconds)`. */
  function Human(n: int): string {
    Join(Pieces(Components(n)), ", ")
  }

  /** Nothing is listed for a zero duration. */
  lemma HumanZero()
    ensures Human(0) == ""
  {
    assert Pieces(Components(0)) == [];
  }

  // The reading-back side: split on commas, drop the space after each
  // comma, and read each piece as a numeral and a unit name.

  function Unspace(p: string): string {
    if |p| > 0 && p[0] == ' ' then p[1..] else p
  }

  function ParsePiece(p: string): Option<(string, nat)> {
    var ws := Split(p, ' ');
    if |ws| == 2 && |ws[0]| > 0 && AllDigits(ws[0]) then Some((ws[1], ParseNat(ws[0]))) else None
  }

  function SetUnit(c: Span, unit: string, v: nat): Option<Span> {
    if unit == "days" then Some(c.(days := v))
    else if unit == "hours" then Some(c.(hours := v))
    else if unit == "minutes" then Some(c.(minutes := v))
    else if unit == "seconds" then Some(c.(seconds := v))
    else None
  }

  function ParsePieces(ps: seq<string>): Option<Span>
    decreases |ps|
  {
    if |ps| == 0 then Some(Span(0, 0, 0, 0))
    else
      match ParsePieces(ps[..|ps| - 1])
      case None => None
      case Some(acc) =>
        match ParsePiece(ps[|ps| - 1])
        case None => None
        case Some(uv) => SetUnit(acc, uv.0, uv.1)
  }

  /** The comma-separated pieces with the space after each comma dropped. */
  function Unspaced(raw: seq<string>): (r: seq<string>)
    requires |raw| > 0
    ensures |r| == |raw| && r[0] == raw[0]
    ensures forall i :: 0 < i < |raw| ==> r[i] == Unspace(raw[i])
  {
    [raw[0]] + seq(|raw| - 1, i requires 0 <= i < |raw| - 1 => Unspace(raw[i + 1]))
  }

  /** Reads a `human` string back into its quantities. */
  function ParseHuman(s: string): Option<Span> {
    if s == "" then Some(Span(0, 0, 0, 0))
    else ParsePieces(Unspaced(Split(s, ',')))
  }

  function Spaced(ps: seq<string>): (r: seq<string>)
    ensures |r| == |ps|
    ensures forall i :: 0 <= i < |ps| ==> r[i] == " " + ps[i]
  {
    seq(|ps|, i requires 0 <= i < |ps| => " " + ps[i])
  }

  lemma SpaceJoin(x: string, rest: seq<string>)
    ensures " " + Join([x] + rest, ",") == Join([" " + x] + rest, ",")
  {
    if |rest| > 0 {
      assert ([x] + rest)[1..] == rest;
      assert ([" " + x] + rest)[1..] == rest;
    }
  }

  /** Joining with `", "` is joining the re-spaced pieces with `","`. */
  lemma {:induction false} JoinCommaSpace(ps: seq<string>)
    requires |ps| > 0
    ensures Join(ps, ", ") == Join([ps[0]] + Spaced(ps[1..]), ",")
    decreases |ps|
  {
    if |ps| > 1 {
      var tail := ps[1..];
      JoinCommaSpace(tail);
      assert Spaced(tail) == [" " + tail[0]] + Spaced(tail[1..]);
      SpaceJoin(tail[0], Spaced(tail[1..]));
      assert ([ps[0]] + Spaced(tail))[1..] == Spaced(tail);
      assert tail[1..] == ps[2..];
    }
  }

  predicate IsUnit(u: string) {
    u == "days" || u == "hours" || u == "minutes" || u == "seconds"
  }

  lemma ParsePieceOf(v: nat, u: string)
    requires IsUnit(u)
    ensures ParsePiece(Piece(v, u)) == Some((u, v))
  {
    var d := NatToString(v);
    assert Join([d, u], " ") == Piece(v, u);
    assert forall i :: 0 <= i < |d| ==> d[i] != ' ';
    SplitJoin([d, u], ' ');
    ParseNatToString(v);
  }

  lemma ParsePiecesSnoc(ps: seq<string>, v: nat, u: string)
    requires IsUnit(u)
    ensures ParsePieces(ps + [Piece(v, u)])
            == match ParsePieces(ps) case None => None case Some(acc) => SetUnit(acc, u, v)
  {
    assert (ps + [Piece(v, u)])[..|ps|] == ps;
    ParsePieceOf(v, u);
  }

  lemma ParsePiecesIf(ps: seq<string>, v: int, u: string)
    requires IsUnit(u) && v >= 0
    ensures ParsePieces(ps + PieceIf(v, u))
            == match ParsePieces(ps) case None => None
               case Some(acc) => if v > 0 then SetUnit(acc, u, v) else Some(acc)
  {
    if v > 0 {
      ParsePiecesSnoc(ps, v, u);
    } else {
      assert ps + [] == ps;
    }
  }

  /** Reading the pieces back gives every quantity that is not negative. */
  lemma ParsePiecesOfPieces(c: Span)
    requires c.hours >= 0 && c.minutes >= 0 && c.seconds >= 0
    ensures ParsePieces(Pieces(c)) == Some(c.(days := if c.days > 0 then c.days else 0))
  {
    var d := if c.days > 0 then c.days else 0;
    var p1 := PieceIf(c.days, "days");
    var p2 := p1 + PieceIf(c.hours, "hours");
    var p3 := p2 + PieceIf(c.minutes, "minutes");
    assert Pieces(c) == p3 + PieceIf(c.seconds, "seconds");
    ParseDaysPiece(c.days);
    ParseHoursPiece(p1, d, c.hours);
    ParseMinutesPiece(p2, d, c.hours, c.minutes);
    ParseSecondsPiece(p3, d, c.hours, c.minutes, c.seconds);
  }

  lemma ParseHoursPiece(ps: seq<string>, d: int, h: int)
    requires ParsePieces(ps) == Some(Span(d, 0, 0, 0)) && h >= 0
    ensures ParsePieces(ps + PieceIf(h, "hours")) == Some(Span(d, h, 0, 0))
  {
    ParsePiecesIf(ps, h, "hours");
  }

  lemma ParseMinutesPiece(ps: seq<string>, d: int, h: int, m: int)
    requires ParsePieces(ps) == Some(Span(d, h, 0, 0)) && m >= 0
    ensures ParsePieces(ps + PieceIf(m, "minutes")) == Some(Span(d, h, m, 0))
  {
    ParsePiecesIf(ps, m, "minutes");
  }

  lemma ParseSecondsPiece(ps: seq<string>, d: int, h: int, m: int, s: int)
    requires ParsePieces(ps) == Some(Span(d, h, m, 0)) && s >= 0
    ensures ParsePieces(ps + PieceIf(s, "seconds")) == Some(Span(d, h, m, s))
  {
    ParsePiecesIf(ps, s, "seconds");
  }

  /** The days piece alone reads back as the days, or as nothing. */
  lemma ParseDaysPiece(days: int)
    ensures ParsePieces(PieceIf(days, "days")) == Some(Span(if days > 0 then days else 0, 0, 0, 0))
  {
    ParsePiecesIf([], if days > 0 then days else 0, "days");
    assert [] + PieceIf(days, "days") == PieceIf(days, "days");
  }

  predicate CommaFree(ps: seq<string>) {
    forall i :: 0 <= i < |ps| ==> |ps[i]| > 0 && ',' !in ps[i]
  }

  lemma PiecesCommaFree(c: Span)
    ensures CommaFree(Pieces(c))
  {
    var p1 := PieceIf(c.days, "days");
    var p2 := PieceIf(c.hours, "hours");
    var p3 := PieceIf(c.minutes, "minutes");
    var p4 := PieceIf(c.seconds, "seconds");
    PieceIfCommaFree(c.days, "days");
    PieceIfCommaFree(c.hours, "hours");
    PieceIfCommaFree(c.minutes, "minutes");
    PieceIfCommaFree(c.seconds, "seconds");
    CommaFreeAppend(p1, p2);
    CommaFreeAppend(p1 + p2, p3);
    CommaFreeAppend(p1 + p2 + p3, p4);
  }

  lemma PieceIfCommaFree(v: int, u: string)
    requires IsUnit(u)
    ensures CommaFree(PieceIf(v, u))
  {
    if v > 0 {
      var d := NatToString(v);
      assert forall i :: 0 <= i < |d| ==> d[i] != ',';
      assert ',' !in u;
      assert ',' !in d + " " + u;
    }
  }

  lemma CommaFreeAppend(a: seq<string>, b: seq<string>)
    requires CommaFree(a) && CommaFree(b)
    ensures CommaFree(a + b)
  {
    forall i | 0 <= i < |a + b| ensures |(a + b)[i]| > 0 && ',' !in (a + b)[i] {
      if i < |a| {
        assert (a + b)[i] == a[i];
      } else {
        assert (a + b)[i] == b[i - |a|];
      }
    }
  }

  /** Splitting a `", "`-join of comma-free pieces on the commas gives the
      pieces, each after the first with its leading space. */
  lemma SplitCommaJoined(ps: seq<string>)
    requires |ps| > 0 && CommaFree(ps)
    ensures Split(Join(ps, ", "), ',') == [ps[0]] + Spaced(ps[1..])
  {
    var parts := [ps[0]] + Spaced(ps[1..]);
    JoinCommaSpace(ps);
    forall i | 0 <= i < |parts| ensures ',' !in parts[i] {
      if i > 0 {
        assert parts[i] == " " + ps[i];
      }
    }
    SplitJoin(parts, ',');
  }

  lemma UnspacedSpaced(ps: seq<string>)
    requires |ps| > 0
    ensures Unspaced([ps[0]] + Spaced(ps[1..])) == ps
  {
    var parts := [ps[0]] + Spaced(ps[1..]);
    var back := Unspaced(parts);
    forall i | 0 < i < |ps| ensures back[i] == ps[i] {
      assert parts[i] == " " + ps[i];
    }
  }

  /** Reading back a `", "`-join of comma-free pieces reads the pieces. */
  lemma ParseJoined(ps: seq<string>)
    requires |ps| > 0 && CommaFree(ps)
    ensures ParseHuman(Join(ps, ", ")) == ParsePieces(ps)
  {
    var s := Join(ps, ", ");
    JoinStartsWithFirst(ps, ", ");
    assert |s| > 0;
    SplitCommaJoined(ps);
    UnspacedSpaced(ps);
  }

  /** Reading back a `human` string recovers every quantity: `human`
      loses nothing, except the days of a negative duration. */
  lemma HumanRoundTrip(n: int)
    ensures var c := Components(n);
            ParseHuman(Human(n)) == Some(c.(days := if c.days > 0 then c.days else 0))
  {
    var c := Components(n);
    ParsePiecesOfPieces(c);
    if |Pieces(c)| > 0 {
      PiecesCommaFree(c);
      ParseJoined(Pieces(c));
    }
  }

  /** Distinct non-negative durations print differently. */
  lemma HumanInjective(a: int, b: int)
    requires a >= 0 && b >= 0 && Human(a) == Human(b)
    ensures a == b
  {
    HumanRoundTrip(a);
    HumanRoundTrip(b);
  }

  // ---------------------------------------------------------------------
  // floor_time
  // ---------------------------------------------------------------------

  /** The fields of a `datetime` that `floor_time` reads or replaces. */
  datatype DateTime = DateTime(year: int, month: int, day: int, hour: int, minute: int, second: int, microsecond: int)

  predicate ValidTime(t: DateTime) {
    0 <= t.hour <= 23 && 0 <= t.minute <= 59 && 0 <= t.second <= 59 && 0 <= t.microsecond <= 999999
  }

  /** `num % top` with `top == 0`, and a `replace` outside a field's range. */
  datatype TimeError = ZeroDivision | ValueError

  function Abs(t: int): int {
    if t < 0 then -t else t
  }

  /** The largest multiple of `top` not above `x`. */
  function FloorMinute(x: int, top: int): int
    requires top != 0
  {
    x - x % top
  }

  lemma FloorMinuteFacts(x: int, top: int)
    requires top != 0
    ensures FloorMinute(x, top) % top == 0
    ensures FloorMinute(x, top) <= x < FloorMinute(x, top) + Abs(top)
    ensures x >= 0 ==> FloorMinute(x, top) >= 0
  {
    var t := Abs(top);
    ModAbs(x, top);
    FloorMultiple(x, t);
    ModAbs(FloorMinute(x, top), top);
    DivMod(x, t);
    if x >= 0 {
      ModBelow(x, t);
    }
  }

  /** The closed form of `floor_time`: the minute drops to the largest
      multiple of `top` not above it; a negative minute borrows whole
      hours. */
  function FloorSpec(now: DateTime, top: int): Result<DateTime, TimeError> {
    if top == 0 then Failure(ZeroDivision)
    else
      var m := FloorMinute(now.minute, top);
      if m >= 0 then
        if m <= 59 then Success(now.(minute := m, second := 0, microsecond := 0)) else Failure(ValueError)
      else
        var b := (59 - m) / 60;
        if now.hour - 1 > 23 || now.hour - b < 0 then Failure(ValueError)
        else Success(now.(hour := now.hour - b, minute := m + 60 * b, second := 0, microsecond := 0))
  }

  lemma MulStep(t: int, d: int)
    ensures t * d == t * (d - 1) + t
  {
  }

  lemma {:induction false} MulAtLeast(t: int, d: int)
    requires t > 0 && d >= 1
    ensures t * d >= t
    decreases d
  {
    if d > 1 {
      MulAtLeast(t, d - 1);
      MulStep(t, d);
    }
  }

  lemma DivMod(x: int, t: int)
    requires t > 0
    ensures x == t * (x / t) + x % t && 0 <= x % t < t
  {
  }

  /** The Euclidean remainder depends only on the divisor's magnitude. */
  lemma ModAbs(x: int, t: int)
    requires t != 0
    ensures x % t == x % Abs(t)
  {
    if t < 0 {
      ModNeg(x, -t);
    }
  }

  lemma ModNeg(x: int, t: int)
    requires t > 0
    ensures x % (-t) == x % t
  {
  }

  /** Two multiples of `t` less than `t` apart are equal. */
  lemma MultipleUnique(a: int, b: int, t: int)
    requires t > 0 && a % t == 0 && b % t == 0 && 0 <= a - b < t
    ensures a == b
  {
    DivMod(a, t);
    DivMod(b, t);
    var d := a / t - b / t;
    assert a - b == t * d;
    if d >= 1 {
      MulAtLeast(t, d);
    }
  }

  lemma ModBelow(x: int, t: int)
    requires t > 0 && x >= 0
    ensures x % t <= x
  {
    DivMod(x, t);
    var q := x / t;
    if q >= 1 {
      MulAtLeast(t, q);
    }
  }

  /** Rounding down to a multiple of `t` gives a multiple of `t`. */
  lemma FloorMultiple(x: int, t: int)
    requires t > 0
    ensures (x - x % t) % t == 0
  {
    var q := x / t;
    DivMod(x, t);
    var y := x - x % t;
    assert y == t * q;
    DivMod(y, t);
    var d := q - y / t;
    assert y % t == t * d;
    if d >= 1 {
      MulAtLeast(t, d);
    }
  }

  lemma BorrowCount(m: int, k: int)
    requires m < 0 && m + 60 * (k - 1) < 0 && 0 <= m + 60 * k
    ensures k == (59 - m) / 60
  {
  }

  /** `floor_time(top=top)` with the clock reading `now`: the loops of the
      source, step by step. */
  method FloorTime(now: DateTime, top: int) returns (r: Result<DateTime, TimeError>)
    ensures r == FloorSpec(now, top)
    ensures ValidTime(now) && top != 0 ==>
              && r.Success?
              && r.value.hour == now.hour
              && r.value.second == 0 && r.value.microsecond == 0
              && r.value.minute <= now.minute && r.value.minute % top == 0
              && now.minute - r.value.minute < Abs(top)
  {
    if top == 0 {
      return Failure(ZeroDivision);
    }
    ghost var lower := FloorMinute(now.minute, top);
    FloorMinuteFacts(now.minute, top);
    var num := now.minute;
    while num % top != 0
      invariant lower <= num <= now.minute
      decreases num - lower
    {
      num := num - 1;
    }
    FirstMultiple(now.minute, top, num);
    var time := now;
    ghost var k := 0;
    while num < 0
      invariant num == lower + 60 * k && 0 <= k
      invariant k > 0 ==> num < 60
      invariant k > 0 ==> lower + 60 * (k - 1) < 0
      invariant time == now.(hour := now.hour - k)
      invariant k > 0 ==> now.hour - 1 <= 23 && now.hour - k >= 0
      decreases -num
    {
      num := num + 60;
      if !(0 <= time.hour - 1 <= 23) {
        BorrowFails(now, top, k);
        return Failure(ValueError);
      }
      time := time.(hour := time.hour - 1);
      k := k + 1;
    }
    if num > 59 {
      return Failure(ValueError);
    }
    r := Success(time.(minute := num, second := 0, microsecond := 0));
    if lower < 0 {
      BorrowCount(lower, k);
    }
  }

  /** The loop stops at the largest multiple not above the minute. */
  lemma FirstMultiple(x: int, top: int, num: int)
    requires top != 0 && FloorMinute(x, top) <= num <= x && num % top == 0
    ensures num == FloorMinute(x, top)
  {
    FloorMinuteFacts(x, top);
    ModAbs(num, top);
    ModAbs(FloorMinute(x, top), top);
    MultipleUnique(num, FloorMinute(x, top), Abs(top));
  }

  lemma BorrowFails(now: DateTime, top: int, k: int)
    requires top != 0 && 0 <= k
    requires FloorMinute(now.minute, top) + 60 * k < 0
    requires k > 0 ==> now.hour - 1 <= 23 && now.hour - k >= 0
    requires !(0 <= now.hour - k - 1 <= 23)
    ensures FloorSpec(now, top) == Failure(ValueError)
  {
    var m := FloorMinute(now.minute, top);
    if now.hour - 1 <= 23 {
      BorrowBound(m, k + 1);
    }
  }

  lemma BorrowBound(m: int, k: int)
    requires m < 0 && k >= 1 && m + 60 * (k - 1) < 0
    ensures (59 - m) / 60 >= k
  {
  }

  /** On a valid reading the minute floors without borrowing an hour. */
  lemma FloorSpecValid(now: DateTime, top: int)
    requires 0 <= now.minute <= 59 && top != 0
    ensures FloorSpec(now, top) == Success(now.(minute := FloorMinute(now.minute, top), second := 0, microsecond := 0))
  {
    FloorMinuteFacts(now.minute, top);
  }

  /** Flooring a floored reading changes nothing. */
  lemma FloorIdempotent(now: DateTime, top: int)
    requires ValidTime(now) && top != 0
    ensures FloorSpec(now, top).Success?
    ensures FloorSpec(FloorSpec(now, top).value, top) == FloorSpec(now, top)
  {
    FloorSpecValid(now, top);
    var m := FloorMinute(now.minute, top);
    FloorMinuteFacts(now.minute, top);
    var r := now.(minute := m, second := 0, microsecond := 0);
    FloorSpecValid(r, top);
    MultipleFloorsToItself(m, top);
  }

  lemma MultipleFloorsToItself(m: int, top: int)
    requires top != 0 && m % top == 0
    ensures FloorMinute(m, top) == m
  {
  }
}

=== FILE: wrappers.dfy ===
/** Optional values and error-carrying results, used in place of Python's
    `None` and of raised exceptions. */
module Wrappers {

  /** A value that may be absent (Python's `None`). */
  datatype Option<+T> = None | Some(value: T) {

    /** The value, or `default` when absent. */
    function GetOr(default: T): T {
      match this
      case Some(v) => v
      case None => default
    }
  }

  /** The outcome of an operation that may raise. */
  datatype Result<+T, +E> = Success(value: T) | Failure(error: E) {

    predicate IsFailure() {
      Failure?
    }

    function PropagateFailure<U>(): Result<U, E>
      requires Failure?
    {
      Failure(error)
    }

    function Extract(): T
      requires Success?
    {
      value
    }
  }
}
